=== FILE: README.md ===
# Agentic Discord admin bot — a Dafny model

This project models the core of a Discord administration bot that hands an
administrator's request to a Gemini model and lets the model act through tools.
It covers:

- **The reasoning loop (`Agent`).** Each round calls the model service. A
  throttled call (error text containing `429` or `RESOURCE_EXHAUSTED`) is
  retried up to three attempts in all. Each retry emits a numbered notice and
  sleeps for the suggested delay plus two seconds per attempt. A round then
  either ends the run or runs the requested tool calls in order:
  - a hard cap of 25 tool calls per request;
  - the per-tool rate limiter;
  - the confirmation gate for destructive tools;
  - the registry lookup;
  - the normalisation of a tool's result into a function-response object.

  The run stops after 25 rounds. Every run ends with exactly one final response.
- **The per-tool rate limiter (`RateLimiting`).** It keeps one timestamp per
  tool name. It has a longer cooldown for moderation tools and a default one
  for the rest.
- **The host (`Bot`, `Chunking`).** This is how the bot handles a message:
  - the guards of `on_message` and the cooldown between accepted messages;
  - the per-channel history, trimmed to 20 turns;
  - the approve/reject prompt for a confirmation request;
  - splitting a long final text into chunks of at most 2000 characters. The host
    posts the corrected split, which never cuts at index 0 (see Findings).
- **The tools that hold logic of their own (`Info`, `Channels`, `Moderation`, `Helpers`).**
  - the name and id lookups;
  - message history and search;
  - member counts, the role list, a member's info, the audit log and the channel list;
  - channel creation, editing and moving;
  - permission overwrites;
  - bans, timeouts, purges and warnings.

Time is an integer clock in milliseconds. These are parameters of the model:

- what the model service answers, given as an `Environment`;
- each approver decision and each tool's outcome, in the same `Environment`;
- the clock, the database's answer and whether a direct message was delivered.

Each tool returns the request it would make to Discord as a value.

Python's `str` operations that the code relies on are modelled in `Text`, with
ASCII case and whitespace. `Wrappers` holds `Option` and `Result`. A `Failure`
stands for a raised `ValueError`. `Helpers.Reply` also separates "returned an
`{"error": ...}` object" from "raised".

Notes on the program's behaviour, which the model follows:

- the retry notice always says "retrying in 30s", whatever the actual delay;
- `search_messages` keeps at least one hit even when `count` is zero or negative;
- a confirmation request is created with `approved = False` rather than as a
  pending third state.

## Model

| member | source | states |
|---|---|---|
| Agent.RetryDelay | src/agent/llm_client.py:153 | the delay before retry number `attempt` is at least `attempt` times the 2 s penalty, and is exactly 30 s plus that penalty when the error suggests no delay |
| Agent.CallModel | src/agent/llm_client.py:136-167 | 1 to 3 attempts. Every attempt before the last was a throttling error and got the notice "attempt k/3" and the delay for retry k. The round ends with a non-error reply, or with the last attempt's error, which is either not a throttle or the third attempt |
| Agent.AskFrom | src/agent/llm_client.py:136-167 | the retry policy from attempt `attempt` on: the answers it passes over are throttles; a reply ends it with that answer; an error ends it with the error's text, and only a non-throttle or the third attempt does |
| Agent.Ending | src/agent/llm_client.py:163-189 | a round goes on if and only if its model call gave a candidate with at least one function call; an error, an empty reply or a reply without calls ends the run |
| Agent.TurnGoesOn | src/agent/llm_client.py:180-259 | a round whose reply asks for tools yields its retry notices, then its calls' events, and adds the reply and the responses to the conversation |
| Agent.TurnStops | src/agent/llm_client.py:163-189 | a round that ends the run yields its retry notices, then the final response of its exit, and adds no tool-round exchanges; the run appends an answer's turn itself (llm_client.py:180) |
| Agent.Round | src/agent/llm_client.py:131-259 | one more round of a run adds one round, uses 1 to 3 of the service's answers, and never ends with the step limit |
| Agent.Rounds | src/agent/llm_client.py:131-132 | after `n` passes the run has at most `n` rounds and at most 3 answers used per round; a run still going has exactly `n`; a run that ended has at least one round |
| Agent.RunOf | src/agent/llm_client.py:114-262 | the reference run makes 1 to 25 rounds, and all 25 when it stops at the step limit |
| Agent.RoundsStay | src/agent/llm_client.py:163-189 | once a round ends the run, later passes of the loop change nothing |
| Agent.RoundsConsume | src/agent/llm_client.py:131-167 | the reference run uses the service's answers one round after another from the first: each round's call ends as the retry policy says for the answers where the previous round stopped, every round but the last asked for tools, and the last decided the exit |
| Agent.AnswerFirst | src/agent/llm_client.py:180-189 | a first answer with text and no calls ends the run in one round and one call, with its text as the final response and no tool-round exchanges; the run appends the answer turn itself (llm_client.py:180) |
| Agent.FailFirst | src/agent/llm_client.py:148-167 | a first answer that is an error but not a throttle ends the run in one round with "❌ LLM error: <its text>" |
| Agent.RetryThenAnswer | src/agent/llm_client.py:148-189 | a throttle, then an answer without calls: one retry notice numbered 1, then the answer's text, after two calls |
| Agent.HistoryRounds | src/agent/llm_client.py:131-132 | the loop's traces, one per pass from the start, are the reference run after as many passes |
| Agent.HistoryEnds | src/agent/llm_client.py:131-132 | when the loop stops, because a round ended the run or after 25 passes, its last trace is the reference run's final one |
| Agent.RoundRecord | src/agent/llm_client.py:134-259 | one more round adds exactly the events and exchanges of the round the retry policy gives for the next answers |
| Agent.Stopped | src/agent/llm_client.py:163-189 | a round that ends the run leaves a finished run whose state is the reference run's, ended the same way |
| Agent.WentOn | src/agent/llm_client.py:178-259 | a tool round leaves the loop's state equal to the reference run's after that round |
| Agent.Capped | src/agent/llm_client.py:261-262 | a run no round ended finishes with the step-limit response and agrees with the reference run |
| Agent.RunAgrees | src/agent/llm_client.py:131-262 | results that match the last trace of the loop are those of the reference run `RunOf` |
| Agent.ConfirmationsKeep | src/agent/llm_client.py:212-228 | the confirmations of the events so far and of one more round are those of all calls so far, and still no final response |
| Agent.GeminiAgent.Conclude | src/agent/llm_client.py:163-189 | an error, an empty reply or a reply without calls ends the run with its final response, the reference run's ending; the reply is added to the conversation for any reply without calls, nothing for an error or an empty reply |
| Agent.GeminiAgent.Answer | src/agent/llm_client.py:180-189 | a reply with parts and no calls ends the run as `Answered` with that reply: the reply is appended to the conversation, its joined text (or "✅ Done.") is the final response, and the state is the reference run's ending |
| Agent.GeminiAgent.Reason | src/agent/llm_client.py:131-262 | the loop: 1 to 25 rounds, a finished run, and results that agree with the reference run `RunOf` |
| Agent.FinalText | src/agent/llm_client.py:185-188 | the final text is never empty: the non-empty texts joined by newlines, or "✅ Done." when there are none |
| Agent.JoinNonEmpty | src/agent/llm_client.py:186 | joining a non-empty list of non-empty texts gives a non-empty text |
| Agent.AsObject | src/agent/llm_client.py:243 | an object result is passed as it is; anything else is wrapped as the only key `result` |
| Agent.Normalise | src/agent/llm_client.py:239-257 | an exception, or a string that does not decode, gives `{"error": text}`; a decoded value or other result gives that value as an object |
| Agent.Response | src/agent/llm_client.py:194-257 | the response to the i-th call of a run carries the call's name. Past the cap it is the limit error. An unapproved destructive call gets the rejection error. A call past the gate whose name is not registered gets "Unknown tool: <name>". A call that reaches its tool gets the normalised outcome |
| Agent.Responses | src/agent/llm_client.py:192-257 | one response per call, in the calls' order, numbered across the run |
| Agent.CallConfirmations | src/agent/llm_client.py:212-228 | one call yields exactly the confirmation request that `ConfirmationFor` describes, with its decision, and no final response |
| Agent.RoundConfirmations | src/agent/llm_client.py:194-257 | one reply's calls yield exactly one confirmation request per destructive call under the cap, in order, and no final response |
| Agent.ExecutedIndicesSound | src/agent/llm_client.py:199-240 | a call number reaches its tool if and only if it is one of the round's calls and `Executes` holds: under the cap, approved when destructive, and registered |
| Agent.ExecutionsCapped | src/agent/llm_client.py:199-208 | at most `25 - base` tools run from call number `base` on, and none once the cap is reached |
| Agent.Opening | src/agent/llm_client.py:121-126 | a run starts from the history followed by one user turn holding the message |
| Agent.NoticesKeepProgress | src/agent/llm_client.py:158-161 | retry notices keep the loop invariant: no final response yet, and confirmations in step with the calls |
| Agent.Finish | src/agent/llm_client.py:185-189 | appending the final response to a state that keeps the invariant gives a finished run: one final response, last |
| Agent.ExchangesExtend | src/agent/llm_client.py:180-259 | a model turn with calls, followed by the user turn of its responses, extends the series of tool rounds and appends its calls |
| Agent.RoundKeepsProgress | src/agent/llm_client.py:180-259 | a tool round keeps the loop invariant |
| Agent.RoundKeepsAccounts | src/agent/llm_client.py:194-259 | after a tool round, the executed calls and the confirmation requests are those of all calls so far |
| Agent.LimiterStep | src/agent/llm_client.py:210 | handling one call keeps every earlier recorded time and records a time for the call when it is under the cap |
| Agent.GeminiAgent.constructor | src/agent/llm_client.py:101-105 | a new agent has a fresh limiter with no records and no stored conversation |
| Agent.GeminiAgent.HandleCall | src/agent/llm_client.py:195-257 | one call gives the response, events and executed flag of the specification functions. Past the cap the limiter is untouched. Otherwise the limiter records the time its sleep ends, for that name only |
| Agent.GeminiAgent.ProcessCalls | src/agent/llm_client.py:192-259 | a reply's calls give `Responses`, `RoundEvents` and `ExecutedIndices`. Afterwards every call under the cap has a recorded time, and only the called names changed |
| Agent.GeminiAgent.ToolRound | src/agent/llm_client.py:180-259 | the model turn and its responses are appended, and the loop invariant is kept |
| Agent.GeminiAgent.AskModel | src/agent/llm_client.py:134-167 | the round's model call ends as the retry policy `Ask` says for the answers from `env.replies[s.served]` on. It uses that many answers, adds exactly the retry notices `Notices`, advances the clock by the sum of the retry sleeps, and keeps the loop invariant |
| Agent.GeminiAgent.Step | src/agent/llm_client.py:134-259 | a round ends the run exactly when `Round` says the round of the reference run ends it, with the same exit: an error, an empty reply, or a reply without calls. Otherwise it adds one tool round on the reply's calls. Either way the loop's state afterwards is the reference run's after one more round |
| Agent.GeminiAgent.Run | src/agent/llm_client.py:114-262 | the run's exit, rounds, model calls, conversation and events are those of `RunOf(env)`, the reference run over the service's answers. It ends with exactly one final response, last, whose text matches how it ended. It makes 1 to 25 rounds and at most 3 model calls per round. The conversation is the opening plus tool rounds (plus the answer) and is stored in `lastMessages`. At most 25 tools run. There is one confirmation request per destructive call under the cap. Every call under the cap is recorded by the limiter |
| Events.NewConfirmationRequest | src/agent/events.py:11-16 | a new confirmation request carries the tool's name and arguments and is not approved |
| Messages.FunctionCalls | src/agent/llm_client.py:182 | the calls of a reply are among its parts, and there are none exactly when no part is a function call (with `FunctionCallsOne` and `FunctionCallsAppend` this fixes the result: every call, in order) |
| Messages.Texts | src/agent/llm_client.py:183-186 | only non-empty text parts, each from the reply (with `TextsOne` and `TextsAppend` this fixes the result: every non-empty text, in order) |
| Messages.FunctionCallsOne | src/agent/llm_client.py:182 | a single part gives its own call when it is a function call, and nothing otherwise |
| Messages.FunctionCallsAppend | src/agent/llm_client.py:182 | the calls of two runs of parts are the calls of the first, then those of the second |
| Messages.TextsOne | src/agent/llm_client.py:183 | a single part gives its text when it is a non-empty text, and nothing otherwise |
| Messages.TextsAppend | src/agent/llm_client.py:183 | the texts of two runs of parts are the texts of the first, then those of the second |
| RateLimiting.Cooldown | src/rate_limiter.py:30-33 | moderation tools get 2 s, every other name 1 s |
| RateLimiting.RemainingWait | src/rate_limiter.py:40-44 | the limiter sleeps for no time when the cooldown has passed, and otherwise for exactly the rest of it |
| RateLimiting.Released | src/rate_limiter.py:39-45 | a call is let through no earlier than its arrival, and no earlier than a cooldown after the name's last recorded time |
| RateLimiting.RateLimiter.constructor | src/rate_limiter.py:26-28 | a new limiter has no recorded times |
| RateLimiting.RateLimiter.Acquire | src/rate_limiter.py:35-45 | `acquire` sleeps for the rest of the name's cooldown and records the time it ends; no other name's record changes |
| RateLimiting.RateLimiter.Reset | src/rate_limiter.py:47-49 | after `reset` every name is treated as never called |
| RateLimiting.Replay | src/rate_limiter.py:35-45 | a series of acquisitions is let through at one time each |
| RateLimiting.ReplayAfterRecorded | src/rate_limiter.py:40-45 | each acquisition is let through at least a cooldown after its name's initial record |
| RateLimiting.ReplaySpacing | src/rate_limiter.py:35-45 | two acquisitions of the same name, with anything in between, are let through at least that name's cooldown apart |
| Bot.Trimmed | bot.py:176-180 | the stored history is the last messages of the run, at most 40 of them, and all of them when there are no more than 40 |
| Bot.Guard | bot.py:109-122 | a message is accepted if and only if it is from a human, in a guild, in the admin channel, from an administrator. It is refused with a warning if and only if only the administrator check fails |
| Bot.Shown | bot.py:166 | the posted text is the final text, or "✅ Done." when that is empty |
| Bot.DeliveredFinal | bot.py:147-168 | a run whose one final response comes last posts exactly the chunks of the corrected split of that response's text |
| Bot.PostEvents | bot.py:147-168 | the loop over events posts `Delivered(events)`: the chunks of the corrected split of each final response, in order |
| Bot.ConfirmView.constructor | bot.py:210-212 | a new prompt holds the request, unresolved, with live buttons |
| Bot.ConfirmView.Approve | bot.py:234-242 | Approve sets `approved` to true, removes the buttons and releases the loop |
| Bot.ConfirmView.Reject | bot.py:244-252 | Reject sets `approved` to false, removes the buttons and releases the loop |
| Bot.ConfirmView.OnTimeout | bot.py:224-232 | the timeout sets `approved` to false, removes the buttons and releases the loop |
| Bot.ConfirmView.Expire | bot.py:224-241 | the deadline cancels only a live prompt; after a decision it changes nothing, so the first resolution wins |
| Bot.ConfirmView.Resolve | bot.py:224-252 | however the prompt ends, `approved` is true exactly when Approve was pressed |
| Bot.ConfirmView.ResolveFrom | bot.py:224-256 | the prompt of the run's i-th call, resolved by that call's decision (a missing one times out), ends with `approved` equal to `Approved(env, i)`, the value the run reads back at src/agent/llm_client.py:218 |
| Bot.ConfirmView.Press | bot.py:214-222 | a press counts if and only if the buttons are live and the presser is a guild member with administrator rights; any other press changes nothing |
| Bot.Host.constructor | bot.py:52-56 | no stored histories, and the last message time is 0 |
| Bot.Host.WaitForCooldown | bot.py:125-129 | the handler sleeps for the rest of the 2 s message cooldown. The new record is at least 2 s after the previous one and not before now |
| Bot.Host.PersistHistory | bot.py:174-180 | a non-empty conversation is stored, trimmed, for the channel; an empty one stores nothing |
| Bot.Host.HandleAgentRequest | bot.py:139-180 | the run starts from the channel's stored history and the message, and its events are those of the reference run `RunOf(env)`. The posts are exactly the chunks of the one final response. The conversation stored for the channel is the opening plus the reference run's exchanges (plus the answer), trimmed |
| Bot.Host.OnMessage | bot.py:97-134 | ignored messages post nothing. A refused one posts only the warning. Neither changes any state. An accepted one waits out the cooldown, posts the chunks of the reference run's final response, and stores the trimmed conversation, which starts with the channel's history and the message, for its channel |
| Chunking.CutPoint | bot.py:327-329 | the cut is the last newline before the limit, or the limit when there is none |
| Chunking.Rest | bot.py:331 | what is left after a cut is shorter than the text |
| Chunking.SplitMessage | bot.py:318-332 | the host's split is the corrected `SplitNonEmpty`: a short text comes back whole, every chunk fits the limit, and no chunk of a non-empty text is empty |
| Chunking.SplitLong | bot.py:322-332 | the loop gives the chunks of `Chunks`, one per iteration, with newlines before index `from` never taken as cut points |
| Chunking.CutOnce | bot.py:327-331 | one pass appends exactly one chunk, keeps the chunks already made, and leaves a shorter rest whose chunks complete the split |
| Chunking.ChunksFit | bot.py:322-332 | every chunk fits within the limit |
| Chunking.SplitFits | bot.py:318-332 | every chunk of the split fits within the limit |
| Chunking.DropLeadingKeepsText | bot.py:331 | stripping leading newlines removes only newlines |
| Chunking.CutKeepsText | bot.py:330-331 | the part before a cut and the rest after it keep every character of the text except newlines |
| Chunking.StepKeepsText | bot.py:330-331 | a chunk cut off, followed by anything that keeps the rest's text, keeps the whole text apart from newlines |
| Chunking.ChunksKeepText | bot.py:322-332 | with newlines deleted, the chunks written one after another are the text with newlines deleted |
| Chunking.SplitKeepsText | bot.py:318-332 | the split loses nothing but newlines |
| Chunking.SplitFirstCut | bot.py:327-330 | a long text's first chunk ends at the last newline before the limit, or at the limit itself |
| Chunking.EmptyFirstChunk | bot.py:327-331 | splitting "\nab" at limit 2 gives the chunks "" and "ab" |
| Chunking.ChunksNonEmpty | bot.py:322-332 | if a cut is never made at index 0, no chunk is empty |
| Chunking.SplitNonEmptyChunks | bot.py:318-332 | the corrected split of a non-empty text gives only non-empty chunks, each within the limit, that lose nothing but newlines |
| Helpers.FirstIndex | src/tools/helpers.py:23-26 | the search finds the first matching entry, and fails if and only if there is none |
| Helpers.GetGuild | src/tools/helpers.py:12-17 | the configured guild if the bot is in it, otherwise the "Guild … not found" error |
| Helpers.FindChannel | src/tools/helpers.py:20-26 | found if and only if some channel's lower-cased name equals the query (lower-cased, `#` removed, stripped). The result is the first such channel; otherwise the error names the channel |
| Helpers.FindRole | src/tools/helpers.py:29-35 | found if and only if some role's lower-cased name is the lower-cased, stripped query. The result is the first such role; otherwise the error names the role |
| Helpers.FindCategory | src/tools/helpers.py:38-44 | found if and only if some category's lower-cased name is the query. The result is the first such category; otherwise the error names the category |
| Helpers.FirstMember | src/tools/helpers.py:50 | a member with the id is found if and only if one is in the guild |
| Helpers.FindMember | src/tools/helpers.py:47-52 | found if and only if the id parses as an integer and names a member. Both failures give "User '…' not found in this server." |
| Helpers.FindMemberById | src/tools/helpers.py:47-52 | every member is found by its own id written in decimal |
| Helpers.FindChannelByOwnName | src/tools/helpers.py:20-26 | a channel named without `#` or surrounding spaces is found by its name: the channel itself, or an earlier one with the same lower-cased name |
| Info.Truncate | src/tools/info.py:109 | `s[:n]` is a prefix of at most n characters, and all of `s` when it is short enough |
| Info.Newest | src/tools/info.py:106 | history yields a prefix of the newest-first list: `limit` entries, fewer when the list is shorter, none for a limit of zero or below |
| Info.ViewOf | src/tools/info.py:107-113 | a message's summary has its content cut to 500 characters |
| Info.RecentLimit | src/tools/info.py:104 | the count is capped at 50 |
| Info.GetRecentMessages | src/tools/info.py:99-114 | a missing channel raises, and a non-text channel gets the error object. Otherwise the result is the summaries of the newest `min(count, 50)` messages, at most 50 |
| Info.ViewAll | src/tools/info.py:105-113 | the loop summarises every yielded message, in order |
| Info.HitOf | src/tools/info.py:127-132 | a hit's content is cut to 500 characters |
| Info.SearchCap | src/tools/info.py:122-134 | a search keeps between 1 and 25 hits: `count` when it is in range, 1 for a count of 1 or below |
| Info.SearchMessages | src/tools/info.py:117-135 | a missing channel raises, and a non-text channel gets the error object. Otherwise the result is `SearchResult` for the channel's history |
| Info.Scan | src/tools/info.py:124-134 | the scan that stops early returns, as hits, exactly the first `max(1, limit)` matching messages, or all of them when fewer match |
| Info.CapReached | src/tools/info.py:132-133 | once the matches among the first `n` messages reach the cap, they are the first matches of the whole scan, so stopping there loses nothing |
| Info.MatchingExactly | src/tools/info.py:126 | a message matches if and only if it was scanned and its lower-cased content contains the lower-cased query |
| Info.SearchSoundAndComplete | src/tools/info.py:117-135 | at most the cap of hits, each a scanned message that mentions the query. When fewer messages match than the cap, all of them are returned |
| Info.CountStatus | src/tools/info.py:215-217 | no status counts more members than there are |
| Info.GetMemberCount | src/tools/info.py:212-221 | online, idle and dnd count the members with that status. The total is the member count, or 0 when unset. Offline is the rest, so the four add up to the total |
| Info.StatusesPartition | src/tools/info.py:215-218 | the four status counts add up to the number of members |
| Info.OfflineWhenCountKnown | src/tools/info.py:214-218 | when the member count equals the members held, offline counts exactly the offline members and is never negative |
| Info.InsertByPosition | src/tools/info.py:69 | inserting a role adds exactly that role |
| Info.SortByPositionDesc | src/tools/info.py:69 | sorting permutes the roles |
| Info.InsertKeepsOrder | src/tools/info.py:69 | inserting into a list in descending position order keeps it descending |
| Info.ListRolesSorted | src/tools/info.py:69 | the sorted roles are a permutation of the guild's roles, highest position first |
| Info.ListRoles | src/tools/info.py:61-71 | exactly the views of the guild's roles, each once, in non-increasing position order |
| Info.ShownRoleNames | src/tools/info.py:92 | the names are exactly those of the member's roles except `@everyone` |
| Info.GetUserInfo | src/tools/info.py:83-96 | the lookup's error, or the member's info, whose role names leave out `@everyone` |
| Info.ActionFilter | src/tools/info.py:198 | a missing or empty action type, or one outside the map, filters nothing; a mapped name gives its action |
| Info.OfAction | src/tools/info.py:201 | the filtered log holds only entries of the action, from the log; with no filter it is the whole log |
| Info.GetAuditLog | src/tools/info.py:196-209 | the summaries of the newest `min(count, 50)` entries of the action: at most 50, all of that action. A short log with no filter comes back whole |
| Info.FilteredViews | src/tools/info.py:198-201 | every returned entry has the requested action |
| Info.Uncategorized | src/tools/info.py:51-55 | the channels with no category that are not categories themselves |
| Info.ByCategory | src/tools/info.py:46-50 | one entry per category name, and only those |
| Info.ListChannels | src/tools/info.py:43-58 | the category entries, plus "(no category)" exactly when some channel is uncategorised or a category has that name |
| Info.ByCategoryLastWins | src/tools/info.py:46-50 | when two categories share a name, the later one's channels are listed |
| Channels.ParentCategory | src/tools/channels.py:16 | no category when none or an empty one is named. Otherwise the category found by name, or the lookup's error |
| Channels.CreateChannel | src/tools/channels.py:13-25 | voice, stage and forum make those kinds, and any other type a text channel. Only forum and text channels get the topic. A failed category lookup fails the tool |
| Channels.CreatedTypeName | src/tools/channels.py:25 | the reported type is the requested type for voice and forum, "stage_voice" for stage, and "text" otherwise |
| Channels.EditChannel | src/tools/channels.py:34-49 | the lookup's error, or the collected arguments per `IsEditArgs`; `channel.edit` is called exactly when there are any |
| Channels.CollectEdits | src/tools/channels.py:38-46 | each given argument is collected; topic, slow mode and NSFW only for text channels |
| Channels.EditArgsUnique | src/tools/channels.py:38-46 | the collection rule determines the arguments completely |
| Channels.NonTextOnlyRenames | src/tools/channels.py:38-48 | on a channel that is not a text channel only a rename is collected, and the edit happens exactly when a new name is given |
| Channels.MoveChannel | src/tools/channels.py:75-86 | fails if and only if the channel or a named category is missing, with that lookup's message. Otherwise it gives the collected arguments; the edit happens exactly when a category or position is given |
| Channels.CollectMove | src/tools/channels.py:79-83 | the category found by name when one is given, and the position when given |
| Channels.ResolveTarget | src/tools/channels.py:56-59 | a role of that name is preferred. Otherwise the member with that id. When neither exists, the member lookup's error |
| Channels.OverwritesFor | src/tools/channels.py:60 | the target's overwrite on the channel, or an empty one |
| Channels.Pieces | src/tools/channels.py:62 | the pieces of a list, joined back with commas, give the list; no piece holds a comma |
| Channels.Names | src/tools/channels.py:63 | one stripped name per piece |
| Channels.AppliedEffect | src/tools/channels.py:61-65 | a listed permission name gets the value; every other entry is unchanged |
| Channels.MergeEffect | src/tools/channels.py:61-70 | a permission on the deny list ends up denied, and one only on the allow list ends up allowed. Every other entry, including unknown names, is unchanged |
| Channels.MergedKeys | src/tools/channels.py:61-70 | the merge adds entries only for permission names |
| Channels.SetListed | src/tools/channels.py:61-65 | the loop over a list gives `Applied` over its stripped pieces |
| Channels.SetChannelPermissions | src/tools/channels.py:52-72 | fails if and only if the channel or the target is missing, with that lookup's message. Otherwise it writes the target's overwrite merged with the allow list, then the deny list |
| Moderation.DeleteDays | src/tools/moderation.py:19 | the requested days clamped to 0 to 7 |
| Moderation.BanUser | src/tools/moderation.py:16-21 | the lookup's error, or a ban of that member with the reason, deleting 0 to 7 days of messages, in seconds |
| Moderation.BanWindowMonotone | src/tools/moderation.py:19-20 | asking for more days never deletes fewer seconds |
| Moderation.TimeoutMinutes | src/tools/moderation.py:41 | the duration is capped at 40320 minutes, with no lower bound |
| Moderation.TimeoutUser | src/tools/moderation.py:38-44 | the lookup's error, or a timeout ending at most 28 days from now. A duration within the cap is kept exactly. A negative duration gives an end in the past |
| Moderation.PurgeMessages | src/tools/moderation.py:54-61 | a missing channel raises, and a non-text channel gets the error object. Otherwise at most 100 and at most `count` newest messages are deleted |
| Moderation.WarnUser | src/tools/moderation.py:64-76 | the lookup's error, or the warning is stored first. The direct message is sent only after a successful store. The report carries the stored id and whether the message arrived |
| Moderation.WarnDespiteFailedMessage | src/tools/moderation.py:68-72 | a failed direct message changes only `dm_sent` |
| Text.LowerChar | src/tools/helpers.py:22 | upper-case ASCII letters map to lower case, and every other character to itself |
| Text.Lower | src/tools/helpers.py:22 | `lower()` maps each character with `LowerChar` and keeps the length |
| Text.DropLeading | bot.py:331 | `lstrip(c)` removes a run of leading `c` and nothing else |
| Text.TrimStart | src/tools/helpers.py:22 | `lstrip()` removes leading whitespace only |
| Text.TrimEnd | src/tools/helpers.py:22 | `rstrip()` removes trailing whitespace only |
| Text.Strip | src/tools/helpers.py:22 | `strip()` gives `s` with whitespace before and after it removed and nothing else: an infix of `s` with only whitespace around it, and no whitespace at either end |
| Text.RemoveChar | src/tools/helpers.py:22 | `replace(c, "")` leaves no `c` |
| Text.RemoveCharMembers | src/tools/helpers.py:22 | removing `c` keeps every other character, and only those |
| Text.Contains | src/tools/info.py:126 | `sub in s` holds if and only if `sub` occurs at some index of `s` |
| Text.LastIndexBefore | bot.py:327 | `rfind(c, 0, end)` is the last index below `end` holding `c`, or "not found" when there is none |
| Text.IndexOf | src/tools/channels.py:62 | the first index holding `c`, or "not found" when there is none |
| Text.SplitOn | src/tools/channels.py:62 | `split(c)` gives at least one piece, and no piece holds `c` |
| Text.JoinSplitOn | src/tools/channels.py:62 | joining the pieces with `c` gives the string back |
| Text.NatToString | src/agent/llm_client.py:159-160 | `str(n)` is one or more decimal digits |
| Text.IntToString | src/tools/info.py:89 | `str(i)` starts with a minus sign if and only if `i` is negative |
| Text.SignedToString | src/tools/helpers.py:50 | `str(i)` holds only digits and a leading minus sign, and reads back as `i` |
| Text.ParseIntToString | src/tools/helpers.py:50 | `int(str(i)) == i` |

## Left out

- The network calls to Discord and to Gemini are left out. Each tool returns the request it would make, and the model service's answers, the approver's decisions and the tools' outcomes are inputs.
- The system prompt, the tool declarations and the generation settings are left out; they are constants sent to the service.
- `asyncio` concurrency is left out: the limiter's lock, the `typing()` indicator, and running several requests at once. Acquisitions happen one after another, which is the order the lock enforces.
- Floating-point time is not modelled. Durations are integer milliseconds and sleeps last exactly as long as asked.
- Agent.RetryDelay: the delay parsed from "retry in Ns" is given as an optional natural number with the error. The regular expression and float parsing are not modelled.
- The line that reports "Failed to get a response from Gemini after retries." (src/agent/llm_client.py:169-172) is not modelled. Every path through the retry loop either breaks with a reply or returns, so it cannot run.
- The status-message presentation of `handle_agent_request` is not modelled: editing one status message, and deleting it at the end. `Bot.PostEvents` models only the posted chunks.
- Bot.Host.HandleAgentRequest: it posts the chunks of the corrected split `SplitNonEmpty`, not those of `split_message` as written (see Findings). When a final text longer than 2000 characters has its only newline before index 2000 at index 0, the program's first chunk is "". `channel.send("")` is then refused, the handler catches the error and posts "❌ An error occurred: …" instead of the chunks (bot.py:167-172). The model posts every chunk. That error path, which a failed Discord call also takes, is not modelled. The conversation is stored either way, as the model states, because the run sets `last_messages` before it yields its final response.
- Bot.PostEvents: it posts the chunks of `SplitNonEmpty` for each final response, where the program would first try to send the empty chunk described under Bot.Host.HandleAgentRequest.
- Bot.DeliveredFinal: it is stated for the corrected split `SplitNonEmpty`; with `split_message` as written the first post can be "", which Discord refuses.
- Chunking.SplitMessage: the host uses the corrected split `SplitNonEmpty`. The split as written is modelled too (`Chunks`, `EmptyFirstChunk`), but the host does not post it, so the failed send of an empty first chunk is not modelled.
- Agent.GeminiAgent.Run: the clock advances only by the sleeps of the retry loop and of the rate limiter. The model call, a tool's own work and the wait of up to 60 s for an approver take no time. So the model can sleep where the program does not: with two approved `ban_user` calls in one round and an approval that takes 10 s, the program's second `acquire` does not sleep, while the model's sleeps 2 s.
- Default argument values are not modelled: `count = 25` for `search_messages`, `count = 20` for `get_audit_log`, `delete_days = 0` for `ban_user` and `type = "text"` for `create_channel`. Each tool takes every argument as given, so a call that omits one is not modelled.
- The embed of the confirmation prompt and its footer texts are left out.
- The midnight alert summary, the scheduler, the database module and `on_ready` are left out; they are I/O around the core.
- Chunking.SplitMessage requires `limit >= 1`. With a limit of 0 the source's loop does not end for a text that holds any character other than a newline (a text of newlines only gives `[""]`), and its only caller passes 2000.
- Text.Lower, Text.Strip: only ASCII case and ASCII whitespace are modelled. Python's `lower()` and `strip()` cover Unicode.
- Text.ParseSigned: Python's `int()` also accepts underscores between digits and non-ASCII digits; these are not modelled.
- Info.ListRoles: it does not state that roles with equal positions keep their order, even though Python's `sorted` is stable.
- Info.Newest: it takes it that a history or audit-log iterator with a limit of zero or below yields nothing.
- Moderation.PurgeMessages: it states how many messages are deleted, not which ones. Pinned or old messages that Discord refuses to bulk-delete are not modelled.
- `get_guild` is modelled as `Helpers.GetGuild`; each tool then takes the guild it returns as given.
- The JSON text each tool returns is not modelled beyond the fields the contracts state. The `str(member)`, `str(ch.type)` and timestamp fields are not derived.
- `set_channel_permissions` checks `hasattr` on a `PermissionOverwrite`. The model takes the set of permission names as a parameter (`valid`), so permission aliases and non-permission attributes are not modelled.
- The model's tool catalogue and registry are inputs. These tools are not modelled: `list_bans`, `get_server_info`, `list_emojis`, `get_channel_info`, `get_role_info`, `list_invites`, and the messaging, roles, server, invites, emoji and alerts modules. They copy attributes or make a single Discord call.
- These are single Discord calls and are not modelled separately: `create_category`, `delete_channel`, `delete_category`, `kick_user`, `remove_timeout`. `create_category` makes no lookup; the others look up with `Helpers.FindChannel` (`delete_channel`), `Helpers.FindCategory` (`delete_category`) or `Helpers.FindMember` (`kick_user`, `remove_timeout`).
- `unban_user` is not modelled. It does not use `find_member`, since a banned user is not a member. Instead it calls `fetch_user(int(user_id))` (src/tools/moderation.py:26). Its errors are not modelled: `int()`'s own message for a malformed id, and Discord's not-found error for an unknown user.

## Findings

| source | as written | input that shows it | evidently intended | confidence | as-written member | corrected member |
|---|---|---|---|---|---|---|
| bot.py:327-331 | `rfind("\n", 0, limit)` may return 0, and `text[:0]` is then appended as a chunk | `split_message("\nab", 2)` gives `["", "ab"]`, and the host posts an empty message, which Discord rejects | never cut at index 0, so every chunk of a non-empty text is non-empty | not executed | Chunking.EmptyFirstChunk | Chunking.SplitNonEmptyChunks |

=== FILE: Agent.dfy ===
/**
 * The reasoning loop: each round asks the model service for a reply (with
 * retries when the service throttles), then either ends the run with the
 * reply's text or runs the tool calls it asks for and feeds their results
 * back. What the service answers, what the approver decides and what each
 * tool returns are given up front as an `Environment`.
 */
module Agent {
  import opened Config
  import opened Text
  import opened Wrappers
  import opened Messages
  import opened Events
  import opened RateLimiting
  import opened Schemas

  /** Model calls per round, at most. */
  const MAX_RETRIES: nat := 3
  /** Retry delay used when the error text suggests none (30.0 s). */
  const BASE_RETRY_DELAY: nat := 30000
  /** The retry penalty per attempt number (2 s). */
  const RETRY_PENALTY: nat := 2000

  const DONE_TEXT: string := "✅ Done."
  const EMPTY_RESPONSE_TEXT: string := "⚠️ Empty response from LLM."
  const MAX_STEPS_TEXT: string := "⚠️ Maximum reasoning steps reached. Please try a simpler request."
  const LIMIT_ERROR: string := "Tool call limit reached for this request."
  const REJECTED_ERROR: string := "Action was rejected by admin."

  function LlmErrorText(message: string): string { "❌ LLM error: " + message }

  function RetryNotice(attempt: nat): string {
    "⏳ Rate limited by Gemini — retrying in 30s (attempt " + NatToString(attempt) + "/" + NatToString(MAX_RETRIES) + ")..."
  }

  function ApprovalNotice(toolName: string): string { "🔒 Requesting approval for **" + toolName + "**..." }

  function RunningNotice(toolName: string): string { "⚙️ Running `" + toolName + "`..." }

  function UnknownToolError(toolName: string): string { "Unknown tool: " + toolName }

  // ---------------------------------------------------------------------------
  // The model service

  /**
   * One answer of the model service: an exception (its text, and the delay
   * that text suggests, if it has one), a reply without a usable candidate,
   * or the parts of the first candidate.
   */
  datatype ModelOutcome =
    | ApiError(message: string, retryIn: Wrappers.Option<nat>)
    | NoCandidate
    | Candidate(parts: seq<Part>)

  /** Throttling is recognised by the error's text alone. */
  predicate IsRateLimit(message: string) {
    Contains(message, "429") || Contains(message, "RESOURCE_EXHAUSTED")
  }

  /** The sleep before retry number `attempt`: the suggested delay plus the penalty. */
  function RetryDelay(retryIn: Wrappers.Option<nat>, attempt: nat): (d: nat)
    ensures d >= attempt * RETRY_PENALTY
    ensures retryIn.None? ==> d == BASE_RETRY_DELAY + attempt * RETRY_PENALTY
  {
    (match retryIn case Some(s) => s case None => BASE_RETRY_DELAY) + attempt * RETRY_PENALTY
  }

  /** How one round's exchange with the service ends. */
  datatype ModelCall = Replied(reply: ModelOutcome) | Failed(message: string)

  /** How a round's model call ends, and after how many attempts. */
  datatype Asked = Asked(result: ModelCall, attempts: nat)

  /**
   * The retry policy, from attempt number `attempt` on, for the round whose
   * first call is answered by `replies[first]`: a throttled attempt before
   * the last is retried; any other error, or a throttle on the last
   * attempt, fails the round; anything else is the round's reply.
   */
  function AskFrom(replies: seq<ModelOutcome>, first: nat, attempt: nat): (a: Asked)
    requires 1 <= attempt <= MAX_RETRIES && first + MAX_RETRIES <= |replies|
    ensures attempt <= a.attempts <= MAX_RETRIES
    ensures forall i :: first + attempt - 1 <= i < first + a.attempts - 1 ==>
              replies[i].ApiError? && IsRateLimit(replies[i].message)
    ensures a.result.Replied? ==> a.result.reply == replies[first + a.attempts - 1] && !a.result.reply.ApiError?
    ensures a.result.Failed? ==>
              replies[first + a.attempts - 1].ApiError?
              && a.result.message == replies[first + a.attempts - 1].message
              && (!IsRateLimit(a.result.message) || a.attempts == MAX_RETRIES)
    decreases MAX_RETRIES - attempt
  {
    var reply := replies[first + attempt - 1];
    if !reply.ApiError? then Asked(Replied(reply), attempt)
    else if IsRateLimit(reply.message) && attempt < MAX_RETRIES then AskFrom(replies, first, attempt + 1)
    else Asked(Failed(reply.message), attempt)
  }

  /** The whole retry loop of a round. */
  function Ask(replies: seq<ModelOutcome>, first: nat): Asked
    requires first + MAX_RETRIES <= |replies|
  {
    AskFrom(replies, first, 1)
  }

  /** The status updates yielded before the retries of a round: one per retry, numbered from 1. */
  function Notices(retries: nat): (ns: seq<Event>)
    ensures |ns| == retries
    ensures forall k :: 0 <= k < retries ==> ns[k] == StatusUpdate(RetryNotice(k + 1))
  {
    if retries == 0 then [] else Notices(retries - 1) + [StatusUpdate(RetryNotice(retries))]
  }

  /** The delay an answer suggests: only an error's text can suggest one. */
  function RetryIn(reply: ModelOutcome): Wrappers.Option<nat> {
    if reply.ApiError? then reply.retryIn else Wrappers.None
  }

  /** The sleeps before the retries of a round: retry `k` waits for what the answer to attempt `k` suggests. */
  function Delays(replies: seq<ModelOutcome>, first: nat, retries: nat): (ds: seq<nat>)
    requires first + retries <= |replies|
    ensures |ds| == retries
    ensures forall k :: 0 <= k < retries ==> ds[k] == RetryDelay(RetryIn(replies[first + k]), k + 1)
  {
    if retries == 0 then []
    else Delays(replies, first, retries - 1) + [RetryDelay(RetryIn(replies[first + retries - 1]), retries)]
  }

  /**
   * One round's call of the model service with its retry loop, answered by
   * `replies[first..]`: it ends as the retry policy `Ask` says, after one
   * notice and one sleep per retry.
   */
  method CallModel(replies: seq<ModelOutcome>, first: nat)
    returns (result: ModelCall, attempts: nat, notices: seq<Event>, delays: seq<nat>)
    requires first + MAX_RETRIES <= |replies|
    ensures Asked(result, attempts) == Ask(replies, first)
    ensures 1 <= attempts && notices == Notices(attempts - 1) && delays == Delays(replies, first, attempts - 1)
  {
    notices, delays := [], [];
    var attempt := 1;
    while true
      invariant 1 <= attempt <= MAX_RETRIES
      invariant AskFrom(replies, first, attempt) == Ask(replies, first)
      invariant notices == Notices(attempt - 1) && delays == Delays(replies, first, attempt - 1)
      decreases MAX_RETRIES - attempt
    {
      var reply := replies[first + (attempt - 1)];
      if !reply.ApiError? {
        return Replied(reply), attempt, notices, delays;
      }
      if IsRateLimit(reply.message) && attempt < MAX_RETRIES {
        notices := notices + [StatusUpdate(RetryNotice(attempt))];
        delays := delays + [RetryDelay(reply.retryIn, attempt)];
        attempt := attempt + 1;
      } else {
        return Failed(reply.message), attempt, notices, delays;
      }
    }
  }

  /** The final text of a reply without calls: its texts joined by newlines, or the placeholder. */
  function FinalText(parts: seq<Part>): (t: string)
    ensures t != []
    ensures Texts(parts) == [] ==> t == DONE_TEXT
    ensures Texts(parts) != [] ==> t == Join(Texts(parts), "\n")
  {
    var texts := Texts(parts);
    var joined := Join(texts, "\n");
    assert texts != [] ==> joined != [] by {
      if texts != [] { JoinNonEmpty(texts, "\n"); }
    }
    if joined == "" then DONE_TEXT else joined
  }

  /** Joining non-empty strings gives a non-empty string. */
  lemma {:induction false} JoinNonEmpty(parts: seq<string>, sep: string)
    requires parts != [] && forall t :: t in parts ==> t != []
    ensures Join(parts, sep) != []
  {
    if |parts| > 1 {
      assert parts[0] in parts;
    } else {
      assert parts[0] in parts;
    }
  }

  // ---------------------------------------------------------------------------
  // Tools

  datatype Decoded = Parsed(value: Json) | Unparsable(message: string)

  /**
   * What invoking a tool function gives: an exception (its text), a string
   * (and what decoding it as JSON gives), or any other value.
   */
  datatype ToolOutcome =
    | Raised(message: string)
    | ReturnedText(decoded: Decoded)
    | ReturnedValue(value: Json)

  /**
   * What the world answers during one run: the model service's answers in
   * call order, the approver's decision for the i-th requested tool call of
   * the run, the names the tool registry holds, and the outcome of invoking
   * the i-th requested tool call.
   */
  datatype Environment = Environment(
    replies: seq<ModelOutcome>,
    decisions: seq<Decision>,
    registry: set<string>,
    toolOutcomes: seq<ToolOutcome>)
  {
    /** Long enough for every model call and tool call a run can make. */
    predicate Valid() {
      |replies| >= MAX_LOOP_ITERATIONS * MAX_RETRIES
      && |decisions| >= MAX_TOOL_CALLS_PER_REQUEST
      && |toolOutcomes| >= MAX_TOOL_CALLS_PER_REQUEST
    }
  }

  function ErrorObject(message: string): Object { map["error" := JStr(message)] }

  /** A tool's value as the object a function response needs: non-objects go under "result". */
  function AsObject(v: Json): (r: Object)
    ensures v.JObject? ==> r == v.fields
    ensures !v.JObject? ==> r.Keys == {"result"} && r["result"] == v
  {
    if v.JObject? then v.fields else map["result" := v]
  }

  /** The response object for a tool outcome: an error object for an exception, else the value as an object. */
  function Normalise(outcome: ToolOutcome): (r: Object)
    ensures outcome.Raised? ==> r == ErrorObject(outcome.message)
    ensures outcome.ReturnedText? && outcome.decoded.Unparsable? ==> r == ErrorObject(outcome.decoded.message)
    ensures outcome.ReturnedText? && outcome.decoded.Parsed? ==> r == AsObject(outcome.decoded.value)
    ensures outcome.ReturnedValue? ==> r == AsObject(outcome.value)
  {
    match outcome
    case Raised(m) => ErrorObject(m)
    case ReturnedText(Unparsable(m)) => ErrorObject(m)
    case ReturnedText(Parsed(v)) => AsObject(v)
    case ReturnedValue(v) => AsObject(v)
  }

  /** The i-th requested call of a run (0-based) is past the cap: its count i + 1 exceeds it. */
  predicate OverLimit(i: nat) { i + 1 > MAX_TOOL_CALLS_PER_REQUEST }

  /** The approver approved the i-th requested call. */
  predicate Approved(env: Environment, i: nat) { i < |env.decisions| && env.decisions[i] == Approve }

  /** The i-th requested call reaches its tool function. */
  predicate Executes(call: Call, i: nat, env: Environment)
  {
    && !OverLimit(i)
    && (call.name in DESTRUCTIVE_TOOLS ==> Approved(env, i))
    && call.name in env.registry
  }

  /** The function response the loop feeds back for the i-th requested call. */
  function Response(call: Call, i: nat, env: Environment): (r: Part)
    requires env.Valid()
    ensures r.FunctionResponse? && r.name == call.name
    ensures OverLimit(i) ==> r.response == ErrorObject(LIMIT_ERROR)
    ensures !OverLimit(i) && call.name in DESTRUCTIVE_TOOLS && !Approved(env, i) ==> r.response == ErrorObject(REJECTED_ERROR)
    ensures !OverLimit(i) && (call.name in DESTRUCTIVE_TOOLS ==> Approved(env, i)) && call.name !in env.registry
            ==> r.response == ErrorObject(UnknownToolError(call.name))
    ensures Executes(call, i, env) ==> r.response == Normalise(env.toolOutcomes[i])
  {
    if OverLimit(i) then FunctionResponse(call.name, ErrorObject(LIMIT_ERROR))
    else if call.name in DESTRUCTIVE_TOOLS && !Approved(env, i) then FunctionResponse(call.name, ErrorObject(REJECTED_ERROR))
    else if call.name !in env.registry then FunctionResponse(call.name, ErrorObject(UnknownToolError(call.name)))
    else FunctionResponse(call.name, Normalise(env.toolOutcomes[i]))
  }

  /** What the loop yields while handling the i-th requested call. */
  function CallEvents(call: Call, i: nat, env: Environment): seq<Event>
  {
    if OverLimit(i) then []
    else if call.name in DESTRUCTIVE_TOOLS then
      [StatusUpdate(ApprovalNotice(call.name)), ConfirmationRequest(call.name, call.args, Approved(env, i))]
      + (if Approved(env, i) then [StatusUpdate(RunningNotice(call.name))] else [])
    else [StatusUpdate(RunningNotice(call.name))]
  }

  /** The responses to `calls`, the first of which is call number `base` of the run. */
  function Responses(calls: seq<Call>, base: nat, env: Environment): (rs: seq<Part>)
    requires env.Valid()
    ensures |rs| == |calls|
    ensures forall j :: 0 <= j < |calls| ==> rs[j] == Response(calls[j], base + j, env)
    decreases |calls|
  {
    if calls == [] then []
    else Responses(calls[..|calls| - 1], base, env) + [Response(calls[|calls| - 1], base + |calls| - 1, env)]
  }

  /** One more call adds its response at the end. */
  lemma ResponsesNext(calls: seq<Call>, j: nat, base: nat, env: Environment)
    requires env.Valid() && j < |calls|
    ensures Responses(calls[..j + 1], base, env) == Responses(calls[..j], base, env) + [Response(calls[j], base + j, env)]
  {
    var p := calls[..j + 1];
    assert p[..|p| - 1] == calls[..j];
  }

  /** `f(c, i)` for each call `c` of `calls`, numbered `i` from `base`, concatenated in order. */
  function Collect<T>(calls: seq<Call>, base: nat, f: (Call, nat) -> seq<T>): seq<T>
    decreases |calls|
  {
    if calls == [] then []
    else Collect(calls[..|calls| - 1], base, f) + f(calls[|calls| - 1], base + |calls| - 1)
  }

  function RunStep(env: Environment): (Call, nat) -> seq<nat> {
    (c: Call, i: nat) => if Executes(c, i, env) then [i] else []
  }

  function ConfirmationStep(env: Environment): (Call, nat) -> seq<Event> {
    (c: Call, i: nat) => ConfirmationFor(c, i, env)
  }

  /** The events of handling `calls` one after another. */
  function RoundEvents(calls: seq<Call>, base: nat, env: Environment): seq<Event>
    decreases |calls|
  {
    if calls == [] then []
    else RoundEvents(calls[..|calls| - 1], base, env) + CallEvents(calls[|calls| - 1], base + |calls| - 1, env)
  }

  /** One more call adds its events at the end. */
  lemma RoundEventsNext(calls: seq<Call>, j: nat, base: nat, env: Environment)
    requires j < |calls|
    ensures RoundEvents(calls[..j + 1], base, env) == RoundEvents(calls[..j], base, env) + CallEvents(calls[j], base + j, env)
  {
    var p := calls[..j + 1];
    assert p[..|p| - 1] == calls[..j];
  }

  /** The run-wide numbers of the calls among `calls` that reach their tool function, in order. */
  function ExecutedIndices(calls: seq<Call>, base: nat, env: Environment): seq<nat> {
    Collect(calls, base, RunStep(env))
  }

  /** The confirmation requests among `events`, in order. */
  function ConfirmationsOf(events: seq<Event>): seq<Event>
    decreases |events|
  {
    if events == [] then []
    else ConfirmationsOf(events[..|events| - 1])
         + (if events[|events| - 1].ConfirmationRequest? then [events[|events| - 1]] else [])
  }

  /** The confirmation request the i-th requested call gives rise to, if any. */
  function ConfirmationFor(call: Call, i: nat, env: Environment): seq<Event>
  {
    if !OverLimit(i) && call.name in DESTRUCTIVE_TOOLS
    then [ConfirmationRequest(call.name, call.args, Approved(env, i))]
    else []
  }

  /** The confirmation requests that handling `calls` yields: one per destructive call under the cap. */
  function ConfirmationsFor(calls: seq<Call>, base: nat, env: Environment): seq<Event> {
    Collect(calls, base, ConfirmationStep(env))
  }

  predicate NoFinal(events: seq<Event>) { forall e :: e in events ==> !e.FinalResponse? }

  lemma NoFinalAppend(a: seq<Event>, b: seq<Event>)
    requires NoFinal(a) && NoFinal(b)
    ensures NoFinal(a + b)
  {
  }

  // ---------------------------------------------------------------------------
  // Facts about the per-call specification

  /** The confirmation requests among `events` are confirmation requests from `events`. */
  lemma {:induction false} ConfirmationsOfSound(events: seq<Event>)
    ensures forall e :: e in ConfirmationsOf(events) ==> e.ConfirmationRequest? && e in events
    ensures (forall e :: e in events ==> !e.ConfirmationRequest?) ==> ConfirmationsOf(events) == []
    decreases |events|
  {
    if events != [] {
      var n := |events| - 1;
      ConfirmationsOfSound(events[..n]);
      assert forall e :: e in events[..n] ==> e in events;
    }
  }

  lemma {:induction false} ConfirmationsOfAppend(a: seq<Event>, b: seq<Event>)
    ensures ConfirmationsOf(a + b) == ConfirmationsOf(a) + ConfirmationsOf(b)
    decreases |b|
  {
    if b != [] {
      var n := |b| - 1;
      assert (a + b)[..|a + b| - 1] == a + b[..n];
      ConfirmationsOfAppend(a, b[..n]);
    } else {
      assert a + b == a;
    }
  }

  /** One call's events hold the confirmation request `ConfirmationFor` describes, and no final response. */
  lemma CallConfirmations(c: Call, i: nat, env: Environment)
    ensures ConfirmationsOf(CallEvents(c, i, env)) == ConfirmationFor(c, i, env)
    ensures NoFinal(CallEvents(c, i, env))
  {
    var evs := CallEvents(c, i, env);
    if !OverLimit(i) && c.name in DESTRUCTIVE_TOOLS {
      var notice := StatusUpdate(ApprovalNotice(c.name));
      var request := ConfirmationRequest(c.name, c.args, Approved(env, i));
      var tail: seq<Event> := if Approved(env, i) then [StatusUpdate(RunningNotice(c.name))] else [];
      assert evs == [notice, request] + tail;
      assert ConfirmationsOf(tail) == [];
      assert [notice, request][..1] == [notice];
      assert ConfirmationsOf([notice, request]) == [request];
      ConfirmationsOfAppend([notice, request], tail);
    }
  }

  /** Handling calls yields exactly one confirmation request per destructive call under the cap, carrying its decision. */
  lemma {:induction false} RoundConfirmations(calls: seq<Call>, base: nat, env: Environment)
    ensures ConfirmationsOf(RoundEvents(calls, base, env)) == ConfirmationsFor(calls, base, env)
    ensures NoFinal(RoundEvents(calls, base, env))
    decreases |calls|
  {
    if calls != [] {
      var n := |calls| - 1;
      var init, last := RoundEvents(calls[..n], base, env), CallEvents(calls[n], base + n, env);
      assert RoundEvents(calls, base, env) == init + last;
      assert ConfirmationsFor(calls, base, env)
          == ConfirmationsFor(calls[..n], base, env) + ConfirmationFor(calls[n], base + n, env);
      RoundConfirmations(calls[..n], base, env);
      CallConfirmations(calls[n], base + n, env);
      ConfirmationsOfAppend(init, last);
    }
  }

  /** Collecting over `a` then over `b` is collecting over `a + b`. */
  lemma {:induction false} CollectAppend<T>(a: seq<Call>, b: seq<Call>, base: nat, f: (Call, nat) -> seq<T>)
    ensures Collect(a + b, base, f) == Collect(a, base, f) + Collect(b, base + |a|, f)
    decreases |b|
  {
    if b == [] {
      assert a + b == a;
    } else {
      var n := |b| - 1;
      var ab := a + b;
      assert ab[..|ab| - 1] == a + b[..n];
      assert ab[|ab| - 1] == b[n];
      var last := f(b[n], base + |a| + n);
      calc {
        Collect(ab, base, f);
        Collect(a + b[..n], base, f) + last;
      == { CollectAppend(a, b[..n], base, f); }
        Collect(a, base, f) + Collect(b[..n], base + |a|, f) + last;
      == { ConcatAssoc(Collect(a, base, f), Collect(b[..n], base + |a|, f), last); }
        Collect(a, base, f) + (Collect(b[..n], base + |a|, f) + last);
        Collect(a, base, f) + Collect(b, base + |a|, f);
      }
    }
  }

  /** One more call adds that call's share at the end. */
  lemma CollectNext<T>(calls: seq<Call>, j: nat, base: nat, f: (Call, nat) -> seq<T>)
    requires j < |calls|
    ensures Collect(calls[..j + 1], base, f) == Collect(calls[..j], base, f) + f(calls[j], base + j)
  {
    var p := calls[..j + 1];
    assert p[..|p| - 1] == calls[..j] && p[|p| - 1] == calls[j];
  }

  /** Every run-wide call number that reaches its tool is one of `calls`' and is under the cap. */
  lemma {:induction false} ExecutedIndicesSound(calls: seq<Call>, base: nat, env: Environment)
    ensures forall x :: x in ExecutedIndices(calls, base, env) <==>
              base <= x < base + |calls| && Executes(calls[x - base], x, env)
    decreases |calls|
  {
    if calls != [] {
      var n := |calls| - 1;
      var init := calls[..n];
      ExecutedIndicesSound(init, base, env);
      assert calls[..n + 1] == calls;
      CollectNext(calls, n, base, RunStep(env));
      var mine := RunStep(env)(calls[n], base + n);
      assert mine == if Executes(calls[n], base + n, env) then [base + n] else [];
      assert ExecutedIndices(calls, base, env) == ExecutedIndices(init, base, env) + mine;
      assert forall k :: 0 <= k < n ==> init[k] == calls[k];
    }
  }

  /** However the calls are spread, at most the cap's worth of tools run from call number `base` on. */
  lemma {:induction false} ExecutionsCapped(calls: seq<Call>, base: nat, env: Environment)
    ensures |ExecutedIndices(calls, base, env)| <= |calls|
    ensures base <= MAX_TOOL_CALLS_PER_REQUEST ==> |ExecutedIndices(calls, base, env)| <= MAX_TOOL_CALLS_PER_REQUEST - base
    ensures base >= MAX_TOOL_CALLS_PER_REQUEST ==> ExecutedIndices(calls, base, env) == []
    decreases |calls|
  {
    if calls != [] {
      var n := |calls| - 1;
      ExecutionsCapped(calls[..n], base, env);
      assert calls[..n + 1] == calls;
      CollectNext(calls, n, base, RunStep(env));
      var mine := RunStep(env)(calls[n], base + n);
      assert mine == if Executes(calls[n], base + n, env) then [base + n] else [];
    }
  }

  // ---------------------------------------------------------------------------
  // The conversation

  /** The calls requested by the model turns of `turns`, in order. */
  function CallsIn(turns: seq<Content>): seq<Call>
    decreases |turns|
  {
    if |turns| < 2 then []
    else CallsIn(turns[..|turns| - 2]) + FunctionCalls(turns[|turns| - 2].parts)
  }

  /**
   * `turns` is a series of tool rounds: a model turn with at least one call,
   * then a user turn holding one response per call, in the calls' order,
   * where calls are numbered across the whole run.
   */
  ghost predicate Exchanges(turns: seq<Content>, env: Environment)
    requires env.Valid()
    decreases |turns|
  {
    || turns == []
    || (&& |turns| >= 2
        && var n := |turns|;
           var calls := FunctionCalls(turns[n - 2].parts);
           && Exchanges(turns[..n - 2], env)
           && turns[n - 2].role == Model
           && calls != []
           && turns[n - 1] == Content(User, Responses(calls, |CallsIn(turns[..n - 2])|, env)))
  }

  /** The messages a run starts from: the history, then the user's message. */
  function Opening(history: seq<Content>, userMessage: string): (m: seq<Content>)
    ensures |m| == |history| + 1 && m[|history|] == Content(User, [TextPart(userMessage)])
  {
    history + [Content(User, [TextPart(userMessage)])]
  }

  /** Why a run ended. */
  datatype Exit = LlmFailure(message: string) | EmptyReply | Answered(parts: seq<Part>) | StepLimit

  /** The text of the final response each way of ending carries. */
  function ExitText(exit: Exit): string
  {
    match exit
    case LlmFailure(message) => LlmErrorText(message)
    case EmptyReply => EMPTY_RESPONSE_TEXT
    case Answered(parts) => FinalText(parts)
    case StepLimit => MAX_STEPS_TEXT
  }

  /** The final text of an answer, stated apart from any loop state. */
  lemma AnswerText(parts: seq<Part>)
    ensures ExitText(Answered(parts)) == FinalText(parts)
  {
  }

  /**
   * How a round ends after its model call: an error, an empty reply or a
   * reply without calls end the run; `None` means the reply asks for tools.
   */
  function Ending(result: ModelCall): (e: Wrappers.Option<Exit>)
    ensures e.None? <==> result.Replied? && result.reply.Candidate? && FunctionCalls(result.reply.parts) != []
  {
    if result.Failed? then Wrappers.Some(LlmFailure(result.message))
    else if !result.reply.Candidate? || result.reply.parts == [] then Wrappers.Some(EmptyReply)
    else if FunctionCalls(result.reply.parts) == [] then Wrappers.Some(Answered(result.reply.parts))
    else Wrappers.None
  }

  /**
   * One round of a run: how its model call ended, how many retries it
   * took, the position in `replies` of its first answer, and the number
   * of tool calls requested before it.
   */
  datatype Turn = Turn(result: ModelCall, retries: nat, first: nat, base: nat)

  /** The calls a round runs: those of its reply, unless the round ends the run. */
  function TurnCalls(turn: Turn): seq<Call>
  {
    if Ending(turn.result).None? then FunctionCalls(turn.result.reply.parts) else []
  }

  /** What a round adds to the conversation: for a tool round, the reply and the responses. */
  function TurnExchanges(turn: Turn, env: Environment): seq<Content>
    requires env.Valid()
  {
    if Ending(turn.result).Some? then []
    else [Content(Model, turn.result.reply.parts), Content(User, Responses(TurnCalls(turn), turn.base, env))]
  }

  /** What a round yields: its retry notices, then the final response or the events of its calls. */
  function TurnEvents(turn: Turn, env: Environment): seq<Event>
  {
    Notices(turn.retries)
    + match Ending(turn.result)
      case Some(exit) => [FinalResponse(ExitText(exit))]
      case None => RoundEvents(TurnCalls(turn), turn.base, env)
  }

  /** A round whose reply asks for tools adds its retry notices, then its calls' events, and its two exchanges. */
  lemma TurnGoesOn(turn: Turn, env: Environment)
    requires env.Valid() && Ending(turn.result).None?
    ensures TurnCalls(turn) == FunctionCalls(turn.result.reply.parts)
    ensures TurnEvents(turn, env) == Notices(turn.retries) + RoundEvents(TurnCalls(turn), turn.base, env)
    ensures TurnExchanges(turn, env)
            == [Content(Model, turn.result.reply.parts), Content(User, Responses(TurnCalls(turn), turn.base, env))]
  {
  }

  /**
   * A round whose reply ends the run adds its retry notices, then the final
   * response, and no tool-round exchanges; an answer's own turn is appended
   * by the run itself (see `Finished`).
   */
  lemma TurnStops(turn: Turn, exit: Exit, env: Environment)
    requires env.Valid() && Ending(turn.result) == Wrappers.Some(exit)
    ensures TurnEvents(turn, env) == Notices(turn.retries) + [FinalResponse(ExitText(exit))]
    ensures TurnExchanges(turn, env) == []
  {
  }

  /** The conversation the rounds `turns` add, in order. */
  function ExchangesOf(turns: seq<Turn>, env: Environment): seq<Content>
    requires env.Valid()
    decreases |turns|
  {
    if turns == [] then [] else ExchangesOf(turns[..|turns| - 1], env) + TurnExchanges(turns[|turns| - 1], env)
  }

  /** The events the rounds `turns` yield, in order. */
  function EventsOf(turns: seq<Turn>, env: Environment): seq<Event>
    decreases |turns|
  {
    if turns == [] then [] else EventsOf(turns[..|turns| - 1], env) + TurnEvents(turns[|turns| - 1], env)
  }

  lemma ExchangesOfNext(turns: seq<Turn>, turn: Turn, env: Environment)
    requires env.Valid()
    ensures ExchangesOf(turns + [turn], env) == ExchangesOf(turns, env) + TurnExchanges(turn, env)
  {
    assert (turns + [turn])[..|turns|] == turns;
  }

  lemma EventsOfNext(turns: seq<Turn>, turn: Turn, env: Environment)
    ensures EventsOf(turns + [turn], env) == EventsOf(turns, env) + TurnEvents(turn, env)
  {
    assert (turns + [turn])[..|turns|] == turns;
  }

  /** A run after some rounds: how it ended (`None` while it goes on), the model calls and tool calls made, and its rounds. */
  datatype Trace = Trace(exit: Wrappers.Option<Exit>, served: nat, toolCalls: nat, turns: seq<Turn>)

  /** One more round of a run that goes on: the reference each pass of the loop is proved against. */
  function Round(env: Environment, t: Trace): (t': Trace)
    requires t.exit.None? && t.served + MAX_RETRIES <= |env.replies|
    ensures |t'.turns| == |t.turns| + 1 && t.served < t'.served <= t.served + MAX_RETRIES
    ensures t'.exit.Some? ==> !t'.exit.value.StepLimit?
  {
    var a := Ask(env.replies, t.served);
    var turn := Turn(a.result, a.attempts - 1, t.served, t.toolCalls);
    Trace(Ending(a.result), t.served + a.attempts, t.toolCalls + |TurnCalls(turn)|, t.turns + [turn])
  }

  /** The run after `n` passes of the loop: a run that has ended stays as it is. */
  function Rounds(env: Environment, n: nat): (t: Trace)
    requires env.Valid() && n <= MAX_LOOP_ITERATIONS
    ensures |t.turns| <= n && t.served <= MAX_RETRIES * |t.turns|
    ensures t.exit.None? ==> |t.turns| == n
    ensures t.exit.Some? ==> 1 <= |t.turns| && !t.exit.value.StepLimit?
  {
    if n == 0 then Trace(Wrappers.None, 0, 0, [])
    else
      var t := Rounds(env, n - 1);
      if t.exit.Some? then t else Round(env, t)
  }

  /** What a run shows: how it ended, its rounds and model calls, the conversation it adds, and its events. */
  datatype Outcome = Outcome(exit: Exit, rounds: nat, served: nat, exchanges: seq<Content>, events: seq<Event>)

  /** The whole run: the rounds, and the cap's final response when no round ended it. */
  function RunOf(env: Environment): (r: Outcome)
    requires env.Valid()
    ensures 1 <= r.rounds <= MAX_LOOP_ITERATIONS
    ensures r.exit.StepLimit? ==> r.rounds == MAX_LOOP_ITERATIONS
  {
    var t := Rounds(env, MAX_LOOP_ITERATIONS);
    Outcome(if t.exit.Some? then t.exit.value else StepLimit, |t.turns|, t.served, ExchangesOf(t.turns, env),
            EventsOf(t.turns, env) + (if t.exit.Some? then [] else [FinalResponse(MAX_STEPS_TEXT)]))
  }

  /** Once a run has ended, later passes change nothing. */
  lemma {:induction false} RoundsStay(env: Environment, m: nat, n: nat)
    requires env.Valid() && m <= n <= MAX_LOOP_ITERATIONS && Rounds(env, m).exit.Some?
    ensures Rounds(env, n) == Rounds(env, m)
    decreases n
  {
    if n > m {
      RoundsStay(env, m, n - 1);
    }
  }

  /** Traces one pass of the loop apart, from the run before its first round: each the round `Round` adds to the one before. */
  ghost predicate History(env: Environment, hist: seq<Trace>)
    requires env.Valid()
  {
    && |hist| >= 1 && hist[0] == Trace(Wrappers.None, 0, 0, [])
    && forall j, k :: 0 <= j && k == j + 1 < |hist| ==> Stepped(env, hist[j], hist[k])
  }

  /** `b` is the trace one pass of the loop after `a`, which had not ended. */
  ghost predicate Stepped(env: Environment, a: Trace, b: Trace)
    requires env.Valid()
  {
    a.exit.None? && a.served + MAX_RETRIES <= |env.replies| && b == Round(env, a)
  }

  lemma HistoryNext(env: Environment, hist: seq<Trace>)
    requires env.Valid() && History(env, hist)
    requires hist[|hist| - 1].exit.None? && hist[|hist| - 1].served + MAX_RETRIES <= |env.replies|
    ensures History(env, hist + [Round(env, hist[|hist| - 1])])
  {
    var h := hist + [Round(env, hist[|hist| - 1])];
    assert h[0] == hist[0];
    forall j, k | 0 <= j && k == j + 1 < |h|
      ensures Stepped(env, h[j], h[k])
    {
      assert h[j] == hist[j];
      if k < |hist| {
        assert h[k] == hist[k];
      }
    }
  }

  /** The traces of a history are the runs after as many passes of the loop. */
  lemma {:induction false} HistoryRounds(env: Environment, hist: seq<Trace>)
    requires env.Valid() && History(env, hist) && |hist| <= MAX_LOOP_ITERATIONS + 1
    ensures hist[|hist| - 1] == Rounds(env, |hist| - 1) && |hist[|hist| - 1].turns| == |hist| - 1
    decreases |hist|
  {
    var n := |hist| - 1;
    if n > 0 {
      var p := hist[..n];
      assert History(env, p) by {
        assert p[0] == hist[0];
        forall j, k | 0 <= j && k == j + 1 < |p|
          ensures Stepped(env, p[j], p[k])
        {
          assert p[j] == hist[j] && p[k] == hist[k];
        }
      }
      HistoryRounds(env, p);
      assert p[n - 1] == hist[n - 1];
      assert Stepped(env, hist[n - 1], hist[n]);
    }
  }

  /** A history that reached the run's end has the run's final trace last. */
  lemma HistoryEnds(env: Environment, hist: seq<Trace>)
    requires env.Valid() && History(env, hist) && |hist| <= MAX_LOOP_ITERATIONS + 1
    requires hist[|hist| - 1].exit.Some? || |hist| == MAX_LOOP_ITERATIONS + 1
    ensures Rounds(env, MAX_LOOP_ITERATIONS) == hist[|hist| - 1] && |hist[|hist| - 1].turns| == |hist| - 1
  {
    HistoryRounds(env, hist);
    if hist[|hist| - 1].exit.Some? {
      RoundsStay(env, |hist| - 1, MAX_LOOP_ITERATIONS);
    }
  }

  /** The round `Round` adds starts where the last one stopped, and decides whether the run ends. */
  lemma RoundAppends(env: Environment, t: Trace)
    requires t.exit.None? && t.served + MAX_RETRIES <= |env.replies|
    ensures var t' := Round(env, t);
            var turn := t'.turns[|t.turns|];
            && t'.turns == t.turns + [turn]
            && turn.first == t.served && t'.served == turn.first + turn.retries + 1
            && t'.exit == Ending(turn.result)
  {
  }

  /** The round `Round` adds is the retry policy's verdict on the answers from its first one. */
  lemma RoundAsks(env: Environment, t: Trace)
    requires t.exit.None? && t.served + MAX_RETRIES <= |env.replies|
    ensures var turn := Round(env, t).turns[|t.turns|];
            turn.first == t.served && Asked(turn.result, turn.retries + 1) == Ask(env.replies, turn.first)
  {
  }

  /**
   * The rounds of `t` consumed the service's answers one after another
   * from the first: each round's model call ended as the retry policy says
   * for the answers from where the previous round stopped, every round but
   * the last asked for tools, and the last one decided how the run ended.
   */
  ghost predicate Consumed(env: Environment, t: Trace)
  {
    EachAsked(env, t) && Chained(t)
  }

  /** Each round's model call ended as the retry policy says for the answers from its first one. */
  ghost predicate EachAsked(env: Environment, t: Trace)
  {
    forall k :: 0 <= k < |t.turns| ==>
      && t.turns[k].first + t.turns[k].retries < t.served
      && t.turns[k].first + MAX_RETRIES <= |env.replies|
      && Asked(t.turns[k].result, t.turns[k].retries + 1) == Ask(env.replies, t.turns[k].first)
  }

  /** Each round starts where the previous one stopped and asked for tools; the last one decided the ending. */
  ghost predicate Chained(t: Trace)
  {
    && Adjacent(t.turns)
    && (t.turns == [] ==> t.served == 0 && t.exit.None?)
    && (t.turns != [] ==> && t.turns[0].first == 0
                          && t.served == t.turns[|t.turns| - 1].first + t.turns[|t.turns| - 1].retries + 1
                          && t.exit == Ending(t.turns[|t.turns| - 1].result))
  }

  /** Each round but the last asked for tools, and the next one starts where it stopped. */
  ghost predicate Adjacent(turns: seq<Turn>)
  {
    forall j, k :: 0 <= j < |turns| && k == j + 1 < |turns| ==>
      turns[k].first == turns[j].first + turns[j].retries + 1 && Ending(turns[j].result).None?
  }

  lemma AdjacentAppend(turns: seq<Turn>, turn: Turn)
    requires Adjacent(turns)
    requires turns != [] ==> && turn.first == turns[|turns| - 1].first + turns[|turns| - 1].retries + 1
                             && Ending(turns[|turns| - 1].result).None?
    ensures Adjacent(turns + [turn])
  {
    var u := turns + [turn];
    forall j, k | 0 <= j < |u| && k == j + 1 < |u|
      ensures u[k].first == u[j].first + u[j].retries + 1 && Ending(u[j].result).None?
    {
      assert u[j] == turns[j];
      if k < |turns| {
        assert u[k] == turns[k];
      }
    }
  }

  lemma RoundKeepsAsked(env: Environment, t: Trace)
    requires t.exit.None? && t.served + MAX_RETRIES <= |env.replies| && EachAsked(env, t)
    ensures EachAsked(env, Round(env, t))
  {
    RoundAppends(env, t);
    RoundAsks(env, t);
    var t' := Round(env, t);
    forall k | 0 <= k < |t'.turns|
      ensures t'.turns[k].first + t'.turns[k].retries < t'.served
      ensures t'.turns[k].first + MAX_RETRIES <= |env.replies|
      ensures Asked(t'.turns[k].result, t'.turns[k].retries + 1) == Ask(env.replies, t'.turns[k].first)
    {
      if k < |t.turns| {
        assert t'.turns[k] == t.turns[k];
      }
    }
  }

  lemma RoundKeepsChained(env: Environment, t: Trace)
    requires t.exit.None? && t.served + MAX_RETRIES <= |env.replies| && Chained(t)
    ensures Chained(Round(env, t))
  {
    RoundAppends(env, t);
    var t' := Round(env, t);
    AdjacentAppend(t.turns, t'.turns[|t.turns|]);
  }

  /** Every run consumes the service's answers one round after another. */
  lemma RoundsConsume(env: Environment, n: nat)
    requires env.Valid() && n <= MAX_LOOP_ITERATIONS
    ensures Consumed(env, Rounds(env, n))
  {
    RoundsAsked(env, n);
    RoundsChained(env, n);
  }

  lemma {:induction false} RoundsAsked(env: Environment, n: nat)
    requires env.Valid() && n <= MAX_LOOP_ITERATIONS
    ensures EachAsked(env, Rounds(env, n))
  {
    if n > 0 {
      RoundsAsked(env, n - 1);
      var t := Rounds(env, n - 1);
      if t.exit.None? {
        RoundKeepsAsked(env, t);
      }
    }
  }

  lemma {:induction false} RoundsChained(env: Environment, n: nat)
    requires env.Valid() && n <= MAX_LOOP_ITERATIONS
    ensures Chained(Rounds(env, n))
  {
    if n > 0 {
      RoundsChained(env, n - 1);
      var t := Rounds(env, n - 1);
      if t.exit.None? {
        RoundKeepsChained(env, t);
      }
    }
  }

  /** A first answer without calls ends the run at once with its text. */
  lemma AnswerFirst(env: Environment, parts: seq<Part>)
    requires env.Valid() && env.replies[0] == Candidate(parts) && parts != [] && FunctionCalls(parts) == []
    ensures RunOf(env) == Outcome(Answered(parts), 1, 1, [], [FinalResponse(FinalText(parts))])
  {
    RoundsStay(env, 1, MAX_LOOP_ITERATIONS);
    var turn := Rounds(env, 1).turns[0];
    assert Rounds(env, 1).turns == [] + [turn];
    EventsOfNext([], turn, env);
    ExchangesOfNext([], turn, env);
  }

  /** An error that is not a throttle ends the run at once with the error's text. */
  lemma FailFirst(env: Environment, message: string, retryIn: Wrappers.Option<nat>)
    requires env.Valid() && env.replies[0] == ApiError(message, retryIn) && !IsRateLimit(message)
    ensures RunOf(env) == Outcome(LlmFailure(message), 1, 1, [], [FinalResponse(LlmErrorText(message))])
  {
    RoundsStay(env, 1, MAX_LOOP_ITERATIONS);
    var turn := Rounds(env, 1).turns[0];
    assert Rounds(env, 1).turns == [] + [turn];
    EventsOfNext([], turn, env);
    ExchangesOfNext([], turn, env);
  }

  /** A throttle, then an answer without calls: one retry notice, then the answer. */
  lemma RetryThenAnswer(env: Environment, parts: seq<Part>)
    requires env.Valid() && env.replies[0].ApiError? && IsRateLimit(env.replies[0].message)
    requires env.replies[1] == Candidate(parts) && parts != [] && FunctionCalls(parts) == []
    ensures RunOf(env).exit == Answered(parts) && RunOf(env).served == 2
    ensures RunOf(env).events == [StatusUpdate(RetryNotice(1)), FinalResponse(FinalText(parts))]
  {
    RoundsStay(env, 1, MAX_LOOP_ITERATIONS);
    var turn := Rounds(env, 1).turns[0];
    assert Rounds(env, 1).turns == [] + [turn];
    EventsOfNext([], turn, env);
  }

  // ---------------------------------------------------------------------------
  // The rate limiter's record across a run

  /** No name loses its recorded time. */
  ghost predicate Keeps(before: map<string, int>, after: map<string, int>) {
    forall n :: n in before ==> n in after
  }

  /** Every call under the cap among `calls`, numbered from `base`, has a recorded time. */
  predicate Recorded(last: map<string, int>, calls: seq<Call>, base: nat) {
    forall k :: 0 <= k < |calls| && !OverLimit(base + k) ==> calls[k].name in last
  }

  /** Only names that some call of `calls` names can have a different recorded time. */
  ghost predicate Untouched(before: map<string, int>, after: map<string, int>, calls: seq<Call>) {
    forall n :: (forall c :: c in calls ==> c.name != n) ==> LastCallIn(after, n) == LastCallIn(before, n)
  }

  lemma RecordedAppend(m1: map<string, int>, m2: map<string, int>, a: seq<Call>, b: seq<Call>)
    requires Recorded(m1, a, 0) && Keeps(m1, m2) && Recorded(m2, b, |a|)
    ensures Recorded(m2, a + b, 0)
  {
    forall k | 0 <= k < |a + b| && !OverLimit(k)
      ensures (a + b)[k].name in m2
    {
      if k >= |a| {
        assert (a + b)[k] == b[k - |a|];
      }
    }
  }

  lemma UntouchedAppend(m0: map<string, int>, m1: map<string, int>, m2: map<string, int>, a: seq<Call>, b: seq<Call>)
    requires Untouched(m0, m1, a) && Untouched(m1, m2, b)
    ensures Untouched(m0, m2, a + b)
  {
    forall n | forall c :: c in a + b ==> c.name != n
      ensures LastCallIn(m2, n) == LastCallIn(m0, n)
    {
      assert forall c :: c in a ==> c in a + b;
      assert forall c :: c in b ==> c in a + b;
    }
  }

  /** Handling call `j` of `calls` keeps the limiter's accounts of the calls handled so far. */
  lemma LimiterStep(m0: map<string, int>, m1: map<string, int>, m2: map<string, int>,
                    calls: seq<Call>, j: nat, base: nat, t: int)
    requires j < |calls|
    requires Keeps(m0, m1) && Recorded(m1, calls[..j], base) && Untouched(m0, m1, calls)
    requires OverLimit(base + j) ==> m2 == m1
    requires !OverLimit(base + j) ==> m2 == m1[calls[j].name := t]
    ensures Keeps(m0, m2) && Recorded(m2, calls[..j + 1], base) && Untouched(m0, m2, calls)
  {
    assert calls[j] in calls;
    var p := calls[..j + 1];
    forall k | 0 <= k < |p| && !OverLimit(base + k)
      ensures p[k].name in m2
    {
      if k < j {
        assert calls[..j][k] == p[k];
      }
    }
  }

  // ---------------------------------------------------------------------------
  // The loop's state between rounds

  /** The loop's state and conversation are those the rounds of `trace` give, and the run goes on. */
  ghost predicate Mirrors(s: LoopState, exchanges: seq<Content>, trace: Trace, env: Environment)
    requires env.Valid()
  {
    && trace.exit.None?
    && s.served == trace.served && s.toolCalls == trace.toolCalls
    && s.events == EventsOf(trace.turns, env)
    && exchanges == ExchangesOf(trace.turns, env)
  }

  /**
   * After one more round the loop's state agrees with `t'`, the trace the
   * round `Round` adds gives: it stopped with the trace's ending, or it goes on.
   */
  ghost predicate Followed(stop: bool, t: LoopState, exit: Exit, exchanges: seq<Content>, t': Trace, env: Environment)
    requires env.Valid()
  {
    if stop then
      && t'.exit == Wrappers.Some(exit) && t.served == t'.served && t.toolCalls == t'.toolCalls
      && t.events == EventsOf(t'.turns, env) && exchanges == ExchangesOf(t'.turns, env)
    else Mirrors(t, exchanges, t', env)
  }

  /** The run's results are those of the outcome `o`. */
  ghost predicate Agrees(o: Outcome, exit: Exit, rounds: nat, modelCalls: nat, exchanges: seq<Content>, events: seq<Event>)
  {
    o.exit == exit && o.rounds == rounds && o.served == modelCalls && o.exchanges == exchanges && o.events == events
  }

  /** The round `Round` adds, written out from the retry policy's verdict. */
  lemma RoundRecord(env: Environment, trace: Trace)
    requires env.Valid() && trace.exit.None? && trace.served + MAX_RETRIES <= |env.replies|
    ensures var a := Ask(env.replies, trace.served);
            var turn := Turn(a.result, a.attempts - 1, trace.served, trace.toolCalls);
            var t' := Round(env, trace);
            && t'.exit == Ending(a.result)
            && t'.served == trace.served + a.attempts
            && t'.toolCalls == trace.toolCalls + |TurnCalls(turn)|
            && EventsOf(t'.turns, env) == EventsOf(trace.turns, env) + TurnEvents(turn, env)
            && ExchangesOf(t'.turns, env) == ExchangesOf(trace.turns, env) + TurnExchanges(turn, env)
  {
    var a := Ask(env.replies, trace.served);
    var turn := Turn(a.result, a.attempts - 1, trace.served, trace.toolCalls);
    EventsOfNext(trace.turns, turn, env);
    ExchangesOfNext(trace.turns, turn, env);
  }

  /** The loop's variables: the conversation, the events so far, model calls made, tool calls counted, the clock. */
  datatype LoopState = LoopState(messages: seq<Content>, events: seq<Event>, served: nat, toolCalls: nat, clock: int)

  /** The loop's invariant: after `opening`, the conversation is a series of tool rounds, and the events agree with it. */
  ghost predicate Progress(s: LoopState, opening: seq<Content>, exchanges: seq<Content>, executed: seq<nat>, env: Environment)
    requires env.Valid()
  {
    && s.messages == opening + exchanges
    && Exchanges(exchanges, env)
    && s.toolCalls == |CallsIn(exchanges)|
    && executed == ExecutedIndices(CallsIn(exchanges), 0, env)
    && NoFinal(s.events)
    && ConfirmationsOf(s.events) == ConfirmationsFor(CallsIn(exchanges), 0, env)
  }

  /** How a finished run looks: one final response, last, with the exit's text. */
  ghost predicate Finished(t: LoopState, opening: seq<Content>, exchanges: seq<Content>, executed: seq<nat>, exit: Exit, env: Environment)
    requires env.Valid()
  {
    && t.messages == opening + exchanges + (if exit.Answered? then [Content(Model, exit.parts)] else [])
    && Exchanges(exchanges, env)
    && executed == ExecutedIndices(CallsIn(exchanges), 0, env)
    && |t.events| >= 1 && t.events[|t.events| - 1] == FinalResponse(ExitText(exit))
    && NoFinal(t.events[..|t.events| - 1])
    && ConfirmationsOf(t.events) == ConfirmationsFor(CallsIn(exchanges), 0, env)
    && (exit.Answered? ==> exit.parts != [] && FunctionCalls(exit.parts) == [])
  }

  /** Retry notices keep the invariant. */
  lemma NoticesKeepProgress(s: LoopState, u: LoopState, notices: seq<Event>,
                            opening: seq<Content>, exchanges: seq<Content>, executed: seq<nat>, env: Environment)
    requires env.Valid() && Progress(s, opening, exchanges, executed, env)
    requires forall e :: e in notices ==> e.StatusUpdate?
    requires u.messages == s.messages && u.toolCalls == s.toolCalls && u.events == s.events + notices
    ensures Progress(u, opening, exchanges, executed, env)
  {
    ConfirmationsOfSound(notices);
    ConfirmationsOfAppend(s.events, notices);
  }

  /** Appending the final response to a state that keeps the invariant finishes the run. */
  lemma Finish(s: LoopState, t: LoopState, opening: seq<Content>, exchanges: seq<Content>, executed: seq<nat>,
               exit: Exit, env: Environment)
    requires env.Valid() && Progress(s, opening, exchanges, executed, env)
    requires t.events == s.events + [FinalResponse(ExitText(exit))]
    requires t.messages == s.messages + (if exit.Answered? then [Content(Model, exit.parts)] else [])
    requires exit.Answered? ==> exit.parts != [] && FunctionCalls(exit.parts) == []
    ensures Finished(t, opening, exchanges, executed, exit, env)
  {
    ConfirmationsOfSound([FinalResponse(ExitText(exit))]);
    ConfirmationsOfAppend(s.events, [FinalResponse(ExitText(exit))]);
    assert t.events[..|t.events| - 1] == s.events;
  }

  /** A round whose reply ends the run finishes it, as the round `Round` adds says. */
  lemma Stopped(s: LoopState, u: LoopState, t: LoopState, trace: Trace, result: ModelCall, exit: Exit,
                opening: seq<Content>, exchanges: seq<Content>, executed: seq<nat>, env: Environment)
    requires env.Valid() && Progress(u, opening, exchanges, executed, env)
    requires Mirrors(s, exchanges, trace, env) && s.served + MAX_RETRIES <= |env.replies|
    requires var a := Ask(env.replies, s.served);
             && result == a.result && u.served == s.served + a.attempts && u.toolCalls == s.toolCalls
             && u.events == s.events + Notices(a.attempts - 1)
    requires Ending(result) == Wrappers.Some(exit)
    requires t.served == u.served && t.toolCalls == u.toolCalls
    requires t.events == u.events + [FinalResponse(ExitText(exit))]
    requires t.messages == u.messages + (if exit.Answered? then [Content(Model, exit.parts)] else [])
    ensures Finished(t, opening, exchanges, executed, exit, env)
    ensures Followed(true, t, exit, exchanges, Round(env, trace), env)
  {
    Finish(u, t, opening, exchanges, executed, exit, env);
    StopFollows(s, u, t, trace, result, exit, exchanges, env);
  }

  /** The part of `Stopped` about the reference round: it ends with the same exit and state. */
  lemma StopFollows(s: LoopState, u: LoopState, t: LoopState, trace: Trace, result: ModelCall, exit: Exit,
                    exchanges: seq<Content>, env: Environment)
    requires env.Valid() && Mirrors(s, exchanges, trace, env) && s.served + MAX_RETRIES <= |env.replies|
    requires var a := Ask(env.replies, s.served);
             && result == a.result && u.served == s.served + a.attempts && u.toolCalls == s.toolCalls
             && u.events == s.events + Notices(a.attempts - 1)
    requires Ending(result) == Wrappers.Some(exit)
    requires t.served == u.served && t.toolCalls == u.toolCalls
    requires t.events == u.events + [FinalResponse(ExitText(exit))]
    ensures Followed(true, t, exit, exchanges, Round(env, trace), env)
  {
    RoundRecord(env, trace);
    var a := Ask(env.replies, s.served);
    TurnStops(Turn(a.result, a.attempts - 1, trace.served, trace.toolCalls), exit, env);
    ConcatAssoc(s.events, Notices(a.attempts - 1), [FinalResponse(ExitText(exit))]);
  }

  /** A round whose reply asks for tools goes on, as the round `Round` adds says. */
  lemma WentOn(s: LoopState, u: LoopState, t: LoopState, trace: Trace, result: ModelCall,
               exchanges: seq<Content>, exchanges': seq<Content>, env: Environment)
    requires env.Valid() && Mirrors(s, exchanges, trace, env) && s.served + MAX_RETRIES <= |env.replies|
    requires var a := Ask(env.replies, s.served);
             && result == a.result && u.served == s.served + a.attempts && u.toolCalls == s.toolCalls
             && u.events == s.events + Notices(a.attempts - 1)
    requires Ending(result).None?
    requires var calls := FunctionCalls(result.reply.parts);
             && t.served == u.served && t.toolCalls == u.toolCalls + |calls|
             && t.events == u.events + RoundEvents(calls, u.toolCalls, env)
             && exchanges' == exchanges + [Content(Model, result.reply.parts), Content(User, Responses(calls, u.toolCalls, env))]
    ensures Followed(false, t, StepLimit, exchanges', Round(env, trace), env)
  {
    RoundRecord(env, trace);
    var a := Ask(env.replies, s.served);
    var turn := Turn(a.result, a.attempts - 1, trace.served, trace.toolCalls);
    var calls := FunctionCalls(result.reply.parts);
    TurnGoesOn(turn, env);
    ConcatAssoc(s.events, Notices(a.attempts - 1), RoundEvents(calls, u.toolCalls, env));
  }

  /**
   * How a run's results close on the trace `t` of its last round: the exit
   * `t` records or, at the cap, the cap's final response after its events.
   */
  ghost predicate Closes(exit: Exit, served: nat, events: seq<Event>, exchanges: seq<Content>, t: Trace, env: Environment)
    requires env.Valid()
  {
    && served == t.served && exchanges == ExchangesOf(t.turns, env)
    && if exit.StepLimit?
       then t.exit.None? && events == EventsOf(t.turns, env) + [FinalResponse(MAX_STEPS_TEXT)]
       else t.exit == Wrappers.Some(exit) && events == EventsOf(t.turns, env)
  }

  /** Results that close on the last trace of a history to the run's end are the reference run's. */
  lemma RunAgrees(env: Environment, hist: seq<Trace>, exit: Exit, served: nat, events: seq<Event>, exchanges: seq<Content>)
    requires env.Valid() && History(env, hist) && |hist| <= MAX_LOOP_ITERATIONS + 1
    requires exit.StepLimit? ==> |hist| == MAX_LOOP_ITERATIONS + 1
    requires Closes(exit, served, events, exchanges, hist[|hist| - 1], env)
    ensures Agrees(RunOf(env), exit, |hist| - 1, served, exchanges, events)
  {
    HistoryEnds(env, hist);
  }

  /** A run no round ended stops at the cap, with the cap's final response, as the reference run does. */
  lemma Capped(env: Environment, hist: seq<Trace>, s: LoopState, t: LoopState,
               opening: seq<Content>, exchanges: seq<Content>, executed: seq<nat>)
    requires env.Valid() && History(env, hist) && |hist| == MAX_LOOP_ITERATIONS + 1
    requires Progress(s, opening, exchanges, executed, env) && Mirrors(s, exchanges, hist[|hist| - 1], env)
    requires t == s.(events := s.events + [FinalResponse(MAX_STEPS_TEXT)])
    ensures Finished(t, opening, exchanges, executed, StepLimit, env)
    ensures Agrees(RunOf(env), StepLimit, MAX_LOOP_ITERATIONS, t.served, exchanges, t.events)
  {
    Finish(s, t, opening, exchanges, executed, StepLimit, env);
    RunAgrees(env, hist, StepLimit, s.served, t.events, exchanges);
  }

  /** A tool round extends the series of exchanges, and the calls it adds come last. */
  lemma ExchangesExtend(exchanges: seq<Content>, model: Content, user: Content, env: Environment)
    requires env.Valid() && Exchanges(exchanges, env)
    requires model.role == Model && FunctionCalls(model.parts) != []
    requires user == Content(User, Responses(FunctionCalls(model.parts), |CallsIn(exchanges)|, env))
    ensures Exchanges(exchanges + [model, user], env)
    ensures CallsIn(exchanges + [model, user]) == CallsIn(exchanges) + FunctionCalls(model.parts)
  {
    var ext := exchanges + [model, user];
    assert ext[..|ext| - 2] == exchanges;
    assert ext[|ext| - 2] == model && ext[|ext| - 1] == user;
  }

  /** Events that add the confirmation requests of later calls keep the events in step with the calls. */
  lemma ConfirmationsKeep(events: seq<Event>, requested: seq<Call>, calls: seq<Call>, added: seq<Event>, env: Environment)
    requires NoFinal(events) && ConfirmationsOf(events) == ConfirmationsFor(requested, 0, env)
    requires NoFinal(added) && ConfirmationsOf(added) == ConfirmationsFor(calls, |requested|, env)
    ensures NoFinal(events + added)
    ensures ConfirmationsOf(events + added) == ConfirmationsFor(requested + calls, 0, env)
  {
    NoFinalAppend(events, added);
    ConfirmationsOfAppend(events, added);
    ConfirmationsForAppend(requested, calls, env);
  }

  /** The confirmations for `requested` then `calls` are those for `requested`, then those for `calls` numbered after them. */
  lemma ConfirmationsForAppend(requested: seq<Call>, calls: seq<Call>, env: Environment)
    ensures ConfirmationsFor(requested + calls, 0, env)
            == ConfirmationsFor(requested, 0, env) + ConfirmationsFor(calls, |requested|, env)
  {
    CollectAppend(requested, calls, 0, ConfirmationStep(env));
  }

  /** A tool round keeps the invariant. */
  lemma RoundKeepsProgress(s: LoopState, t: LoopState, parts: seq<Part>, user: Content, roundEvents: seq<Event>,
                           ran: seq<nat>, opening: seq<Content>, exchanges: seq<Content>, executed: seq<nat>,
                           exchanges': seq<Content>, executed': seq<nat>, env: Environment)
    requires env.Valid() && Progress(s, opening, exchanges, executed, env)
    requires FunctionCalls(parts) != []
    requires user == Content(User, Responses(FunctionCalls(parts), s.toolCalls, env))
    requires roundEvents == RoundEvents(FunctionCalls(parts), s.toolCalls, env)
    requires ran == ExecutedIndices(FunctionCalls(parts), s.toolCalls, env)
    requires exchanges' == exchanges + [Content(Model, parts), user]
    requires t.messages == s.messages + [Content(Model, parts), user] && t.events == s.events + roundEvents
    requires t.toolCalls == s.toolCalls + |FunctionCalls(parts)| && executed' == executed + ran
    ensures Progress(t, opening, exchanges', executed', env)
  {
    var calls, requested := FunctionCalls(parts), CallsIn(exchanges);
    ExchangesExtend(exchanges, Content(Model, parts), user, env);
    RoundKeepsAccounts(s.events, executed, requested, calls, roundEvents, ran, env);
    ConcatAssoc(opening, exchanges, [Content(Model, parts), user]);
  }

  /** The tools run and the confirmation requests asked stay in step with the calls after a tool round. */
  lemma RoundKeepsAccounts(events: seq<Event>, executed: seq<nat>, requested: seq<Call>, calls: seq<Call>,
                           roundEvents: seq<Event>, ran: seq<nat>, env: Environment)
    requires executed == ExecutedIndices(requested, 0, env)
    requires NoFinal(events) && ConfirmationsOf(events) == ConfirmationsFor(requested, 0, env)
    requires roundEvents == RoundEvents(calls, |requested|, env)
    requires ran == ExecutedIndices(calls, |requested|, env)
    ensures executed + ran == ExecutedIndices(requested + calls, 0, env)
    ensures NoFinal(events + roundEvents)
    ensures ConfirmationsOf(events + roundEvents) == ConfirmationsFor(requested + calls, 0, env)
  {
    ExecutedAppend(requested, calls, env);
    RoundConfirmations(calls, |requested|, env);
    ConfirmationsKeep(events, requested, calls, roundEvents, env);
  }

  /** The tools run for `requested` then `calls` are those for `requested`, then those for `calls` numbered after them. */
  lemma ExecutedAppend(requested: seq<Call>, calls: seq<Call>, env: Environment)
    ensures ExecutedIndices(requested + calls, 0, env)
            == ExecutedIndices(requested, 0, env) + ExecutedIndices(calls, |requested|, env)
  {
    CollectAppend(requested, calls, 0, RunStep(env));
  }

  // ---------------------------------------------------------------------------
  // The agent

  class GeminiAgent {
    const limiter: RateLimiter
    /** The full conversation of the last run, for the host to persist. */
    var lastMessages: seq<Content>

    constructor ()
      ensures fresh(limiter) && limiter.lastCall == map[] && lastMessages == []
    {
      limiter := new RateLimiter();
      lastMessages := [];
    }

    /**
     * One requested call, number `i` of the run: the cap, then the rate
     * limiter, then the confirmation gate, then the registry lookup and the
     * tool's outcome. `clock` is the time after the limiter's sleep.
     */
    method HandleCall(call: Call, i: nat, env: Environment, now: int)
      returns (response: Part, events: seq<Event>, ran: bool, clock: int)
      requires env.Valid()
      modifies limiter
      ensures response == Response(call, i, env)
      ensures events == CallEvents(call, i, env)
      ensures ran == Executes(call, i, env)
      ensures OverLimit(i) ==> limiter.lastCall == old(limiter.lastCall) && clock == now
      ensures !OverLimit(i) ==> clock == Released(old(limiter.lastCall), call.name, now)
                                && limiter.lastCall == old(limiter.lastCall)[call.name := clock]
    {
      var name, args := call.name, call.args;
      if i + 1 > MAX_TOOL_CALLS_PER_REQUEST {
        return FunctionResponse(name, ErrorObject(LIMIT_ERROR)), [], false, now;
      }
      var wait := limiter.Acquire(name, now);
      clock := now + wait;
      events := [];
      if name in DESTRUCTIVE_TOOLS {
        events := events + [StatusUpdate(ApprovalNotice(name))];
        var confirmation := NewConfirmationRequest(name, args);
        // the host writes the approver's decision into the request
        confirmation := confirmation.(approved := env.decisions[i] == Approve);
        events := events + [confirmation];
        if !confirmation.approved {
          return FunctionResponse(name, ErrorObject(REJECTED_ERROR)), events, false, clock;
        }
      }
      events := events + [StatusUpdate(RunningNotice(name))];
      if name !in env.registry {
        return FunctionResponse(name, ErrorObject(UnknownToolError(name))), events, false, clock;
      }
      response := FunctionResponse(name, Normalise(env.toolOutcomes[i]));
      ran := true;
    }

    /** All calls of one reply, in order; the first is call number `base` of the run. */
    method ProcessCalls(calls: seq<Call>, base: nat, env: Environment, now: int)
      returns (responses: seq<Part>, events: seq<Event>, ghost executed: seq<nat>, clock: int)
      requires env.Valid()
      modifies limiter
      ensures responses == Responses(calls, base, env)
      ensures events == RoundEvents(calls, base, env)
      ensures executed == ExecutedIndices(calls, base, env)
      ensures Keeps(old(limiter.lastCall), limiter.lastCall)
      ensures Recorded(limiter.lastCall, calls, base)
      ensures Untouched(old(limiter.lastCall), limiter.lastCall, calls)
    {
      responses, events, executed, clock := [], [], [], now;
      var j := 0;
      while j < |calls|
        invariant 0 <= j <= |calls|
        invariant responses == Responses(calls[..j], base, env)
        invariant events == RoundEvents(calls[..j], base, env)
        invariant executed == ExecutedIndices(calls[..j], base, env)
        invariant Keeps(old(limiter.lastCall), limiter.lastCall)
        invariant Recorded(limiter.lastCall, calls[..j], base)
        invariant Untouched(old(limiter.lastCall), limiter.lastCall, calls)
      {
        ghost var before := limiter.lastCall;
        var response, evs, ran, after := HandleCall(calls[j], base + j, env, clock);
        LimiterStep(old(limiter.lastCall), before, limiter.lastCall, calls, j, base, after);
        ResponsesNext(calls, j, base, env);
        RoundEventsNext(calls, j, base, env);
        CollectNext(calls, j, base, RunStep(env));
        assert RunStep(env)(calls[j], base + j) == if ran then [base + j] else [];
        responses := responses + [response];
        events := events + evs;
        if ran {
          executed := executed + [base + j];
        }
        clock := after;
        j := j + 1;
      }
      assert calls[..j] == calls;
    }

    /** The tool half of a round: run the reply's calls and append the model turn and the responses. */
    method ToolRound(s: LoopState, parts: seq<Part>, env: Environment,
                     ghost opening: seq<Content>, ghost exchanges: seq<Content>, ghost executed: seq<nat>,
                     ghost initial: map<string, int>)
      returns (t: LoopState, ghost exchanges': seq<Content>, ghost executed': seq<nat>)
      requires env.Valid() && Progress(s, opening, exchanges, executed, env) && FunctionCalls(parts) != []
      requires Recorded(limiter.lastCall, CallsIn(exchanges), 0) && Untouched(initial, limiter.lastCall, CallsIn(exchanges))
      modifies limiter
      ensures t.served == s.served && t.toolCalls == s.toolCalls + |FunctionCalls(parts)|
      ensures t.events == s.events + RoundEvents(FunctionCalls(parts), s.toolCalls, env)
      ensures exchanges' == exchanges + [Content(Model, parts),
                                         Content(User, Responses(FunctionCalls(parts), |CallsIn(exchanges)|, env))]
      ensures Progress(t, opening, exchanges', executed', env)
      ensures Recorded(limiter.lastCall, CallsIn(exchanges'), 0) && Untouched(initial, limiter.lastCall, CallsIn(exchanges'))
    {
      var calls := FunctionCalls(parts);
      ghost var requested := CallsIn(exchanges);
      ghost var before := limiter.lastCall;
      var responses, roundEvents, ran, clock := ProcessCalls(calls, s.toolCalls, env, s.clock);
      var modelTurn, userTurn := Content(Model, parts), Content(User, responses);
      t := s.(messages := s.messages + [modelTurn, userTurn], events := s.events + roundEvents,
              toolCalls := s.toolCalls + |calls|, clock := clock);
      exchanges' := exchanges + [modelTurn, userTurn];
      executed' := executed + ran;
      RoundKeepsProgress(s, t, parts, userTurn, roundEvents, ran, opening, exchanges, executed, exchanges', executed', env);
      ExchangesExtend(exchanges, modelTurn, userTurn, env);
      RecordedAppend(before, limiter.lastCall, requested, calls);
      UntouchedAppend(initial, before, limiter.lastCall, requested, calls);
    }

    /** The model half of a round: the call with its retries, whose notices and sleeps the state takes in. */
    method AskModel(s: LoopState, env: Environment,
                    ghost opening: seq<Content>, ghost exchanges: seq<Content>, ghost executed: seq<nat>)
      returns (result: ModelCall, u: LoopState)
      requires env.Valid() && s.served + MAX_RETRIES <= |env.replies|
      requires Progress(s, opening, exchanges, executed, env)
      ensures s.served < u.served <= s.served + MAX_RETRIES
      ensures u.messages == s.messages && u.toolCalls == s.toolCalls
      ensures Progress(u, opening, exchanges, executed, env)
      ensures result.Replied? ==> !result.reply.ApiError?
      ensures var a := Ask(env.replies, s.served);
              && result == a.result && u.served == s.served + a.attempts
              && u.events == s.events + Notices(a.attempts - 1)
              && u.clock == s.clock + Sum(Delays(env.replies, s.served, a.attempts - 1))
    {
      var attempts, notices, delays;
      result, attempts, notices, delays := CallModel(env.replies, s.served);
      assert forall e :: e in notices ==> e.StatusUpdate?;
      u := s.(events := s.events + notices, served := s.served + attempts, clock := s.clock + Sum(delays));
      NoticesKeepProgress(s, u, notices, opening, exchanges, executed, env);
    }

    /**
     * One round: call the model service (with retries), then end the run on
     * an error, an empty reply or a reply without calls, or else run the
     * calls.
     */
    method Step(s: LoopState, env: Environment,
                ghost opening: seq<Content>, ghost exchanges: seq<Content>, ghost executed: seq<nat>,
                ghost initial: map<string, int>, ghost trace: Trace)
      returns (stop: bool, t: LoopState, ghost exit: Exit, ghost exchanges': seq<Content>, ghost executed': seq<nat>)
      requires env.Valid() && s.served + MAX_RETRIES <= |env.replies|
      requires Progress(s, opening, exchanges, executed, env) && Mirrors(s, exchanges, trace, env)
      requires Recorded(limiter.lastCall, CallsIn(exchanges), 0) && Untouched(initial, limiter.lastCall, CallsIn(exchanges))
      modifies limiter
      ensures s.served < t.served <= s.served + MAX_RETRIES
      ensures !stop ==> Progress(t, opening, exchanges', executed', env) && |exchanges'| == |exchanges| + 2
      ensures stop ==> && !exit.StepLimit? && exchanges' == exchanges
                       && Finished(t, opening, exchanges, executed', exit, env)
      ensures Followed(stop, t, exit, exchanges', Round(env, trace), env)
      ensures Recorded(limiter.lastCall, CallsIn(exchanges'), 0) && Untouched(initial, limiter.lastCall, CallsIn(exchanges'))
    {
      var result, u := AskModel(s, env, opening, exchanges, executed);
      exchanges', executed' := exchanges, executed;
      if Ending(result).Some? {
        t, exit := Conclude(s, u, result, env, trace, opening, exchanges, executed);
        return true, t, exit, exchanges', executed';
      }
      stop, exit := false, StepLimit;
      t, exchanges', executed' := ToolRound(u, result.reply.parts, env, opening, exchanges, executed, initial);
      WentOn(s, u, t, trace, result, exchanges, exchanges', env);
    }

    /**
     * The rounds that end the run: on an error, an empty reply or a reply
     * without calls, yield the matching final response; any reply without
     * calls is added to the conversation, an error or an empty reply is not.
     */
    method Conclude(s: LoopState, u: LoopState, result: ModelCall, env: Environment,
                    ghost trace: Trace, ghost opening: seq<Content>, ghost exchanges: seq<Content>, ghost executed: seq<nat>)
      returns (t: LoopState, ghost exit: Exit)
      requires env.Valid() && s.served + MAX_RETRIES <= |env.replies|
      requires Progress(u, opening, exchanges, executed, env) && Mirrors(s, exchanges, trace, env)
      requires var a := Ask(env.replies, s.served);
               && result == a.result && u.served == s.served + a.attempts && u.toolCalls == s.toolCalls
               && u.events == s.events + Notices(a.attempts - 1)
      requires Ending(result).Some?
      ensures Ending(result) == Wrappers.Some(exit) && t.served == u.served
      ensures Finished(t, opening, exchanges, executed, exit, env)
      ensures Followed(true, t, exit, exchanges, Round(env, trace), env)
    {
      if result.Failed? {
        exit := LlmFailure(result.message);
        t := u.(events := u.events + [FinalResponse(LlmErrorText(result.message))]);
        Stopped(s, u, t, trace, result, exit, opening, exchanges, executed, env);
      } else if result.reply.NoCandidate? || result.reply.parts == [] {
        exit := EmptyReply;
        t := u.(events := u.events + [FinalResponse(EMPTY_RESPONSE_TEXT)]);
        Stopped(s, u, t, trace, result, exit, opening, exchanges, executed, env);
      } else {
        t, exit := Answer(s, u, result, env, trace, opening, exchanges, executed);
      }
    }

    /** The round whose reply has parts but no calls: the reply joins the conversation and its text is the answer. */
    method Answer(s: LoopState, u: LoopState, result: ModelCall, env: Environment,
                  ghost trace: Trace, ghost opening: seq<Content>, ghost exchanges: seq<Content>, ghost executed: seq<nat>)
      returns (t: LoopState, ghost exit: Exit)
      requires env.Valid() && s.served + MAX_RETRIES <= |env.replies|
      requires Progress(u, opening, exchanges, executed, env) && Mirrors(s, exchanges, trace, env)
      requires var a := Ask(env.replies, s.served);
               && result == a.result && u.served == s.served + a.attempts && u.toolCalls == s.toolCalls
               && u.events == s.events + Notices(a.attempts - 1)
      requires Ending(result).Some? && !result.Failed? && !result.reply.NoCandidate? && result.reply.parts != []
      ensures exit == Answered(result.reply.parts)
      ensures Ending(result) == Wrappers.Some(exit) && t.served == u.served
      ensures Finished(t, opening, exchanges, executed, exit, env)
      ensures Followed(true, t, exit, exchanges, Round(env, trace), env)
    {
      exit := Answered(result.reply.parts);
      var text := FinalText(result.reply.parts);
      AnswerText(result.reply.parts);
      t := u.(messages := u.messages + [Content(Model, result.reply.parts)],
              events := u.events + [FinalResponse(text)]);
      Stopped(s, u, t, trace, result, exit, opening, exchanges, executed, env);
    }

    /**
     * The loop of `run`: rounds while the model asks for tools, up to the
     * round cap. `stop` says a round ended the run; `hist` holds the traces
     * of the reference run the rounds followed.
     */
    method Reason(userMessage: string, history: seq<Content>, env: Environment, start: int)
      returns (s: LoopState, ghost exit: Exit, rounds: nat,
               ghost exchanges: seq<Content>, ghost executed: seq<nat>)
      requires env.Valid()
      modifies limiter
      ensures 1 <= rounds <= MAX_LOOP_ITERATIONS && rounds <= s.served <= MAX_RETRIES * rounds
      ensures exit.StepLimit? ==> rounds == MAX_LOOP_ITERATIONS
      ensures |exchanges| == 2 * (if exit.StepLimit? then rounds else rounds - 1)
      ensures Finished(s, Opening(history, userMessage), exchanges, executed, exit, env)
      ensures Recorded(limiter.lastCall, CallsIn(exchanges), 0) && Untouched(old(limiter.lastCall), limiter.lastCall, CallsIn(exchanges))
      ensures Agrees(RunOf(env), exit, rounds, s.served, exchanges, s.events)
    {
      s := LoopState(Opening(history, userMessage), [], 0, 0, start);
      ghost var opening, initial := s.messages, limiter.lastCall;
      exchanges, executed, rounds := [], [], 0;
      ghost var hist := [Trace(Wrappers.None, 0, 0, [])];
      while rounds < MAX_LOOP_ITERATIONS
        invariant 0 <= rounds <= MAX_LOOP_ITERATIONS
        invariant rounds <= s.served <= MAX_RETRIES * rounds
        invariant |exchanges| == 2 * rounds
        invariant Progress(s, opening, exchanges, executed, env)
        invariant Recorded(limiter.lastCall, CallsIn(exchanges), 0) && Untouched(initial, limiter.lastCall, CallsIn(exchanges))
        invariant History(env, hist) && |hist| == rounds + 1 && Mirrors(s, exchanges, hist[rounds], env)
      {
        ghost var trace := hist[rounds];
        rounds := rounds + 1;
        var stop, t;
        ghost var x, ex;
        stop, t, exit, x, ex := Step(s, env, opening, exchanges, executed, initial, trace);
        s, exchanges, executed := t, x, ex;
        HistoryNext(env, hist);
        hist := hist + [Round(env, trace)];
        if stop {
          RunAgrees(env, hist, exit, s.served, s.events, exchanges);
          return;
        }
      }
      exit := StepLimit;
      var t := s.(events := s.events + [FinalResponse(MAX_STEPS_TEXT)]);
      Capped(env, hist, s, t, opening, exchanges, executed);
      s := t;
    }

    /**
     * `run`: the reasoning loop for one user message. Rounds go on while
     * the model asks for tools, up to the round cap; the run ends with
     * exactly one final response, and the conversation it leaves behind is
     * also stored in `lastMessages`.
     */
    method Run(userMessage: string, history: seq<Content>, env: Environment, start: int)
      returns (events: seq<Event>, messages: seq<Content>,
               ghost exit: Exit, ghost rounds: nat, ghost modelCalls: nat,
               ghost exchanges: seq<Content>, ghost requested: seq<Call>, ghost executed: seq<nat>)
      requires env.Valid()
      modifies this, limiter
      ensures lastMessages == messages
      ensures |events| >= 1 && events[|events| - 1] == FinalResponse(ExitText(exit))
      ensures NoFinal(events[..|events| - 1])
      ensures 1 <= rounds <= MAX_LOOP_ITERATIONS && rounds <= modelCalls <= MAX_RETRIES * rounds
      ensures exit.StepLimit? ==> rounds == MAX_LOOP_ITERATIONS
      ensures exit.Answered? ==> exit.parts != [] && FunctionCalls(exit.parts) == []
      ensures Exchanges(exchanges, env) && |exchanges| == 2 * (if exit.StepLimit? then rounds else rounds - 1)
      ensures messages == Opening(history, userMessage) + exchanges
                          + (if exit.Answered? then [Content(Model, exit.parts)] else [])
      ensures requested == CallsIn(exchanges)
      ensures executed == ExecutedIndices(requested, 0, env) && |executed| <= MAX_TOOL_CALLS_PER_REQUEST
      ensures ConfirmationsOf(events) == ConfirmationsFor(requested, 0, env)
      ensures Recorded(limiter.lastCall, requested, 0) && Untouched(old(limiter.lastCall), limiter.lastCall, requested)
      ensures Agrees(RunOf(env), exit, rounds, modelCalls, exchanges, events)
    {
      var s, r;
      s, exit, r, exchanges, executed := Reason(userMessage, history, env, start);
      rounds, modelCalls, requested := r, s.served, CallsIn(exchanges);
      ExecutionsCapped(requested, 0, env);
      events, messages := s.events, s.messages;
      lastMessages := messages;
    }
  }

  function Sum(xs: seq<nat>): nat
  {
    if xs == [] then 0 else xs[0] + Sum(xs[1..])
  }
}

=== FILE: Bot.dfy ===
/**
 * The host around the reasoning loop: which chat messages reach the agent,
 * the spacing between accepted messages, the per-channel conversation
 * history, the approver's confirmation prompt, and what the host posts back
 * when a run ends.
 */
module Bot {
  import opened Config
  import opened Messages
  import opened Events
  import opened RateLimiting
  import opened Agent
  import opened Chunking

  /** Turns of history kept per channel; each turn is two messages. */
  const MAX_HISTORY_TURNS: nat := 20

  /** The history stored after a run: its last `2 * MAX_HISTORY_TURNS` messages. */
  function Trimmed(messages: seq<Content>): (kept: seq<Content>)
    ensures |kept| <= 2 * MAX_HISTORY_TURNS
    ensures |messages| <= 2 * MAX_HISTORY_TURNS ==> kept == messages
    ensures |messages| > 2 * MAX_HISTORY_TURNS ==> |kept| == 2 * MAX_HISTORY_TURNS
    ensures kept == messages[|messages| - |kept|..]
  {
    if |messages| > 2 * MAX_HISTORY_TURNS then messages[|messages| - 2 * MAX_HISTORY_TURNS..] else messages
  }

  /** A chat message as the guards see it. */
  datatype Incoming = Incoming(authorIsBot: bool, inGuild: bool, channelId: int, authorIsAdmin: bool,
                               authorMention: string, content: string)

  /** What `on_message` does with a message before the cooldown. */
  datatype Verdict = Ignore | RejectNonAdmin | Accept

  /**
   * The guards of `on_message`, in order: bots, direct messages and other
   * channels are ignored silently; a non-administrator is turned away.
   */
  function Guard(msg: Incoming, adminChannelId: int): (v: Verdict)
    ensures v == Accept <==>
              !msg.authorIsBot && msg.inGuild && msg.channelId == adminChannelId && msg.authorIsAdmin
    ensures v == RejectNonAdmin <==>
              !msg.authorIsBot && msg.inGuild && msg.channelId == adminChannelId && !msg.authorIsAdmin
  {
    if msg.authorIsBot then Ignore
    else if !msg.inGuild then Ignore
    else if msg.channelId != adminChannelId then Ignore
    else if !msg.authorIsAdmin then RejectNonAdmin
    else Accept
  }

  function NonAdminWarning(mention: string): string {
    "🚫 " + mention + ", you need the **Administrator** permission to use this bot."
  }

  /** The text posted for a final response: an empty one shows as done. */
  function Shown(text: string): (t: string)
    ensures t != []
    ensures text != [] ==> t == text
    ensures text == [] ==> t == DONE_TEXT
  {
    if text == [] then DONE_TEXT else text
  }

  /** `f(x)` for each `x` of `xs`, concatenated in order. */
  function Flatten<T>(xs: seq<T>, f: T -> seq<string>): seq<string>
    decreases |xs|
  {
    if xs == [] then [] else Flatten(xs[..|xs| - 1], f) + f(xs[|xs| - 1])
  }

  lemma {:induction false} FlattenNone<T>(xs: seq<T>, f: T -> seq<string>)
    requires forall x :: x in xs ==> f(x) == []
    ensures Flatten(xs, f) == []
    decreases |xs|
  {
    if xs != [] {
      var init := xs[..|xs| - 1];
      assert forall x :: x in init ==> x in xs;
      FlattenNone(init, f);
    }
  }

  lemma FlattenNext<T>(xs: seq<T>, k: nat, f: T -> seq<string>)
    requires k < |xs|
    ensures Flatten(xs[..k + 1], f) == Flatten(xs[..k], f) + f(xs[k])
  {
    assert xs[..k + 1][..k] == xs[..k];
  }

  /** What the host posts for one event: a final response's text, split to fit. */
  function Posting(): Event -> seq<string> {
    (e: Event) => if e.FinalResponse? then SplitNonEmpty(Shown(e.text), DISCORD_LIMIT) else []
  }

  /** The messages posted for a run's events. */
  function Delivered(events: seq<Event>): seq<string> {
    Flatten(events, Posting())
  }

  /** A run posts exactly the chunks of its one final response. */
  lemma DeliveredFinal(events: seq<Event>)
    requires |events| >= 1 && events[|events| - 1].FinalResponse? && NoFinal(events[..|events| - 1])
    ensures Delivered(events) == SplitNonEmpty(Shown(events[|events| - 1].text), DISCORD_LIMIT)
  {
    var n := |events| - 1;
    FlattenNone(events[..n], Posting());
    assert events[..n + 1] == events;
    FlattenNext(events, n, Posting());
  }

  /**
   * The event loop of `handle_agent_request`, for what it posts: each final
   * response's text, in chunks. Status updates only edit one status message
   * and confirmation requests go to a prompt; neither adds to the posts.
   */
  method PostEvents(events: seq<Event>) returns (sent: seq<string>)
    ensures sent == Delivered(events)
  {
    sent := [];
    for k := 0 to |events|
      invariant sent == Delivered(events[..k])
    {
      FlattenNext(events, k, Posting());
      match events[k] {
        case FinalResponse(text) =>
          var chunks := SplitMessage(Shown(text), DISCORD_LIMIT);
          sent := sent + chunks;
        case _ =>
      }
    }
    assert events[..|events|] == events;
  }

  /**
   * The approver's prompt for one confirmation request. The prompt writes
   * the decision into the request and then releases the waiting loop.
   */
  class ConfirmView {
    /** The request the loop is waiting on. */
    var confirmation: Event
    /** The event the handler awaits has been set. */
    var resolved: bool
    /** The buttons still take presses. */
    var open: bool

    constructor (c: Event)
      requires c.ConfirmationRequest?
      ensures confirmation == c && !resolved && open
    {
      confirmation := c;
      resolved := false;
      open := true;
    }

    /** The Approve button. */
    method Approve()
      requires confirmation.ConfirmationRequest?
      modifies this
      ensures confirmation == old(confirmation).(approved := true)
      ensures resolved && !open
    {
      confirmation := confirmation.(approved := true);
      open := false;
      resolved := true;
    }

    /** The Reject button. */
    method Reject()
      requires confirmation.ConfirmationRequest?
      modifies this
      ensures confirmation == old(confirmation).(approved := false)
      ensures resolved && !open
    {
      confirmation := confirmation.(approved := false);
      open := false;
      resolved := true;
    }

    /** No press within the timeout: the action is cancelled. */
    method OnTimeout()
      requires confirmation.ConfirmationRequest?
      modifies this
      ensures confirmation == old(confirmation).(approved := false)
      ensures resolved && !open
    {
      confirmation := confirmation.(approved := false);
      open := false;
      resolved := true;
    }

    /**
     * The view's deadline passing: the timeout handler runs only while the
     * buttons are live, because a press stops the view and with it the
     * timer. A deadline after a decision changes nothing.
     */
    method Expire()
      requires confirmation.ConfirmationRequest?
      modifies this
      ensures old(open) ==> confirmation == old(confirmation).(approved := false) && resolved && !open
      ensures !old(open) ==> confirmation == old(confirmation) && resolved == old(resolved) && open == old(open)
    {
      if open {
        OnTimeout();
      }
    }

    /**
     * However the prompt ends, the request is approved exactly when the
     * approver pressed Approve; this is the decision the loop reads back.
     */
    method Resolve(d: Decision)
      requires confirmation.ConfirmationRequest?
      modifies this
      ensures confirmation == old(confirmation).(approved := d.Approve?)
      ensures confirmation.approved <==> d.Approve?
      ensures resolved && !open
    {
      match d
      case Approve => this.Approve();
      case Reject => this.Reject();
      case TimedOut => OnTimeout();
    }

    /**
     * The prompt of the run's call number `i`, resolved by that call's
     * decision in `env`: the request ends approved exactly when the run
     * reads the call as approved. A call with no recorded decision times out.
     */
    method ResolveFrom(env: Environment, i: nat)
      requires confirmation.ConfirmationRequest?
      modifies this
      ensures confirmation == old(confirmation).(approved := Approved(env, i))
      ensures resolved && !open
    {
      Resolve(if i < |env.decisions| then env.decisions[i] else TimedOut);
    }

    /**
     * A button press: only a member of the guild with administrator rights
     * may press, and only while the buttons are live. Any other press
     * changes nothing.
     */
    method Press(button: Decision, clickerIsMember: bool, clickerIsAdmin: bool) returns (accepted: bool)
      requires button != TimedOut && confirmation.ConfirmationRequest?
      modifies this
      ensures accepted <==> old(open) && clickerIsMember && clickerIsAdmin
      ensures accepted ==> confirmation == old(confirmation).(approved := button.Approve?) && resolved && !open
      ensures !accepted ==> confirmation == old(confirmation) && resolved == old(resolved) && open == old(open)
    {
      accepted := open && clickerIsMember && clickerIsAdmin;
      if accepted {
        Resolve(button);
      }
    }
  }

  /** The bot process: its agent, the admin channel, the stored histories and the message clock. */
  class Host {
    const agent: GeminiAgent
    const adminChannelId: int
    /** `conversation_history`: channel id to the stored messages. */
    var conversationHistory: map<int, seq<Content>>
    /** `_last_message_time`: when the last accepted message was let through. */
    var lastMessageTime: int

    constructor (agent: GeminiAgent, adminChannelId: int)
      ensures this.agent == agent && this.adminChannelId == adminChannelId
      ensures conversationHistory == map[] && lastMessageTime == 0
    {
      this.agent := agent;
      this.adminChannelId := adminChannelId;
      conversationHistory := map[];
      lastMessageTime := 0;
    }

    /** The history a run of this channel starts from: the stored one, or none. */
    function HistoryOf(channelId: int): seq<Content>
      reads this
    {
      if channelId in conversationHistory then conversationHistory[channelId] else []
    }

    /**
     * The message cooldown: sleep for the rest of `MESSAGE_COOLDOWN`
     * since the last accepted message, if any, then record the clock.
     */
    method WaitForCooldown(now: int) returns (wait: nat)
      modifies this
      ensures wait == RemainingWait(now - old(lastMessageTime), MESSAGE_COOLDOWN)
      ensures lastMessageTime == now + wait
      ensures lastMessageTime >= old(lastMessageTime) + MESSAGE_COOLDOWN && lastMessageTime >= now
      ensures conversationHistory == old(conversationHistory)
    {
      var elapsed := now - lastMessageTime;
      wait := 0;
      if elapsed < MESSAGE_COOLDOWN {
        wait := MESSAGE_COOLDOWN - elapsed;
      }
      lastMessageTime := now + wait;
    }

    /** Store the run's messages for the channel, trimmed; an empty run stores nothing. */
    method PersistHistory(channelId: int, full: seq<Content>)
      modifies this
      ensures full == [] ==> conversationHistory == old(conversationHistory)
      ensures full != [] ==> conversationHistory == old(conversationHistory)[channelId := Trimmed(full)]
      ensures lastMessageTime == old(lastMessageTime)
    {
      if full != [] {
        var kept := full;
        if |kept| > MAX_HISTORY_TURNS * 2 {
          kept := kept[|kept| - MAX_HISTORY_TURNS * 2..];
        }
        conversationHistory := conversationHistory[channelId := kept];
      }
    }

    /**
     * `handle_agent_request`: run the loop on the channel's history and the
     * message, post the final text in chunks, and store the conversation.
     */
    method HandleAgentRequest(msg: Incoming, env: Environment, now: int)
      returns (events: seq<Event>, sent: seq<string>)
      requires env.Valid()
      modifies this, agent, agent.limiter
      ensures |events| >= 1 && events[|events| - 1].FinalResponse?
      ensures sent == Delivered(events)
      ensures sent == SplitNonEmpty(Shown(events[|events| - 1].text), DISCORD_LIMIT)
      ensures events == RunOf(env).events
      ensures var run := RunOf(env);
              agent.lastMessages == Opening(old(HistoryOf(msg.channelId)), msg.content) + run.exchanges
                                    + (if run.exit.Answered? then [Content(Model, run.exit.parts)] else [])
      ensures |agent.lastMessages| > |old(HistoryOf(msg.channelId))|
      ensures agent.lastMessages[..|old(HistoryOf(msg.channelId))| + 1] == Opening(old(HistoryOf(msg.channelId)), msg.content)
      ensures conversationHistory == old(conversationHistory)[msg.channelId := Trimmed(agent.lastMessages)]
      ensures lastMessageTime == old(lastMessageTime)
    {
      var history := HistoryOf(msg.channelId);
      var events0, messages, exit, rounds, modelCalls, exchanges, requested, executed
        := agent.Run(msg.content, history, env, now);
      events := events0;
      Text.PrefixOfConcat(Opening(history, msg.content), exchanges,
                          if exit.Answered? then [Content(Model, exit.parts)] else []);
      sent := PostEvents(events);
      DeliveredFinal(events);
      PersistHistory(msg.channelId, agent.lastMessages);
    }

    /**
     * `on_message`: the guards, then for an accepted message the cooldown
     * and a run started once the cooldown is over.
     */
    method OnMessage(msg: Incoming, env: Environment, now: int) returns (verdict: Verdict, posted: seq<string>)
      requires env.Valid()
      modifies this, agent, agent.limiter
      ensures verdict == Guard(msg, adminChannelId)
      ensures verdict != Accept ==> conversationHistory == old(conversationHistory)
                                    && lastMessageTime == old(lastMessageTime)
      ensures verdict == Ignore ==> posted == []
      ensures verdict == RejectNonAdmin ==> posted == [NonAdminWarning(msg.authorMention)]
      ensures verdict == Accept ==>
                lastMessageTime == now + RemainingWait(now - old(lastMessageTime), MESSAGE_COOLDOWN)
                && lastMessageTime >= old(lastMessageTime) + MESSAGE_COOLDOWN
                && msg.channelId in conversationHistory
      ensures verdict == Accept ==>
                && posted == Delivered(RunOf(env).events)
                && |agent.lastMessages| > |old(HistoryOf(msg.channelId))|
                && agent.lastMessages[..|old(HistoryOf(msg.channelId))| + 1] == Opening(old(HistoryOf(msg.channelId)), msg.content)
                && conversationHistory == old(conversationHistory)[msg.channelId := Trimmed(agent.lastMessages)]
    {
      verdict := Guard(msg, adminChannelId);
      if verdict == Ignore {
        return verdict, [];
      }
      if verdict == RejectNonAdmin {
        return verdict, [NonAdminWarning(msg.authorMention)];
      }
      var wait := WaitForCooldown(now);
      var events;
      events, posted := HandleAgentRequest(msg, env, lastMessageTime);
    }
  }
}

=== FILE: Channels.dfy ===
/**
 * The channel tools: which kind of channel `create_channel` asks for, the
 * keyword arguments `edit_channel` and `move_channel` collect before calling
 * `channel.edit`, and how `set_channel_permissions` merges the allow and deny
 * lists into a channel's permission overwrite. The Discord calls themselves
 * are not modelled; each tool returns the request it would make.
 */
module Channels {
  import opened Wrappers
  import opened Text
  import opened Discord
  import opened Helpers

  // ---------------------------------------------------------------------------
  // create_channel

  /** The channel `create_channel` asks the guild for. */
  datatype Creation = Creation(kind: ChannelKind, name: string, parent: Option<CategoryChannel>, topic: Option<string>)

  /** `find_category(guild, category) if category else None`: an empty name means no category. */
  function ParentCategory(guild: Guild, category: Option<string>): (r: Result<Option<CategoryChannel>>)
    ensures (category.None? || category.value == []) ==> r == Success(None)
    ensures category.Some? && category.value != [] ==>
              (r.Failure? <==> NameQuery(category.value) !in Keys(guild.categories, CategoryName))
    ensures r.Failure? ==> r.error == "Category '" + category.value + "' not found."
    ensures r.Success? && r.value.Some? ==>
              r.value.value in guild.categories && Lower(r.value.value.name) == NameQuery(category.value)
  {
    if category.None? || category.value == [] then Success(None)
    else
      match FindCategory(guild, category.value)
      case Success(cat) => Success(Some(cat))
      case Failure(e) => Failure(e)
  }

  /**
   * `create_channel`: "voice", "stage" and "forum" make those kinds, any
   * other type string a text channel; only forum and text channels get the topic.
   */
  function CreateChannel(guild: Guild, channelName: string, typeName: string,
                         category: Option<string>, topic: Option<string>): (r: Result<Creation>)
    ensures r.Failure? <==> ParentCategory(guild, category).Failure?
    ensures r.Failure? ==> r.error == ParentCategory(guild, category).error
    ensures r.Success? ==> r.value.name == channelName && r.value.parent == ParentCategory(guild, category).value
    ensures r.Success? ==> (r.value.kind == Voice <==> typeName == "voice")
    ensures r.Success? ==> (r.value.kind == Stage <==> typeName == "stage")
    ensures r.Success? ==> (r.value.kind == Forum <==> typeName == "forum")
    ensures r.Success? ==> (r.value.kind == Text <==> typeName != "voice" && typeName != "stage" && typeName != "forum")
    ensures r.Success? ==> r.value.topic == (if r.value.kind in {Forum, Text} then topic else None)
  {
    match ParentCategory(guild, category)
    case Failure(e) => Failure(e)
    case Success(parent) =>
      if typeName == "voice" then Success(Creation(Voice, channelName, parent, None))
      else if typeName == "stage" then Success(Creation(Stage, channelName, parent, None))
      else if typeName == "forum" then Success(Creation(Forum, channelName, parent, topic))
      else Success(Creation(Text, channelName, parent, topic))
  }

  /**
   * The type the tool reports, `str(ch.type)`: the requested type for voice
   * and forum, "stage_voice" for stage, and "text" for everything else.
   */
  lemma CreatedTypeName(guild: Guild, channelName: string, typeName: string,
                        category: Option<string>, topic: Option<string>)
    requires CreateChannel(guild, channelName, typeName, category, topic).Success?
    ensures var kind := CreateChannel(guild, channelName, typeName, category, topic).value.kind;
            KindName(kind) == (if typeName in {"voice", "forum"} then typeName
                               else if typeName == "stage" then "stage_voice"
                               else "text")
  {
  }

  // ---------------------------------------------------------------------------
  // edit_channel and move_channel

  /** A keyword argument of `channel.edit`. */
  datatype EditKey = NameArg | TopicArg | SlowmodeArg | NsfwArg | CategoryArg | PositionArg

  /** The keyword as written in the call. */
  function Keyword(k: EditKey): string
  {
    match k
    case NameArg => "name"
    case TopicArg => "topic"
    case SlowmodeArg => "slowmode_delay"
    case NsfwArg => "nsfw"
    case CategoryArg => "category"
    case PositionArg => "position"
  }

  /** A value passed to `channel.edit`. */
  datatype EditValue = NewText(text: string) | NewNumber(n: int) | NewFlag(flag: bool) | NewParent(category: CategoryChannel)

  /**
   * An edit of `channel` with the collected keyword arguments; `called`
   * records whether `channel.edit` was called at all.
   */
  datatype Edit = Edit(channel: Channel, args: map<EditKey, EditValue>, called: bool)

  /**
   * `edit_channel`: find the channel, collect the arguments, and edit only
   * when something was collected.
   */
  method EditChannel(guild: Guild, channelName: string, newName: Option<string>, topic: Option<string>,
                     slowmode: Option<int>, nsfw: Option<bool>) returns (r: Result<Edit>)
    ensures r.Failure? <==> FindChannel(guild, channelName).Failure?
    ensures r.Failure? ==> r.error == FindChannel(guild, channelName).error
    ensures r.Success? ==> r.value.channel == FindChannel(guild, channelName).value
    ensures r.Success? ==> IsEditArgs(r.value.args, r.value.channel, newName, topic, slowmode, nsfw)
    ensures r.Success? ==> (r.value.called <==> r.value.args != map[])
  {
    var found := FindChannel(guild, channelName);
    if found.Failure? {
      return Failure(found.error);
    }
    var args := CollectEdits(found.value, newName, topic, slowmode, nsfw);
    var called := false;
    if args != map[] {
      called := true;
    }
    return Success(Edit(found.value, args, called));
  }

  /**
   * The arguments `edit_channel` passes: each one that was given, with
   * topic, slow mode and NSFW kept only for text channels.
   */
  predicate IsEditArgs(args: map<EditKey, EditValue>, channel: Channel, newName: Option<string>,
                       topic: Option<string>, slowmode: Option<int>, nsfw: Option<bool>)
  {
    var text := IsTextChannel(channel.kind);
    && args.Keys <= {NameArg, TopicArg, SlowmodeArg, NsfwArg}
    && (NameArg in args <==> newName.Some?)
    && (NameArg in args ==> args[NameArg] == NewText(newName.value))
    && (TopicArg in args <==> topic.Some? && text)
    && (TopicArg in args ==> args[TopicArg] == NewText(topic.value))
    && (SlowmodeArg in args <==> slowmode.Some? && text)
    && (SlowmodeArg in args ==> args[SlowmodeArg] == NewNumber(slowmode.value))
    && (NsfwArg in args <==> nsfw.Some? && text)
    && (NsfwArg in args ==> args[NsfwArg] == NewFlag(nsfw.value))
  }

  /** Builds the arguments one `if` at a time, as the tool does. */
  method CollectEdits(channel: Channel, newName: Option<string>, topic: Option<string>,
                      slowmode: Option<int>, nsfw: Option<bool>) returns (args: map<EditKey, EditValue>)
    ensures IsEditArgs(args, channel, newName, topic, slowmode, nsfw)
  {
    var text := IsTextChannel(channel.kind);
    args := map[];
    if newName.Some? {
      args := args[NameArg := NewText(newName.value)];
    }
    if topic.Some? && text {
      args := args[TopicArg := NewText(topic.value)];
    }
    if slowmode.Some? && text {
      args := args[SlowmodeArg := NewNumber(slowmode.value)];
    }
    if nsfw.Some? && text {
      args := args[NsfwArg := NewFlag(nsfw.value)];
    }
  }

  /** The rule leaves no choice: at most one argument map satisfies it. */
  lemma EditArgsUnique(a: map<EditKey, EditValue>, b: map<EditKey, EditValue>, channel: Channel,
                       newName: Option<string>, topic: Option<string>, slowmode: Option<int>, nsfw: Option<bool>)
    requires IsEditArgs(a, channel, newName, topic, slowmode, nsfw)
    requires IsEditArgs(b, channel, newName, topic, slowmode, nsfw)
    ensures a == b
  {
    forall k | k in a.Keys ensures k in b && a[k] == b[k] {
    }
    assert a.Keys == b.Keys;
  }

  /**
   * On a channel that is not a text channel only a rename is collected, so
   * `channel.edit` is called exactly when a new name was given.
   */
  lemma NonTextOnlyRenames(args: map<EditKey, EditValue>, channel: Channel,
                           newName: Option<string>, topic: Option<string>, slowmode: Option<int>, nsfw: Option<bool>)
    requires IsEditArgs(args, channel, newName, topic, slowmode, nsfw)
    requires !IsTextChannel(channel.kind)
    ensures args.Keys <= {NameArg}
    ensures args != map[] <==> newName.Some?
  {
    if newName.Some? {
      assert NameArg in args;
    }
  }

  /**
   * `move_channel`: find the channel, collect the arguments, and edit only
   * when something was collected.
   */
  method MoveChannel(guild: Guild, channelName: string, category: Option<string>, position: Option<int>)
    returns (r: Result<Edit>)
    ensures r.Failure? <==> FindChannel(guild, channelName).Failure?
                            || (category.Some? && FindCategory(guild, category.value).Failure?)
    ensures FindChannel(guild, channelName).Failure? ==> r == Failure(FindChannel(guild, channelName).error)
    ensures FindChannel(guild, channelName).Success? && r.Failure? ==>
              r.error == "Category '" + category.value + "' not found."
    ensures r.Success? ==> r.value.channel == FindChannel(guild, channelName).value
    ensures r.Success? ==> IsMoveArgs(r.value.args, guild, category, position)
    ensures r.Success? ==> (r.value.called <==> category.Some? || position.Some?)
  {
    var found := FindChannel(guild, channelName);
    if found.Failure? {
      return Failure(found.error);
    }
    var collected := CollectMove(guild, category, position);
    if collected.Failure? {
      return Failure(collected.error);
    }
    var args := collected.value;
    var called := false;
    if args != map[] {
      called := true;
    }
    return Success(Edit(found.value, args, called));
  }

  /**
   * The arguments `move_channel` passes: the category found under the
   * given name, if one was given (even an empty one), and the position, if given.
   */
  predicate IsMoveArgs(args: map<EditKey, EditValue>, guild: Guild, category: Option<string>, position: Option<int>)
  {
    && args.Keys <= {CategoryArg, PositionArg}
    && (CategoryArg in args <==> category.Some?)
    && (CategoryArg in args ==>
          args[CategoryArg].NewParent? && args[CategoryArg].category in guild.categories
          && Lower(args[CategoryArg].category.name) == NameQuery(category.value))
    && (PositionArg in args <==> position.Some?)
    && (PositionArg in args ==> args[PositionArg] == NewNumber(position.value))
  }

  /** Builds the arguments one `if` at a time; the category lookup may fail. */
  method CollectMove(guild: Guild, category: Option<string>, position: Option<int>)
    returns (r: Result<map<EditKey, EditValue>>)
    ensures r.Failure? <==> category.Some? && NameQuery(category.value) !in Keys(guild.categories, CategoryName)
    ensures r.Failure? ==> r.error == "Category '" + category.value + "' not found."
    ensures r.Success? ==> IsMoveArgs(r.value, guild, category, position)
    ensures r.Success? ==> (r.value != map[] <==> category.Some? || position.Some?)
  {
    var args: map<EditKey, EditValue> := map[];
    if category.Some? {
      var cat := FindCategory(guild, category.value);
      if cat.Failure? {
        return Failure(cat.error);
      }
      args := args[CategoryArg := NewParent(cat.value)];
    }
    if position.Some? {
      args := args[PositionArg := NewNumber(position.value)];
      assert PositionArg in args;
    }
    return Success(args);
  }

  // ---------------------------------------------------------------------------
  // set_channel_permissions

  /** The overwrite `set_channel_permissions` writes back for one target of one channel. */
  datatype PermissionUpdate = PermissionUpdate(channel: Channel, target: OverwriteTarget, overwrite: Overwrite)

  /** The target named by `target`: a role if one has that name, otherwise a member by id. */
  function ResolveTarget(guild: Guild, target: string): (r: Result<OverwriteTarget>)
    ensures r.Success? && r.value.RoleTarget? ==>
              exists role :: role in guild.roles && role.id == r.value.roleId && Lower(role.name) == NameQuery(target)
    ensures NameQuery(target) in Keys(guild.roles, RoleName) ==> r.Success? && r.value.RoleTarget?
    ensures r.Success? && r.value.MemberTarget? ==>
              exists m :: m in guild.members && m.id == r.value.memberId && ParseInt(target) == Some(m.id)
    ensures r.Failure? <==> NameQuery(target) !in Keys(guild.roles, RoleName) && FindMember(guild, target).Failure?
    ensures r.Failure? ==> r.error == "User '" + target + "' not found in this server."
  {
    match FindRole(guild, target)
    case Success(role) =>
      ghost var i :| FirstAt(Keys(guild.roles, RoleName), NameQuery(target), i) && role == guild.roles[i];
      assert role in guild.roles && Lower(role.name) == Keys(guild.roles, RoleName)[i];
      Success(RoleTarget(role.id))
    case Failure(_) =>
      match FindMember(guild, target)
      case Success(m) => Success(MemberTarget(m.id))
      case Failure(e) => Failure(e)
  }

  /** `channel.overwrites_for(target)`: an empty overwrite when the channel has none for it. */
  function OverwritesFor(channel: Channel, target: OverwriteTarget): (ow: Overwrite)
    ensures target !in channel.overwrites ==> ow == map[]
    ensures target in channel.overwrites ==> ow == channel.overwrites[target]
  {
    if target in channel.overwrites then channel.overwrites[target] else map[]
  }

  /** The comma-separated pieces of an allow or deny list; none when it is absent or empty. */
  function Pieces(list: Option<string>): (pieces: seq<string>)
    ensures list.Some? && list.value != [] ==> Join(pieces, ",") == list.value
    ensures forall p :: p in pieces ==> ',' !in p
  {
    if list.None? || list.value == [] then []
    else
      JoinSplitOn(list.value, ',');
      SplitOn(list.value, ',')
  }

  /** The stripped pieces, `perm_name.strip()` for each. */
  function Names(pieces: seq<string>): (names: seq<string>)
    ensures |names| == |pieces|
    decreases |pieces|
  {
    if pieces == [] then [] else Names(pieces[..|pieces| - 1]) + [Strip(pieces[|pieces| - 1])]
  }

  /**
   * One of the two loops, on the stripped names: each name that is a
   * permission (`hasattr(overwrite, name)`, with `valid` the permission names
   * of an overwrite) is set to `value`; any other name is skipped.
   */
  function Applied(ow: Overwrite, names: seq<string>, value: bool, valid: set<string>): Overwrite
    decreases |names|
  {
    if names == [] then ow
    else
      var before := Applied(ow, names[..|names| - 1], value, valid);
      var name := names[|names| - 1];
      if name in valid then before[name := value] else before
  }

  /** Both loops: the allow list sets names to true, then the deny list sets names to false. */
  function Merged(ow: Overwrite, allow: Option<string>, deny: Option<string>, valid: set<string>): Overwrite
  {
    Applied(Applied(ow, Names(Pieces(allow)), true, valid), Names(Pieces(deny)), false, valid)
  }

  /** A listed permission name gets `value`; every other name keeps its entry. */
  lemma {:induction false} AppliedEffect(ow: Overwrite, names: seq<string>, value: bool, valid: set<string>, name: string)
    ensures name in valid && name in names ==>
              name in Applied(ow, names, value, valid) && Applied(ow, names, value, valid)[name] == value
    ensures !(name in valid && name in names) ==>
              (name in Applied(ow, names, value, valid) <==> name in ow)
              && (name in ow ==> Applied(ow, names, value, valid)[name] == ow[name])
    decreases |names|
  {
    if names != [] {
      var init := names[..|names| - 1];
      AppliedEffect(ow, init, value, valid, name);
      assert names == init + [names[|names| - 1]];
    }
  }

  /**
   * The merge: a permission named in the deny list ends up denied, one named
   * only in the allow list allowed, and every other entry, including names
   * that are not permissions, is left as it was.
   */
  lemma MergeEffect(ow: Overwrite, allow: Option<string>, deny: Option<string>, valid: set<string>, name: string)
    ensures name in valid && name in Names(Pieces(deny)) ==>
              name in Merged(ow, allow, deny, valid) && !Merged(ow, allow, deny, valid)[name]
    ensures name in valid && name in Names(Pieces(allow)) && name !in Names(Pieces(deny)) ==>
              name in Merged(ow, allow, deny, valid) && Merged(ow, allow, deny, valid)[name]
    ensures !(name in valid && (name in Names(Pieces(allow)) || name in Names(Pieces(deny)))) ==>
              (name in Merged(ow, allow, deny, valid) <==> name in ow)
              && (name in ow ==> Merged(ow, allow, deny, valid)[name] == ow[name])
  {
    var allowed := Applied(ow, Names(Pieces(allow)), true, valid);
    AppliedEffect(ow, Names(Pieces(allow)), true, valid, name);
    AppliedEffect(allowed, Names(Pieces(deny)), false, valid, name);
  }

  /** The merge never adds an entry for a name that is not a permission. */
  lemma MergedKeys(ow: Overwrite, allow: Option<string>, deny: Option<string>, valid: set<string>)
    ensures Merged(ow, allow, deny, valid).Keys <= ow.Keys + valid
  {
    forall name | name in Merged(ow, allow, deny, valid)
      ensures name in ow || name in valid
    {
      MergeEffect(ow, allow, deny, valid, name);
    }
  }

  /** One more piece through the loop. */
  lemma AppliedNext(ow: Overwrite, pieces: seq<string>, k: nat, value: bool, valid: set<string>)
    requires k < |pieces|
    ensures Applied(ow, Names(pieces[..k + 1]), value, valid)
            == var before := Applied(ow, Names(pieces[..k]), value, valid);
               if Strip(pieces[k]) in valid then before[Strip(pieces[k]) := value] else before
  {
    assert pieces[..k + 1][..k] == pieces[..k];
    var names := Names(pieces[..k + 1]);
    assert names[..|names| - 1] == Names(pieces[..k]);
  }

  /** `if allow: for perm_name in allow.split(","): ...` (and the same for deny). */
  method SetListed(ow: Overwrite, list: Option<string>, value: bool, valid: set<string>) returns (res: Overwrite)
    ensures res == Applied(ow, Names(Pieces(list)), value, valid)
  {
    res := ow;
    if list.Some? && list.value != [] {
      var pieces := SplitOn(list.value, ',');
      assert pieces == Pieces(list);
      for k := 0 to |pieces|
        invariant res == Applied(ow, Names(pieces[..k]), value, valid)
      {
        AppliedNext(ow, pieces, k, value, valid);
        var name := Strip(pieces[k]);
        if name in valid {
          res := res[name := value];
        }
      }
      assert pieces[..|pieces|] == pieces;
    }
  }

  /**
   * `set_channel_permissions`: resolve the channel and the target, then
   * merge the allow and deny lists into the target's current overwrite.
   */
  method SetChannelPermissions(guild: Guild, channelName: string, target: string,
                               allow: Option<string>, deny: Option<string>, valid: set<string>)
    returns (r: Result<PermissionUpdate>)
    ensures r.Failure? <==> FindChannel(guild, channelName).Failure? || ResolveTarget(guild, target).Failure?
    ensures FindChannel(guild, channelName).Failure? ==> r == Failure(FindChannel(guild, channelName).error)
    ensures FindChannel(guild, channelName).Success? && r.Failure? ==> r == Failure(ResolveTarget(guild, target).error)
    ensures r.Success? ==> r.value.channel == FindChannel(guild, channelName).value
                           && r.value.target == ResolveTarget(guild, target).value
    ensures r.Success? ==>
              r.value.overwrite == Merged(OverwritesFor(r.value.channel, r.value.target), allow, deny, valid)
  {
    var found := FindChannel(guild, channelName);
    if found.Failure? {
      return Failure(found.error);
    }
    var who := ResolveTarget(guild, target);
    if who.Failure? {
      return Failure(who.error);
    }
    var overwrite := OverwritesFor(found.value, who.value);
    overwrite := SetListed(overwrite, allow, true, valid);
    overwrite := SetListed(overwrite, deny, false, valid);
    return Success(PermissionUpdate(found.value, who.value, overwrite));
  }
}

=== FILE: Chunking.dfy ===
/**
 * Splitting a long reply into pieces that fit one Discord message: cut at
 * the last newline before the limit, or hard at the limit when there is
 * none, drop the newlines at the start of the rest, and go on.
 */
module Chunking {
  import opened Text

  /** Discord's per-message character limit, the default `limit`. */
  const DISCORD_LIMIT: nat := 2000

  /**
   * Where a text longer than `limit` is cut: the last newline at or after
   * `from` and before `limit`, else `limit` itself. The host searches from 0.
   */
  function CutPoint(text: string, limit: nat, from: nat): (cut: nat)
    requires 1 <= limit < |text|
    ensures cut <= limit && (cut < limit ==> from <= cut)
    ensures cut < limit ==> text[cut] == '\n' && forall j :: cut < j < limit ==> text[j] != '\n'
    ensures cut == limit <==> forall j :: from <= j < limit ==> text[j] != '\n'
  {
    match LastIndexBefore(text, '\n', limit)
    case Found(k) => if k >= from then k else limit
    case NotFound => limit
  }

  /** What is left after a cut: the text after the cut, without its leading newlines. */
  function Rest(text: string, limit: nat, from: nat): (r: string)
    requires 1 <= limit < |text|
    ensures |r| < |text|
  {
    var cut := CutPoint(text, limit, from);
    DropLeading(text[cut..], '\n')
  }

  /** The chunks the loop appends for a non-empty `text`, one per iteration. */
  function Chunks(text: string, limit: nat, from: nat): seq<string>
    requires limit >= 1
    decreases |text|
  {
    if text == [] then []
    else if |text| <= limit then [text]
    else
      var cut := CutPoint(text, limit, from);
      [text[..cut]] + Chunks(Rest(text, limit, from), limit, from)
  }

  /** `split_message(text, limit)`: a short text comes back whole, even when empty. */
  function Split(text: string, limit: nat): seq<string>
    requires limit >= 1
  {
    if |text| <= limit then [text] else Chunks(text, limit, 0)
  }

  /** The same split, except that a newline at index 0 is never a cut point. */
  function SplitNonEmpty(text: string, limit: nat): seq<string>
    requires limit >= 1
  {
    if |text| <= limit then [text] else Chunks(text, limit, 1)
  }

  /** The pieces written one after another. */
  function Concat(chunks: seq<string>): string
  {
    if chunks == [] then "" else chunks[0] + Concat(chunks[1..])
  }

  /**
   * `split_message`: loop while text remains, appending either the whole
   * rest or the part before the cut point. A newline at index 0 is not
   * taken as a cut point, so no chunk of a non-empty text is empty.
   */
  method SplitMessage(text: string, limit: nat) returns (chunks: seq<string>)
    requires limit >= 1
    ensures chunks == SplitNonEmpty(text, limit)
    ensures |text| <= limit ==> chunks == [text]
    ensures forall c :: c in chunks ==> |c| <= limit
    ensures text != [] ==> forall c :: c in chunks ==> c != []
  {
    if |text| <= limit {
      return [text];
    }
    chunks := SplitLong(text, limit, 1);
    SplitNonEmptyChunks(text, limit);
  }

  /**
   * The `while text` loop of `split_message`, entered with a text longer
   * than the limit; newlines before index `from` are not cut points.
   */
  method SplitLong(text: string, limit: nat, from: nat) returns (chunks: seq<string>)
    requires 1 <= limit < |text|
    ensures chunks == Chunks(text, limit, from)
  {
    chunks := [];
    var rest := text;
    while |rest| > limit
      invariant chunks + Chunks(rest, limit, from) == Chunks(text, limit, from)
      decreases |rest|
    {
      chunks, rest := CutOnce(chunks, rest, limit, from, Chunks(text, limit, from));
    }
    ChunksShort(rest, limit, from);
    if rest != [] {
      chunks := chunks + [rest];
    } else {
      assert chunks + [] == chunks;
    }
  }

  /**
   * One pass of the loop: append the part before the cut point and keep
   * what follows it, without its leading newlines.
   */
  method CutOnce(chunks: seq<string>, rest: string, limit: nat, from: nat, ghost whole: seq<string>)
    returns (chunks': seq<string>, rest': string)
    requires 1 <= limit < |rest| && chunks + Chunks(rest, limit, from) == whole
    ensures chunks' + Chunks(rest', limit, from) == whole
    ensures |chunks'| == |chunks| + 1 && chunks'[..|chunks|] == chunks
    ensures |rest'| < |rest|
  {
    var cut := FindCut(rest, limit, from);
    var chunk, next := rest[..cut], DropLeading(rest[cut..], '\n');
    LoopStep(chunks, rest, limit, from, cut, chunk, next, whole);
    chunks', rest' := chunks + [chunk], next;
  }

  /** `text.rfind("\n", 0, limit)`, falling back to `limit` when no cut point is found. */
  method FindCut(text: string, limit: nat, from: nat) returns (cut: nat)
    requires 1 <= limit < |text|
    ensures cut == CutPoint(text, limit, from)
  {
    var found := LastIndexBefore(text, '\n', limit);
    cut := limit;
    if found.Found? && found.index >= from {
      cut := found.index;
    }
  }

  /** One iteration keeps the loop's invariant and shortens the rest. */
  lemma {:induction false} LoopStep(chunks: seq<string>, rest: string, limit: nat, from: nat, cut: nat, chunk: string, next: string,
                 whole: seq<string>)
    requires 1 <= limit < |rest| && chunks + Chunks(rest, limit, from) == whole
    requires cut == CutPoint(rest, limit, from) && chunk == rest[..cut]
    requires next == DropLeading(rest[cut..], '\n')
    ensures (chunks + [chunk]) + Chunks(next, limit, from) == whole
    ensures |next| < |rest|
  {
    ChunksStep(rest, limit, from, cut, next);
    ConcatAssoc(chunks, [chunk], Chunks(next, limit, from));
  }

  /** One iteration of the loop: the cut it finds is the one `Chunks` makes, and the rest is shorter. */
  lemma {:induction false} ChunksStep(rest: string, limit: nat, from: nat, cut: nat, next: string)
    requires 1 <= limit < |rest|
    requires cut == CutPoint(rest, limit, from)
    requires next == DropLeading(rest[cut..], '\n')
    ensures Chunks(rest, limit, from) == [rest[..cut]] + Chunks(next, limit, from)
    ensures |next| < |rest|
  {
    assert next == Rest(rest, limit, from);
  }

  /** A text that fits is one chunk, or none when it is empty. */
  lemma ChunksShort(rest: string, limit: nat, from: nat)
    requires 1 <= limit && |rest| <= limit
    ensures Chunks(rest, limit, from) == if rest == [] then [] else [rest]
  {
  }

  // ---------------------------------------------------------------------------
  // What the chunks satisfy

  /** Every chunk fits in one message. */
  lemma {:induction false} ChunksFit(text: string, limit: nat, from: nat)
    requires limit >= 1
    ensures forall c :: c in Chunks(text, limit, from) ==> |c| <= limit
    decreases |text|
  {
    if |text| > limit {
      ChunksFit(Rest(text, limit, from), limit, from);
    }
  }

  lemma SplitFits(text: string, limit: nat)
    requires limit >= 1
    ensures forall c :: c in Split(text, limit) ==> |c| <= limit
  {
    ChunksFit(text, limit, 0);
  }

  lemma {:induction false} RemoveCharConcat(a: string, b: string, c: char)
    ensures RemoveChar(a + b, c) == RemoveChar(a, c) + RemoveChar(b, c)
    decreases |a|
  {
    if a == [] {
      assert a + b == b;
    } else {
      RemoveCharConcat(a[1..], b, c);
      assert (a + b)[0] == a[0];
      assert (a + b)[1..] == a[1..] + b;
      var x := if a[0] == c then [] else [a[0]];
      ConcatAssoc(x, RemoveChar(a[1..], c), RemoveChar(b, c));
    }
  }

  lemma {:induction false} RemoveCharOnly(s: string, c: char)
    requires forall i :: 0 <= i < |s| ==> s[i] == c
    ensures RemoveChar(s, c) == []
    decreases |s|
  {
    if s != [] {
      RemoveCharOnly(s[1..], c);
    }
  }

  /** Dropping leading newlines drops nothing but newlines. */
  lemma {:induction false} DropLeadingKeepsText(s: string)
    ensures RemoveChar(DropLeading(s, '\n'), '\n') == RemoveChar(s, '\n')
  {
    var r := DropLeading(s, '\n');
    var n := |s| - |r|;
    assert s == s[..n] + r;
    RemoveCharOnly(s[..n], '\n');
    RemoveCharConcat(s[..n], r, '\n');
  }

  /** Only newlines are lost: with every newline deleted, the chunks spell out the text. */
  lemma {:induction false} ChunksKeepText(text: string, limit: nat, from: nat)
    requires limit >= 1
    ensures RemoveChar(Concat(Chunks(text, limit, from)), '\n') == RemoveChar(text, '\n')
    decreases |text|
  {
    if text != [] && |text| > limit {
      var cut := CutPoint(text, limit, from);
      var rest := Rest(text, limit, from);
      ChunksKeepText(rest, limit, from);
      ConcatCons(text[..cut], Chunks(rest, limit, from));
      StepKeepsText(text, cut, rest, Concat(Chunks(rest, limit, from)));
    } else if text != [] {
      ConcatOne(text);
    }
  }

  /** A piece cut off, followed by anything that keeps the rest's text, keeps the whole text. */
  lemma {:induction false} StepKeepsText(text: string, cut: nat, rest: string, tail: string)
    requires cut <= |text| && rest == DropLeading(text[cut..], '\n')
    requires RemoveChar(tail, '\n') == RemoveChar(rest, '\n')
    ensures RemoveChar(text[..cut] + tail, '\n') == RemoveChar(text, '\n')
  {
    var before, after := text[..cut], text[cut..];
    RemoveCharConcat(before, tail, '\n');
    CutKeepsText(before, after);
    assert before + after == text;
  }

  /** The part before a cut and the rest after it hold all of the text but newlines. */
  lemma {:induction false} CutKeepsText(before: string, after: string)
    ensures RemoveChar(before, '\n') + RemoveChar(DropLeading(after, '\n'), '\n')
            == RemoveChar(before + after, '\n')
  {
    RemoveCharConcat(before, after, '\n');
    DropLeadingKeepsText(after);
  }

  lemma ConcatCons(x: string, tail: seq<string>)
    ensures Concat([x] + tail) == x + Concat(tail)
  {
    assert ([x] + tail)[1..] == tail;
  }

  lemma ConcatOne(s: string)
    ensures Concat([s]) == s
  {
    assert [s][1..] == [];
    assert s + "" == s;
  }

  lemma SplitKeepsText(text: string, limit: nat)
    requires limit >= 1
    ensures RemoveChar(Concat(Split(text, limit)), '\n') == RemoveChar(text, '\n')
  {
    if |text| <= limit {
      ConcatOne(text);
    } else {
      ChunksKeepText(text, limit, 0);
    }
  }

  /** A long text is cut at its last newline before the limit, else hard at the limit. */
  lemma SplitFirstCut(text: string, limit: nat)
    requires 1 <= limit < |text|
    ensures |Split(text, limit)| >= 1 && Split(text, limit)[0] == text[..CutPoint(text, limit, 0)]
    ensures (exists j :: 0 <= j < limit && text[j] == '\n') ==>
              text[CutPoint(text, limit, 0)] == '\n'
  {
  }

  // ---------------------------------------------------------------------------
  // The empty first chunk

  /** A text that starts with its only newline before the limit gets an empty first chunk. */
  lemma EmptyFirstChunk()
    ensures Split("\nab", 2) == ["", "ab"]
  {
    var text := "\nab";
    assert CutPoint(text, 2, 0) == 0 by {
      assert LastIndexBefore(text, '\n', 2) == Found(0);
    }
    assert Rest(text, 2, 0) == "ab";
    assert Chunks("ab", 2, 0) == ["ab"];
  }

  /** Never cutting at index 0, no chunk of a non-empty text is empty. */
  lemma {:induction false} ChunksNonEmpty(text: string, limit: nat)
    requires limit >= 1
    ensures forall c :: c in Chunks(text, limit, 1) ==> c != []
    decreases |text|
  {
    if |text| > limit {
      ChunksNonEmpty(Rest(text, limit, 1), limit);
    }
  }

  lemma SplitNonEmptyChunks(text: string, limit: nat)
    requires limit >= 1 && text != []
    ensures forall c :: c in SplitNonEmpty(text, limit) ==> c != [] && |c| <= limit
    ensures RemoveChar(Concat(SplitNonEmpty(text, limit)), '\n') == RemoveChar(text, '\n')
  {
    if |text| <= limit {
      ConcatOne(text);
    } else {
      ChunksNonEmpty(text, limit);
      ChunksFit(text, limit, 1);
      ChunksKeepText(text, limit, 1);
    }
  }
}

=== FILE: Config.dfy ===
/** Numeric settings of the bot. Durations are integer milliseconds. */
module Config {

  /** Hard cap on tool calls for one user message, counted across all rounds. */
  const MAX_TOOL_CALLS_PER_REQUEST: nat := 25
  /** Hard cap on the number of reasoning rounds of one run. */
  const MAX_LOOP_ITERATIONS: nat := 25

  /** Cooldown between two calls of the same ordinary tool (1.0 s). */
  const TOOL_COOLDOWN_DEFAULT: nat := 1000
  /** Cooldown between two calls of the same moderation tool (2.0 s). */
  const TOOL_COOLDOWN_MODERATION: nat := 2000
  /** Minimum spacing of two accepted admin messages (2.0 s). */
  const MESSAGE_COOLDOWN: nat := 2000
  /** How long a confirmation prompt stays open (60.0 s). */
  const CONFIRMATION_TIMEOUT: nat := 60000

  const MAX_PURGE_MESSAGES: nat := 100
  const MAX_RECENT_MESSAGES: nat := 50
  const MAX_SEARCH_MESSAGES: nat := 25
}

=== FILE: Discord.dfy ===
/**
 * The Discord objects the tools read, as plain values: a guild with its
 * channels, categories, roles and members, and a text channel's message
 * history. Only the attributes the modelled tools look at are kept.
 */
module Discord {
  import opened Wrappers

  /** `discord.ChannelType`; `Text` and `News` are `discord.TextChannel`s. */
  datatype ChannelKind = Text | News | Voice | Stage | Forum | Category | Media

  predicate IsTextChannel(k: ChannelKind) { k == Text || k == News }

  /** `str(channel.type)` */
  function KindName(k: ChannelKind): string
  {
    match k
    case Text => "text"
    case News => "news"
    case Voice => "voice"
    case Stage => "stage_voice"
    case Forum => "forum"
    case Category => "category"
    case Media => "media"
  }

  datatype Message = Message(id: int, author: string, content: string, timestamp: string, attachments: seq<string>)

  /** Whom a permission overwrite applies to: a role or a single member. */
  datatype OverwriteTarget = RoleTarget(roleId: int) | MemberTarget(memberId: int)

  /**
   * A `PermissionOverwrite`: the permissions it sets explicitly, to allowed
   * (true) or denied (false); a name it does not hold is inherited.
   */
  type Overwrite = map<string, bool>

  /**
   * A guild channel; `category` is the id of its parent category, if any,
   * and `overwrites` its permission overwrites per role or member.
   */
  datatype Channel = Channel(
    id: int,
    name: string,
    kind: ChannelKind,
    category: Option<int>,
    history: seq<Message>,
    overwrites: map<OverwriteTarget, Overwrite>)

  datatype CategoryChannel = CategoryChannel(id: int, name: string, channels: seq<Channel>)

  datatype Role = Role(id: int, name: string, position: int, memberCount: nat, mentionable: bool, hoist: bool)

  /** `str(member.status)`; an invisible member shows as offline. */
  datatype Presence = Online | Idle | Dnd | Offline

  datatype Member = Member(id: int, name: string, roles: seq<Role>, status: Presence, isBot: bool, isAdmin: bool)

  datatype AuditAction = Ban | Unban | Kick | ChannelCreate | ChannelDelete | RoleCreate | RoleDelete | MessageDelete | OtherAction

  datatype AuditEntry = AuditEntry(action: AuditAction, user: string, target: string, reason: Option<string>, createdAt: string)

  /** `memberCount` is `guild.member_count`, which Discord may leave unset. */
  datatype Guild = Guild(
    id: int,
    name: string,
    channels: seq<Channel>,
    categories: seq<CategoryChannel>,
    roles: seq<Role>,
    members: seq<Member>,
    memberCount: Option<int>,
    auditLog: seq<AuditEntry>)
}

=== FILE: Events.dfy ===
/** What the reasoning loop yields to its caller, and how an approver may answer. */
module Events {
  import opened Messages

  /**
   * The three event dataclasses. A `ConfirmationRequest` is created with
   * `approved` false; the host writes the decision into it before the loop
   * reads it back.
   */
  datatype Event =
    | StatusUpdate(text: string)
    | ConfirmationRequest(toolName: string, toolArgs: Object, approved: bool)
    | FinalResponse(text: string)

  /** A fresh confirmation request, as constructed by the loop. */
  function NewConfirmationRequest(toolName: string, toolArgs: Object): (e: Event)
    ensures e.ConfirmationRequest? && !e.approved
    ensures e.toolName == toolName && e.toolArgs == toolArgs
  {
    ConfirmationRequest(toolName, toolArgs, false)
  }

  /** How a confirmation prompt ends: a button press or the timeout. */
  datatype Decision = Approve | Reject | TimedOut
}

=== FILE: Helpers.dfy ===
/**
 * Name and id resolution shared by all tools: case-insensitive, first-match
 * lookups that either return the object or fail with the tool's message.
 */
module Helpers {
  import opened Wrappers
  import opened Text
  import opened Discord

  /**
   * How a tool ends: it raises (the loop reports the exception text), it
   * returns an `{"error": ...}` object, or it returns its result.
   */
  datatype Reply<T> = Raised(error: string) | ErrorReply(message: string) | Returned(value: T)

  /** The error object a tool returns for a channel that is not a text channel. */
  function NotTextChannel(channelName: string): string {
    "'" + channelName + "' is not a text channel."
  }

  function Min(a: int, b: int): (m: int)
    ensures m <= a && m <= b && (m == a || m == b)
  {
    if a <= b then a else b
  }

  function Max(a: int, b: int): (m: int)
    ensures m >= a && m >= b && (m == a || m == b)
  {
    if a >= b then a else b
  }

  /** `keys[i]` is the first entry equal to `key`. */
  predicate FirstAt(keys: seq<string>, key: string, i: int) {
    0 <= i < |keys| && keys[i] == key && forall j :: 0 <= j < i ==> keys[j] != key
  }

  /** The linear search shared by the `find_*` helpers. */
  function FirstIndex(keys: seq<string>, key: string): (r: Index)
    ensures r.Found? ==> FirstAt(keys, key, r.index)
    ensures r.NotFound? <==> key !in keys
  {
    if keys == [] then NotFound
    else if keys[0] == key then Found(0)
    else match FirstIndex(keys[1..], key)
      case NotFound => NotFound
      case Found(k) => Found(k + 1)
  }

  /** The guild the bot manages, looked up by the configured id. */
  function GetGuild(guilds: map<int, Guild>, guildId: int): (r: Result<Guild>)
    ensures r.Success? <==> guildId in guilds
    ensures r.Success? ==> r.value == guilds[guildId]
    ensures r.Failure? ==> r.error == "Guild " + IntToString(guildId) + " not found. Is the bot in the server?"
  {
    if guildId in guilds then Success(guilds[guildId])
    else Failure("Guild " + IntToString(guildId) + " not found. Is the bot in the server?")
  }

  /** The query `find_channel` compares with: lower-cased, `#` removed, stripped. */
  function ChannelQuery(name: string): string {
    Strip(RemoveChar(Lower(name), '#'))
  }

  /** The query `find_role` and `find_category` compare with: lower-cased and stripped. */
  function NameQuery(name: string): string {
    Strip(Lower(name))
  }

  /** The lower-cased names a lookup compares its query with, in the guild's order. */
  function Keys<T>(xs: seq<T>, name: T -> string): (keys: seq<string>)
    ensures |keys| == |xs| && forall i :: 0 <= i < |xs| ==> keys[i] == Lower(name(xs[i]))
  {
    seq(|xs|, i requires 0 <= i < |xs| => Lower(name(xs[i])))
  }

  function ChannelName(c: Channel): string { c.name }

  function RoleName(r: Role): string { r.name }

  function CategoryName(c: CategoryChannel): string { c.name }

  function MemberIds(members: seq<Member>): (ids: seq<int>)
    ensures |ids| == |members| && forall i :: 0 <= i < |members| ==> ids[i] == members[i].id
  {
    seq(|members|, i requires 0 <= i < |members| => members[i].id)
  }

  /** `find_channel`: the first channel, in guild order, whose lower-cased name is the query. */
  function FindChannel(guild: Guild, name: string): (r: Result<Channel>)
    ensures r.Success? <==> ChannelQuery(name) in Keys(guild.channels, ChannelName)
    ensures r.Success? ==> exists i :: FirstAt(Keys(guild.channels, ChannelName), ChannelQuery(name), i)
                                       && r.value == guild.channels[i]
    ensures r.Failure? ==> r.error == "Channel '" + name + "' not found."
  {
    var keys, q := Keys(guild.channels, ChannelName), ChannelQuery(name);
    match FirstIndex(keys, q)
    case Found(i) => Success(guild.channels[i])
    case NotFound => Failure("Channel '" + name + "' not found.")
  }

  /** `find_role`: as `find_channel`, but `#` is kept in the query. */
  function FindRole(guild: Guild, name: string): (r: Result<Role>)
    ensures r.Success? <==> NameQuery(name) in Keys(guild.roles, RoleName)
    ensures r.Success? ==> exists i :: FirstAt(Keys(guild.roles, RoleName), NameQuery(name), i)
                                       && r.value == guild.roles[i]
    ensures r.Failure? ==> r.error == "Role '" + name + "' not found."
  {
    var keys, q := Keys(guild.roles, RoleName), NameQuery(name);
    match FirstIndex(keys, q)
    case Found(i) => Success(guild.roles[i])
    case NotFound => Failure("Role '" + name + "' not found.")
  }

  /** `find_category`: the first category whose lower-cased name is the query. */
  function FindCategory(guild: Guild, name: string): (r: Result<CategoryChannel>)
    ensures r.Success? <==> NameQuery(name) in Keys(guild.categories, CategoryName)
    ensures r.Success? ==> exists i :: FirstAt(Keys(guild.categories, CategoryName), NameQuery(name), i)
                                       && r.value == guild.categories[i]
    ensures r.Failure? ==> r.error == "Category '" + name + "' not found."
  {
    var keys, q := Keys(guild.categories, CategoryName), NameQuery(name);
    match FirstIndex(keys, q)
    case Found(i) => Success(guild.categories[i])
    case NotFound => Failure("Category '" + name + "' not found.")
  }

  function FirstMember(members: seq<Member>, id: int): (r: Index)
    ensures r.Found? ==> r.index < |members| && members[r.index].id == id
    ensures r.NotFound? <==> id !in MemberIds(members)
  {
    if members == [] then NotFound
    else if members[0].id == id then Found(0)
    else match FirstMember(members[1..], id)
      case NotFound =>
        assert MemberIds(members) == [members[0].id] + MemberIds(members[1..]);
        NotFound
      case Found(k) => Found(k + 1)
  }

  /**
   * `find_member`: the id must parse as an integer and name a member of the
   * guild; both failures give the same message.
   */
  function FindMember(guild: Guild, userId: string): (r: Result<Member>)
    ensures r.Success? <==> ParseInt(userId).Some? && ParseInt(userId).value in MemberIds(guild.members)
    ensures r.Success? ==> r.value in guild.members && r.value.id == ParseInt(userId).value
    ensures r.Failure? ==> r.error == "User '" + userId + "' not found in this server."
  {
    match ParseInt(userId)
    case None => Failure("User '" + userId + "' not found in this server.")
    case Some(id) =>
      match FirstMember(guild.members, id)
      case Found(i) => Success(guild.members[i])
      case NotFound => Failure("User '" + userId + "' not found in this server.")
  }

  /** Every member can be found by its own id written in decimal. */
  lemma FindMemberById(guild: Guild, m: Member)
    requires m in guild.members
    ensures FindMember(guild, IntToString(m.id)).Success?
    ensures FindMember(guild, IntToString(m.id)).value.id == m.id
  {
    ParseIntToString(m.id);
    var i :| 0 <= i < |guild.members| && guild.members[i] == m;
    assert MemberIds(guild.members)[i] == m.id;
  }

  /**
   * A channel whose name holds no `#` and no surrounding whitespace is found
   * by its own name (or an earlier channel with the same lower-cased name is).
   */
  lemma {:induction false} FindChannelByOwnName(guild: Guild, ch: Channel)
    requires ch in guild.channels
    requires '#' !in ch.name && Strip(Lower(ch.name)) == Lower(ch.name)
    ensures FindChannel(guild, ch.name).Success?
    ensures Lower(FindChannel(guild, ch.name).value.name) == Lower(ch.name)
  {
    OwnNameQuery(ch.name);
    var i :| 0 <= i < |guild.channels| && guild.channels[i] == ch;
    FoundAtKey(guild.channels, Lower(ch.name), i);
  }

  /** A channel whose key is `q` makes the search for `q` find a channel with that key. */
  lemma FoundAtKey(chs: seq<Channel>, q: string, i: nat)
    requires i < |chs| && Lower(chs[i].name) == q
    ensures FirstIndex(Keys(chs, ChannelName), q).Found?
    ensures Lower(chs[FirstIndex(Keys(chs, ChannelName), q).index].name) == q
  {
    var keys := Keys(chs, ChannelName);
    assert keys[i] == q;
    var j := FirstIndex(keys, q).index;
    assert keys[j] == Lower(chs[j].name);
  }

  /** A plain name, lower-cased, is its own `find_channel` query. */
  lemma OwnNameQuery(name: string)
    requires '#' !in name && Strip(Lower(name)) == Lower(name)
    ensures ChannelQuery(name) == Lower(name)
  {
    LowerKeepsHashAbsent(name);
    RemoveCharAbsent(Lower(name), '#');
  }

  /** Lower-casing brings in no `#`: no upper-case letter lowers to it. */
  lemma LowerKeepsHashAbsent(s: string)
    requires '#' !in s
    ensures '#' !in Lower(s)
  {
    forall i | 0 <= i < |s|
      ensures Lower(s)[i] != '#'
    {
      assert s[i] != '#';
    }
  }

  lemma {:induction false} RemoveCharAbsent(s: string, c: char)
    requires c !in s
    ensures RemoveChar(s, c) == s
    decreases |s|
  {
    if s != [] {
      RemoveCharAbsent(s[1..], c);
      assert s == [s[0]] + s[1..];
    }
  }
}

=== FILE: Info.dfy ===
/**
 * The read-only tools that do more than copy one Discord attribute: message
 * search and history, member counts by status, the role list, a member's
 * roles, the audit log and the channel list grouped by category. A
 * channel's `history` and the guild's `auditLog` are newest first, the
 * order in which Discord yields them.
 */
module Info {
  import opened Wrappers
  import opened Text
  import opened Discord
  import opened Helpers
  import opened Config

  /** Message contents are cut to this many characters. */
  const MAX_CONTENT: nat := 500
  /** How many messages of a channel's history a search looks at. */
  const SEARCH_SCAN: nat := 500
  /** The most audit log entries returned. */
  const MAX_AUDIT_ENTRIES: nat := 50

  /** `s[:n]` for `n >= 0`. */
  function Truncate(s: string, n: nat): (t: string)
    ensures |t| <= n && t <= s
    ensures |s| <= n ==> t == s
  {
    if |s| <= n then s else s[..n]
  }

  /**
   * The most recent `limit` entries of a newest-first list, as Discord's
   * history iterators yield them; a limit of zero or below yields nothing.
   */
  function Newest<T>(xs: seq<T>, limit: int): (ys: seq<T>)
    ensures ys <= xs
    ensures |ys| == if limit <= 0 then 0 else Min(limit, |xs|)
  {
    if limit <= 0 then [] else if limit >= |xs| then xs else xs[..limit]
  }

  // ---------------------------------------------------------------------------
  // get_recent_messages

  datatype MessageView = MessageView(author: string, content: string, timestamp: string, id: string,
                                     attachments: seq<string>)

  function ViewOf(m: Message): (v: MessageView)
    ensures |v.content| <= MAX_CONTENT && v.content == Truncate(m.content, MAX_CONTENT)
  {
    MessageView(m.author, Truncate(m.content, MAX_CONTENT), m.timestamp, IntToString(m.id), m.attachments)
  }

  function ViewsOf(ms: seq<Message>): (vs: seq<MessageView>)
    ensures |vs| == |ms| && forall k :: 0 <= k < |ms| ==> vs[k] == ViewOf(ms[k])
  {
    seq(|ms|, k requires 0 <= k < |ms| => ViewOf(ms[k]))
  }

  /** The number of messages `get_recent_messages` asks for: `count` capped at 50. */
  function RecentLimit(count: int): (n: int)
    ensures n <= MAX_RECENT_MESSAGES
    ensures count <= MAX_RECENT_MESSAGES ==> n == count
    ensures count >= MAX_RECENT_MESSAGES ==> n == MAX_RECENT_MESSAGES
  {
    Min(count, MAX_RECENT_MESSAGES)
  }

  /**
   * `get_recent_messages`: the newest `min(count, 50)` messages of a text
   * channel, newest first, each with its content cut to 500 characters.
   */
  method GetRecentMessages(guild: Guild, channelName: string, count: int) returns (r: Reply<seq<MessageView>>)
    ensures FindChannel(guild, channelName).Failure? ==> r == Raised(FindChannel(guild, channelName).error)
    ensures FindChannel(guild, channelName).Success? && !IsTextChannel(FindChannel(guild, channelName).value.kind)
            ==> r == ErrorReply(NotTextChannel(channelName))
    ensures FindChannel(guild, channelName).Success? && IsTextChannel(FindChannel(guild, channelName).value.kind)
            ==> r == Returned(ViewsOf(Newest(FindChannel(guild, channelName).value.history, RecentLimit(count))))
    ensures r.Returned? ==> |r.value| <= MAX_RECENT_MESSAGES
  {
    var found := FindChannel(guild, channelName);
    if found.Failure? {
      return Raised(found.error);
    }
    var channel := found.value;
    if !IsTextChannel(channel.kind) {
      return ErrorReply(NotTextChannel(channelName));
    }
    var limit := Min(count, MAX_RECENT_MESSAGES);
    var messages := ViewAll(Newest(channel.history, limit));
    return Returned(messages);
  }

  /** The loop that turns each yielded message into its summary. */
  method ViewAll(history: seq<Message>) returns (messages: seq<MessageView>)
    ensures messages == ViewsOf(history)
  {
    messages := [];
    for k := 0 to |history|
      invariant messages == ViewsOf(history[..k])
    {
      messages := messages + [ViewOf(history[k])];
    }
    assert history[..|history|] == history;
  }

  // ---------------------------------------------------------------------------
  // search_messages

  datatype SearchHit = SearchHit(author: string, content: string, timestamp: string, id: string)

  function HitOf(m: Message): (h: SearchHit)
    ensures |h.content| <= MAX_CONTENT && h.content == Truncate(m.content, MAX_CONTENT)
  {
    SearchHit(m.author, Truncate(m.content, MAX_CONTENT), m.timestamp, IntToString(m.id))
  }

  function HitsOf(ms: seq<Message>): (hs: seq<SearchHit>)
    ensures |hs| == |ms| && forall k :: 0 <= k < |ms| ==> hs[k] == HitOf(ms[k])
  {
    seq(|ms|, k requires 0 <= k < |ms| => HitOf(ms[k]))
  }

  /** The search is case-insensitive: the lower-cased query inside the lower-cased content. */
  predicate Mentions(m: Message, queryLower: string) {
    Contains(Lower(m.content), queryLower)
  }

  /** The messages of `ms` that mention the query, in their order. */
  function Matching(ms: seq<Message>, queryLower: string): seq<Message>
    decreases |ms|
  {
    if ms == [] then []
    else Matching(ms[..|ms| - 1], queryLower) + (if Mentions(ms[|ms| - 1], queryLower) then [ms[|ms| - 1]] else [])
  }

  /**
   * How many hits a search keeps: `count` capped at 25, and at least one,
   * because the check against the cap comes after a hit is added.
   */
  function SearchCap(count: int): (cap: nat)
    ensures 1 <= cap <= MAX_SEARCH_MESSAGES
    ensures 1 <= count <= MAX_SEARCH_MESSAGES ==> cap == count
    ensures count >= MAX_SEARCH_MESSAGES ==> cap == MAX_SEARCH_MESSAGES
    ensures count <= 1 ==> cap == 1
  {
    Max(1, Min(count, MAX_SEARCH_MESSAGES))
  }

  /** What a search of `history` returns: the first hits among the newest 500 messages. */
  function SearchResult(history: seq<Message>, query: string, count: int): seq<SearchHit>
  {
    HitsOf(FirstMatches(Newest(history, SEARCH_SCAN), Lower(query), SearchCap(count)))
  }

  /** The first `cap` messages of `ms` that mention the query (all of them when there are fewer). */
  function FirstMatches(ms: seq<Message>, queryLower: string, cap: nat): seq<Message>
  {
    var matching := Matching(ms, queryLower);
    if |matching| <= cap then matching else matching[..cap]
  }

  /** `search_messages`: scan the newest 500 messages and stop once `count` hits are in. */
  method SearchMessages(guild: Guild, channelName: string, query: string, count: int)
    returns (r: Reply<seq<SearchHit>>)
    ensures FindChannel(guild, channelName).Failure? ==> r == Raised(FindChannel(guild, channelName).error)
    ensures FindChannel(guild, channelName).Success? && !IsTextChannel(FindChannel(guild, channelName).value.kind)
            ==> r == ErrorReply(NotTextChannel(channelName))
    ensures FindChannel(guild, channelName).Success? && IsTextChannel(FindChannel(guild, channelName).value.kind)
            ==> r == Returned(SearchResult(FindChannel(guild, channelName).value.history, query, count))
  {
    var found := FindChannel(guild, channelName);
    if found.Failure? {
      return Raised(found.error);
    }
    var channel := found.value;
    if !IsTextChannel(channel.kind) {
      return ErrorReply(NotTextChannel(channelName));
    }
    var hits := Scan(Newest(channel.history, SEARCH_SCAN), Lower(query), Min(count, MAX_SEARCH_MESSAGES));
    return Returned(hits);
  }

  /**
   * The scan of `search_messages`: add each message that mentions the
   * query, and stop as soon as there are `limit` results.
   */
  method Scan(scanned: seq<Message>, queryLower: string, limit: int) returns (results: seq<SearchHit>)
    ensures results == HitsOf(FirstMatches(scanned, queryLower, Max(1, limit)))
  {
    ghost var cap := Max(1, limit);
    results := [];
    var i := 0;
    while i < |scanned|
      invariant 0 <= i <= |scanned|
      invariant results == HitsOf(Matching(scanned[..i], queryLower))
      invariant |results| < cap
    {
      MatchingNext(scanned, i, queryLower);
      if Mentions(scanned[i], queryLower) {
        HitsOfAppend(Matching(scanned[..i], queryLower), scanned[i]);
        results := results + [HitOf(scanned[i])];
        if |results| >= limit {
          CapReached(scanned, i + 1, queryLower, cap);
          return;
        }
      }
      i := i + 1;
    }
    assert scanned[..i] == scanned;
  }

  /** Once the scan of the first `n` messages has `cap` matches, those are the first matches. */
  lemma CapReached(ms: seq<Message>, n: nat, queryLower: string, cap: nat)
    requires n <= |ms| && |Matching(ms[..n], queryLower)| == cap
    ensures FirstMatches(ms, queryLower, cap) == Matching(ms[..n], queryLower)
  {
    MatchingPrefix(ms, n, queryLower);
  }

  lemma MatchingNext(ms: seq<Message>, i: nat, queryLower: string)
    requires i < |ms|
    ensures Matching(ms[..i + 1], queryLower)
            == Matching(ms[..i], queryLower) + (if Mentions(ms[i], queryLower) then [ms[i]] else [])
  {
    assert ms[..i + 1][..i] == ms[..i];
  }

  lemma HitsOfAppend(ms: seq<Message>, m: Message)
    ensures HitsOf(ms + [m]) == HitsOf(ms) + [HitOf(m)]
  {
  }

  /** Searching a prefix finds a prefix of the hits. */
  lemma {:induction false} MatchingPrefix(ms: seq<Message>, i: nat, queryLower: string)
    requires i <= |ms|
    ensures Matching(ms[..i], queryLower) <= Matching(ms, queryLower)
    decreases |ms|
  {
    if i < |ms| {
      var init := ms[..|ms| - 1];
      assert ms[..i] == init[..i];
      MatchingPrefix(init, i, queryLower);
    } else {
      assert ms[..i] == ms;
    }
  }

  /** A message is among the matching ones exactly when it is scanned and mentions the query. */
  lemma {:induction false} MatchingExactly(ms: seq<Message>, queryLower: string, m: Message)
    ensures m in Matching(ms, queryLower) <==> m in ms && Mentions(m, queryLower)
    decreases |ms|
  {
    if ms != [] {
      var init := ms[..|ms| - 1];
      MatchingExactly(init, queryLower, m);
      assert ms == init + [ms[|ms| - 1]];
    }
  }

  /**
   * The search's promise: at most `SearchCap(count)` hits, each a message
   * among the newest 500 that mentions the query, and when there are fewer
   * hits than the cap, every such message is among them.
   */
  lemma SearchSoundAndComplete(history: seq<Message>, query: string, count: int, m: Message)
    ensures |SearchResult(history, query, count)| <= SearchCap(count) <= MAX_SEARCH_MESSAGES
    ensures var scanned := Newest(history, SEARCH_SCAN);
            var matching := Matching(scanned, Lower(query));
            (|matching| <= SearchCap(count) ==> SearchResult(history, query, count) == HitsOf(matching))
            && (m in matching ==> m in scanned && Contains(Lower(m.content), Lower(query)))
            && (m in scanned && Contains(Lower(m.content), Lower(query)) ==> m in matching)
  {
    MatchingExactly(Newest(history, SEARCH_SCAN), Lower(query), m);
  }

  // ---------------------------------------------------------------------------
  // get_member_count

  /** `str(member.status)` */
  function StatusName(p: Presence): string
  {
    match p
    case Online => "online"
    case Idle => "idle"
    case Dnd => "dnd"
    case Offline => "offline"
  }

  /** How many of `members` show `status`. */
  function CountStatus(members: seq<Member>, status: Presence): (n: nat)
    ensures n <= |members|
    decreases |members|
  {
    if members == [] then 0
    else (if members[0].status == status then 1 else 0) + CountStatus(members[1..], status)
  }

  datatype MemberCounts = MemberCounts(total: int, online: nat, idle: nat, dnd: nat, offline: int)

  /**
   * `get_member_count`: the guild's member count (zero when Discord left it
   * unset), the members online, idle and busy, and the rest as offline.
   */
  function GetMemberCount(guild: Guild): (c: MemberCounts)
    ensures c.online + c.idle + c.dnd + c.offline == c.total
    ensures c.total == match guild.memberCount case None => 0 case Some(n) => n
    ensures c.online == CountStatus(guild.members, Online) && c.idle == CountStatus(guild.members, Idle)
            && c.dnd == CountStatus(guild.members, Dnd)
  {
    var total := match guild.memberCount case None => 0 case Some(n) => n;
    var online := CountStatus(guild.members, Online);
    var idle := CountStatus(guild.members, Idle);
    var dnd := CountStatus(guild.members, Dnd);
    MemberCounts(total, online, idle, dnd, total - online - idle - dnd)
  }

  /** Every member shows exactly one of the four statuses. */
  lemma {:induction false} StatusesPartition(members: seq<Member>)
    ensures CountStatus(members, Online) + CountStatus(members, Idle) + CountStatus(members, Dnd)
            + CountStatus(members, Offline) == |members|
    decreases |members|
  {
    if members != [] {
      StatusesPartition(members[1..]);
    }
  }

  /**
   * When the guild's member count is the list of members held, "offline"
   * counts exactly the members shown offline, and no figure is negative.
   */
  lemma OfflineWhenCountKnown(guild: Guild)
    requires guild.memberCount == Some(|guild.members|)
    ensures GetMemberCount(guild).offline == CountStatus(guild.members, Offline)
    ensures GetMemberCount(guild).offline >= 0
  {
    StatusesPartition(guild.members);
  }

  // ---------------------------------------------------------------------------
  // list_roles

  /** Insert `r` before the first role whose position is at most `r`'s. */
  function InsertByPosition(r: Role, sorted: seq<Role>): (s: seq<Role>)
    ensures multiset(s) == multiset(sorted) + multiset{r}
    ensures |s| == |sorted| + 1
    decreases |sorted|
  {
    if sorted == [] || r.position >= sorted[0].position then [r] + sorted
    else
      assert sorted == [sorted[0]] + sorted[1..];
      [sorted[0]] + InsertByPosition(r, sorted[1..])
  }

  /** `sorted(roles, key=position, reverse=True)`. */
  function SortByPositionDesc(roles: seq<Role>): (s: seq<Role>)
    ensures multiset(s) == multiset(roles)
    ensures |s| == |roles|
    decreases |roles|
  {
    if roles == [] then []
    else
      assert roles == [roles[0]] + roles[1..];
      InsertByPosition(roles[0], SortByPositionDesc(roles[1..]))
  }

  predicate DescendingByPosition(s: seq<Role>) {
    forall i, j :: 0 <= i < j < |s| ==> s[i].position >= s[j].position
  }

  lemma {:induction false} InsertKeepsOrder(r: Role, sorted: seq<Role>)
    requires DescendingByPosition(sorted)
    ensures DescendingByPosition(InsertByPosition(r, sorted))
    decreases |sorted|
  {
    if sorted == [] || r.position >= sorted[0].position {
      ConsDescending(r, sorted);
    } else {
      InsertKeepsOrder(r, sorted[1..]);
      var tail := InsertByPosition(r, sorted[1..]);
      forall k | 0 <= k < |tail| ensures sorted[0].position >= tail[k].position {
        assert tail[k] in multiset(tail);
        assert tail[k] == r || tail[k] in multiset(sorted[1..]);
      }
      ConsDescending(sorted[0], tail);
    }
  }

  /** A role placed before a descending list it is not below keeps the list descending. */
  lemma ConsDescending(x: Role, tail: seq<Role>)
    requires DescendingByPosition(tail)
    requires forall k :: 0 <= k < |tail| ==> x.position >= tail[k].position
    ensures DescendingByPosition([x] + tail)
  {
    var s := [x] + tail;
    forall i, j | 0 <= i < j < |s| ensures s[i].position >= s[j].position {
      if i > 0 {
        assert s[i] == tail[i - 1] && s[j] == tail[j - 1];
      } else {
        assert s[j] == tail[j - 1];
      }
    }
  }

  /** `list_roles`: the guild's roles, highest position first. */
  lemma {:induction false} ListRolesSorted(roles: seq<Role>)
    ensures DescendingByPosition(SortByPositionDesc(roles))
    ensures multiset(SortByPositionDesc(roles)) == multiset(roles)
    decreases |roles|
  {
    if roles != [] {
      ListRolesSorted(roles[1..]);
      InsertKeepsOrder(roles[0], SortByPositionDesc(roles[1..]));
    }
  }

  datatype RoleView = RoleView(name: string, id: string, members: nat, position: int, mentionable: bool, hoist: bool)

  function RoleViewOf(r: Role): RoleView {
    RoleView(r.name, IntToString(r.id), r.memberCount, r.position, r.mentionable, r.hoist)
  }

  /** The views of `roles`, one per role, in order. */
  function RoleViewsOf(roles: seq<Role>): (vs: seq<RoleView>)
    ensures |vs| == |roles|
  {
    if roles == [] then [] else [RoleViewOf(roles[0])] + RoleViewsOf(roles[1..])
  }

  lemma RoleViewsCons(r: Role, roles: seq<Role>)
    ensures RoleViewsOf([r] + roles) == [RoleViewOf(r)] + RoleViewsOf(roles)
  {
    assert ([r] + roles)[1..] == roles;
  }

  /** Inserting a role adds its view to the views. */
  lemma {:induction false} InsertViews(r: Role, sorted: seq<Role>)
    ensures multiset(RoleViewsOf(InsertByPosition(r, sorted))) == multiset(RoleViewsOf(sorted)) + multiset{RoleViewOf(r)}
    decreases |sorted|
  {
    if sorted == [] || r.position >= sorted[0].position {
      assert InsertByPosition(r, sorted) == [r] + sorted;
      RoleViewsCons(r, sorted);
      ConsMultiset(RoleViewOf(r), RoleViewsOf(sorted));
    } else {
      var tail := sorted[1..];
      InsertPastHead(r, sorted);
      InsertViews(r, tail);
      ViewsHead(sorted);
      Regroup(multiset(RoleViewsOf(InsertByPosition(r, sorted))), multiset(RoleViewsOf(InsertByPosition(r, tail))),
              multiset(RoleViewsOf(sorted)), multiset(RoleViewsOf(tail)), RoleViewOf(sorted[0]), RoleViewOf(r));
    }
  }

  /** A role that goes below the head is inserted into the rest, and the head's view stays. */
  lemma InsertPastHead(r: Role, sorted: seq<Role>)
    requires sorted != [] && r.position < sorted[0].position
    ensures multiset(RoleViewsOf(InsertByPosition(r, sorted)))
            == multiset(RoleViewsOf(InsertByPosition(r, sorted[1..]))) + multiset{RoleViewOf(sorted[0])}
  {
    var inserted := InsertByPosition(r, sorted[1..]);
    assert InsertByPosition(r, sorted) == [sorted[0]] + inserted;
    RoleViewsCons(sorted[0], inserted);
    ConsMultiset(RoleViewOf(sorted[0]), RoleViewsOf(inserted));
  }

  lemma ConsMultiset<T>(x: T, xs: seq<T>)
    ensures multiset([x] + xs) == multiset(xs) + multiset{x}
  {
  }

  lemma Regroup<T>(all: multiset<T>, mid: multiset<T>, before: multiset<T>, rest: multiset<T>, w: T, v: T)
    requires all == mid + multiset{w} && mid == rest + multiset{v} && before == rest + multiset{w}
    ensures all == before + multiset{v}
  {
  }

  /** Sorting permutes the views along with the roles. */
  lemma {:induction false} SortViews(roles: seq<Role>)
    ensures multiset(RoleViewsOf(SortByPositionDesc(roles))) == multiset(RoleViewsOf(roles))
    decreases |roles|
  {
    if roles != [] {
      SortViewsHead(roles);
      SortViews(roles[1..]);
      ViewsHead(roles);
    }
  }

  /** The sorted views are those of the sorted rest plus the first role's view. */
  lemma SortViewsHead(roles: seq<Role>)
    requires roles != []
    ensures multiset(RoleViewsOf(SortByPositionDesc(roles)))
            == multiset(RoleViewsOf(SortByPositionDesc(roles[1..]))) + multiset{RoleViewOf(roles[0])}
  {
    var sortedTail := SortByPositionDesc(roles[1..]);
    assert SortByPositionDesc(roles) == InsertByPosition(roles[0], sortedTail);
    InsertViews(roles[0], sortedTail);
  }

  /** The views are those of the rest plus the first role's view. */
  lemma ViewsHead(roles: seq<Role>)
    requires roles != []
    ensures multiset(RoleViewsOf(roles)) == multiset(RoleViewsOf(roles[1..])) + multiset{RoleViewOf(roles[0])}
  {
    assert roles == [roles[0]] + roles[1..];
    RoleViewsCons(roles[0], roles[1..]);
    ConsMultiset(RoleViewOf(roles[0]), RoleViewsOf(roles[1..]));
  }

  /** `list_roles`: one view per role of the guild, highest position first. */
  function ListRoles(guild: Guild): (vs: seq<RoleView>)
    ensures |vs| == |guild.roles|
    ensures multiset(vs) == multiset(RoleViewsOf(guild.roles))
    ensures forall i, j :: 0 <= i < j < |vs| ==> vs[i].position >= vs[j].position
  {
    var sorted := SortByPositionDesc(guild.roles);
    var vs := RoleViewsOf(sorted);
    assert forall i, j :: 0 <= i < j < |vs| ==> vs[i].position >= vs[j].position by {
      ListRolesSorted(guild.roles);
      RoleViewsAt(sorted);
    }
    assert multiset(vs) == multiset(RoleViewsOf(guild.roles)) by {
      SortViews(guild.roles);
    }
    vs
  }

  /** The k-th view is the view of the k-th role. */
  lemma {:induction false} RoleViewsAt(roles: seq<Role>)
    ensures forall k :: 0 <= k < |roles| ==> RoleViewsOf(roles)[k] == RoleViewOf(roles[k])
    decreases |roles|
  {
    if roles != [] {
      RoleViewsAt(roles[1..]);
    }
  }

  // ---------------------------------------------------------------------------
  // get_user_info

  const EVERYONE: string := "@everyone"

  /** The names of a member's roles, leaving out the implicit `@everyone` role. */
  function ShownRoleNames(roles: seq<Role>): (names: seq<string>)
    ensures EVERYONE !in names
    ensures forall n :: n in names <==> n != EVERYONE && exists r :: r in roles && r.name == n
    ensures |names| <= |roles|
  {
    if roles == [] then []
    else (if roles[0].name != EVERYONE then [roles[0].name] else []) + ShownRoleNames(roles[1..])
  }

  datatype UserInfo = UserInfo(name: string, id: string, roles: seq<string>, status: string, isBot: bool)

  /** `get_user_info`: the member found by id, or the lookup's error. */
  function GetUserInfo(guild: Guild, userId: string): (r: Result<UserInfo>)
    ensures r.Success? <==> FindMember(guild, userId).Success?
    ensures r.Failure? ==> r.error == FindMember(guild, userId).error
    ensures r.Success? ==> EVERYONE !in r.value.roles
                           && r.value.roles == ShownRoleNames(FindMember(guild, userId).value.roles)
  {
    match FindMember(guild, userId)
    case Failure(e) => Failure(e)
    case Success(m) => Success(UserInfo(m.name, IntToString(m.id), ShownRoleNames(m.roles), StatusName(m.status), m.isBot))
  }

  // ---------------------------------------------------------------------------
  // get_audit_log

  /** The action types the tool recognises, and the audit-log action each one selects. */
  const AUDIT_ACTION_MAP: map<string, AuditAction> := map[
    "ban" := Ban, "unban" := Unban, "kick" := Kick,
    "channel_create" := ChannelCreate, "channel_delete" := ChannelDelete,
    "role_create" := RoleCreate, "role_delete" := RoleDelete,
    "message_delete" := MessageDelete]

  /**
   * `AUDIT_ACTION_MAP.get(action_type) if action_type else None`: a
   * recognised type selects its action, and an absent, empty or
   * unrecognised type applies no filter.
   */
  function ActionFilter(actionType: Option<string>): (a: Option<AuditAction>)
    ensures a.Some? <==> actionType.Some? && actionType.value in AUDIT_ACTION_MAP
    ensures a.Some? ==> a.value == AUDIT_ACTION_MAP[actionType.value] && a.value != OtherAction
    ensures (actionType.None? || actionType == Some("")) ==> a.None?
  {
    match actionType
    case None => None
    case Some(t) =>
      if t == "ban" then Some(Ban)
      else if t == "unban" then Some(Unban)
      else if t == "kick" then Some(Kick)
      else if t == "channel_create" then Some(ChannelCreate)
      else if t == "channel_delete" then Some(ChannelDelete)
      else if t == "role_create" then Some(RoleCreate)
      else if t == "role_delete" then Some(RoleDelete)
      else if t == "message_delete" then Some(MessageDelete)
      else None
  }

  /** The entries Discord yields for an action filter: all of them when there is none. */
  function OfAction(log: seq<AuditEntry>, action: Option<AuditAction>): (es: seq<AuditEntry>)
    ensures |es| <= |log|
    ensures forall e :: e in es ==> e in log && (action.Some? ==> e.action == action.value)
    ensures action.None? ==> es == log
  {
    if log == [] then []
    else (if action.None? || log[0].action == action.value then [log[0]] else []) + OfAction(log[1..], action)
  }

  datatype AuditView = AuditView(action: AuditAction, user: string, target: string, reason: Option<string>,
                                 createdAt: string)

  function AuditViewOf(e: AuditEntry): AuditView {
    AuditView(e.action, e.user, e.target, e.reason, e.createdAt)
  }

  function AuditViewsOf(es: seq<AuditEntry>): (vs: seq<AuditView>)
    ensures |vs| == |es| && forall k :: 0 <= k < |es| ==> vs[k] == AuditViewOf(es[k])
  {
    seq(|es|, k requires 0 <= k < |es| => AuditViewOf(es[k]))
  }

  /**
   * `get_audit_log`: the newest `min(count, 50)` entries of the requested
   * action; an action name outside the map filters nothing.
   */
  method GetAuditLog(guild: Guild, actionType: Option<string>, count: int) returns (entries: seq<AuditView>)
    ensures entries == AuditViewsOf(Newest(OfAction(guild.auditLog, ActionFilter(actionType)), Min(count, MAX_AUDIT_ENTRIES)))
    ensures |entries| <= MAX_AUDIT_ENTRIES
    ensures ActionFilter(actionType).Some? ==> forall v :: v in entries ==> v.action == ActionFilter(actionType).value
    ensures ActionFilter(actionType).None? && count >= |guild.auditLog| && |guild.auditLog| <= MAX_AUDIT_ENTRIES
            ==> entries == AuditViewsOf(guild.auditLog)
  {
    var action := ActionFilter(actionType);
    var limit := Min(count, MAX_AUDIT_ENTRIES);
    var yielded := Newest(OfAction(guild.auditLog, action), limit);
    entries := AuditViewAll(yielded);
    FilteredViews(guild.auditLog, action, limit);
  }

  /** The loop that turns each yielded entry into its view, in order. */
  method AuditViewAll(yielded: seq<AuditEntry>) returns (entries: seq<AuditView>)
    ensures entries == AuditViewsOf(yielded)
  {
    entries := [];
    for k := 0 to |yielded|
      invariant entries == AuditViewsOf(yielded[..k])
    {
      entries := entries + [AuditViewOf(yielded[k])];
    }
    assert yielded[..|yielded|] == yielded;
  }

  /** The newest entries of an action are all of that action. */
  lemma FilteredViews(log: seq<AuditEntry>, action: Option<AuditAction>, limit: int)
    ensures action.Some? ==> forall v :: v in AuditViewsOf(Newest(OfAction(log, action), limit)) ==> v.action == action.value
  {
    var yielded := Newest(OfAction(log, action), limit);
    var views := AuditViewsOf(yielded);
    forall v | v in views && action.Some?
      ensures v.action == action.value
    {
      var k :| 0 <= k < |views| && views[k] == v;
      assert yielded[k] in OfAction(log, action);
    }
  }

  // ---------------------------------------------------------------------------
  // list_channels

  datatype ChannelView = ChannelView(name: string, kind: string, id: string)

  function ChannelViewOf(ch: Channel): ChannelView {
    ChannelView(ch.name, KindName(ch.kind), IntToString(ch.id))
  }

  function ChannelViewsOf(chs: seq<Channel>): (vs: seq<ChannelView>)
    ensures |vs| == |chs| && forall k :: 0 <= k < |chs| ==> vs[k] == ChannelViewOf(chs[k])
  {
    seq(|chs|, k requires 0 <= k < |chs| => ChannelViewOf(chs[k]))
  }

  /** Channels outside any category, category channels themselves excluded. */
  function Uncategorized(chs: seq<Channel>): (out: seq<Channel>)
    ensures forall c :: c in out <==> c in chs && c.category.None? && c.kind != Category
  {
    if chs == [] then []
    else (if chs[0].category.None? && chs[0].kind != Category then [chs[0]] else []) + Uncategorized(chs[1..])
  }

  const NO_CATEGORY: string := "(no category)"

  /** The category part of the grouping: each name maps to its last category's channels. */
  function ByCategory(cats: seq<CategoryChannel>): (m: map<string, seq<ChannelView>>)
    ensures forall c :: c in cats ==> c.name in m
    ensures forall n :: n in m ==> exists c :: c in cats && c.name == n
    decreases |cats|
  {
    if cats == [] then map[]
    else
      var last := cats[|cats| - 1];
      ByCategory(cats[..|cats| - 1])[last.name := ChannelViewsOf(last.channels)]
  }

  /**
   * `list_channels`: one entry per category name with that category's
   * channels, then `(no category)` for the rest when there are any.
   */
  method ListChannels(guild: Guild) returns (result: map<string, seq<ChannelView>>)
    ensures var rest := Uncategorized(guild.channels);
            result == if rest == [] then ByCategory(guild.categories)
                      else ByCategory(guild.categories)[NO_CATEGORY := ChannelViewsOf(rest)]
    ensures forall c :: c in guild.categories ==> c.name in result
    ensures NO_CATEGORY in result <==>
              Uncategorized(guild.channels) != [] || exists c :: c in guild.categories && c.name == NO_CATEGORY
  {
    result := map[];
    for k := 0 to |guild.categories|
      invariant result == ByCategory(guild.categories[..k])
    {
      var category := guild.categories[k];
      assert guild.categories[..k + 1][..k] == guild.categories[..k];
      result := result[category.name := ChannelViewsOf(category.channels)];
    }
    assert guild.categories[..|guild.categories|] == guild.categories;
    var uncategorized := Uncategorized(guild.channels);
    if uncategorized != [] {
      result := result[NO_CATEGORY := ChannelViewsOf(uncategorized)];
    }
  }

  /** A category's entry lists the channels of the last category of that name. */
  lemma {:induction false} ByCategoryLastWins(cats: seq<CategoryChannel>, i: nat)
    requires i < |cats| && forall j :: i < j < |cats| ==> cats[j].name != cats[i].name
    ensures ByCategory(cats)[cats[i].name] == ChannelViewsOf(cats[i].channels)
    decreases |cats|
  {
    if i < |cats| - 1 {
      ByCategoryLastWins(cats[..|cats| - 1], i);
    }
  }
}

=== FILE: Messages.dfy ===
/**
 * The conversation exchanged with the model service: turns made of parts,
 * where a part is text, a requested function call or a function response.
 * Tool results are JSON-like values.
 */
module Messages {

  datatype Json =
    | JNull
    | JBool(b: bool)
    | JInt(i: int)
    | JStr(s: string)
    | JList(items: seq<Json>)
    | JObject(fields: map<string, Json>)

  /** The arguments of a function call, and the object a function response carries. */
  type Object = map<string, Json>

  datatype Role = User | Model

  /** A requested function call: the tool's name and its arguments. */
  datatype Call = Call(name: string, args: Object)

  datatype Part =
    | TextPart(text: string)
    | FunctionCall(call: Call)
    | FunctionResponse(name: string, response: Object)
    | OtherPart

  datatype Content = Content(role: Role, parts: seq<Part>)

  /** `[p for p in parts if p.function_call]` */
  function FunctionCalls(parts: seq<Part>): (calls: seq<Call>)
    ensures forall c :: c in calls ==> FunctionCall(c) in parts
    ensures (calls == []) <==> forall p :: p in parts ==> !p.FunctionCall?
    ensures |calls| <= |parts|
  {
    if parts == [] then []
    else (if parts[0].FunctionCall? then [parts[0].call] else []) + FunctionCalls(parts[1..])
  }

  /** `[p.text for p in parts if p.text]`: the non-empty texts, in order. */
  function Texts(parts: seq<Part>): (texts: seq<string>)
    ensures forall t :: t in texts ==> t != []
    ensures forall t :: t in texts ==> TextPart(t) in parts
  {
    if parts == [] then []
    else (if parts[0].TextPart? && parts[0].text != [] then [parts[0].text] else []) + Texts(parts[1..])
  }

  /** The calls of a single part: its own call, if it is one. */
  lemma FunctionCallsOne(p: Part)
    ensures FunctionCalls([p]) == if p.FunctionCall? then [p.call] else []
  {
    assert [p][1..] == [];
  }

  /** The calls of consecutive parts are the calls of each, in order. */
  lemma {:induction false} FunctionCallsAppend(a: seq<Part>, b: seq<Part>)
    ensures FunctionCalls(a + b) == FunctionCalls(a) + FunctionCalls(b)
    decreases |a|
  {
    if a == [] {
      assert a + b == b;
    } else {
      var head := if a[0].FunctionCall? then [a[0].call] else [];
      assert (a + b)[1..] == a[1..] + b;
      FunctionCallsAppend(a[1..], b);
      calc {
        FunctionCalls(a + b);
        head + FunctionCalls(a[1..] + b);
        head + (FunctionCalls(a[1..]) + FunctionCalls(b));
        { assert head + (FunctionCalls(a[1..]) + FunctionCalls(b)) == head + FunctionCalls(a[1..]) + FunctionCalls(b); }
        FunctionCalls(a) + FunctionCalls(b);
      }
    }
  }

  /** The texts of a single part: its text, if it is a non-empty one. */
  lemma TextsOne(p: Part)
    ensures Texts([p]) == if p.TextPart? && p.text != [] then [p.text] else []
  {
    assert [p][1..] == [];
  }

  /** The texts of consecutive parts are the texts of each, in order. */
  lemma {:induction false} TextsAppend(a: seq<Part>, b: seq<Part>)
    ensures Texts(a + b) == Texts(a) + Texts(b)
    decreases |a|
  {
    if a == [] {
      assert a + b == b;
    } else {
      var head := if a[0].TextPart? && a[0].text != [] then [a[0].text] else [];
      assert (a + b)[1..] == a[1..] + b;
      TextsAppend(a[1..], b);
      calc {
        Texts(a + b);
        head + Texts(a[1..] + b);
        head + (Texts(a[1..]) + Texts(b));
        { assert head + (Texts(a[1..]) + Texts(b)) == head + Texts(a[1..]) + Texts(b); }
        Texts(a) + Texts(b);
      }
    }
  }
}

=== FILE: Moderation.dfy ===
/**
 * The moderation tools, reduced to the requests they hand to Discord: the
 * clamped message-deletion window of a ban, the capped length of a timeout,
 * the capped purge of a text channel, and the warning that is stored before
 * the member is sent a direct message. Clock readings and the outcome of the
 * database write and of the direct message are parameters.
 */
module Moderation {
  import opened Wrappers
  import opened Discord
  import opened Helpers
  import opened Config
  import Info

  const SECONDS_PER_DAY: nat := 86400
  /** The most days of messages a ban may delete. */
  const MAX_DELETE_DAYS: nat := 7
  /** The longest timeout Discord allows: 28 days, in minutes. */
  const MAX_TIMEOUT_MINUTES: nat := 40320
  /** Milliseconds per minute, the unit of the model's clock. */
  const MINUTE: nat := 60000

  // ---------------------------------------------------------------------------
  // ban_user

  /** `min(max(delete_days, 0), 7)` */
  function DeleteDays(days: int): (d: int)
    ensures 0 <= d <= MAX_DELETE_DAYS
    ensures 0 <= days <= MAX_DELETE_DAYS ==> d == days
    ensures days < 0 ==> d == 0
    ensures days > MAX_DELETE_DAYS ==> d == MAX_DELETE_DAYS
  {
    Min(Max(days, 0), MAX_DELETE_DAYS)
  }

  /** `guild.ban(member, reason=..., delete_message_seconds=...)` */
  datatype BanOrder = BanOrder(member: Member, reason: string, deleteMessageSeconds: int)

  /** `ban_user`: find the member, then ban with a deletion window of the clamped days. */
  function BanUser(guild: Guild, userId: string, reason: string, deleteDays: int): (r: Result<BanOrder>)
    ensures r.Failure? <==> FindMember(guild, userId).Failure?
    ensures r.Failure? ==> r.error == "User '" + userId + "' not found in this server."
    ensures r.Success? ==> r.value.member == FindMember(guild, userId).value && r.value.reason == reason
    ensures r.Success? ==> 0 <= r.value.deleteMessageSeconds <= MAX_DELETE_DAYS * SECONDS_PER_DAY
    ensures r.Success? ==> r.value.deleteMessageSeconds == DeleteDays(deleteDays) * SECONDS_PER_DAY
  {
    match FindMember(guild, userId)
    case Failure(e) => Failure(e)
    case Success(m) => Success(BanOrder(m, reason, DeleteDays(deleteDays) * SECONDS_PER_DAY))
  }

  /** The deletion window is monotone in the requested days: asking for more never deletes less. */
  lemma BanWindowMonotone(guild: Guild, userId: string, reason: string, a: int, b: int)
    requires a <= b && FindMember(guild, userId).Success?
    ensures BanUser(guild, userId, reason, a).value.deleteMessageSeconds
            <= BanUser(guild, userId, reason, b).value.deleteMessageSeconds
  {
  }

  // ---------------------------------------------------------------------------
  // timeout_user

  /** `min(duration_minutes, 40320)`: capped above, with no lower clamp. */
  function TimeoutMinutes(minutes: int): (m: int)
    ensures m <= MAX_TIMEOUT_MINUTES
    ensures minutes <= MAX_TIMEOUT_MINUTES ==> m == minutes
    ensures minutes > MAX_TIMEOUT_MINUTES ==> m == MAX_TIMEOUT_MINUTES
  {
    Min(minutes, MAX_TIMEOUT_MINUTES)
  }

  /** `member.timeout(until, reason=...)`, with `until` on the millisecond clock. */
  datatype TimeoutOrder = TimeoutOrder(member: Member, until: int, reason: string)

  /** `timeout_user`: find the member, then time it out until `now` plus the capped duration. */
  function TimeoutUser(guild: Guild, userId: string, durationMinutes: int, reason: string, now: int)
    : (r: Result<TimeoutOrder>)
    ensures r.Failure? <==> FindMember(guild, userId).Failure?
    ensures r.Failure? ==> r.error == "User '" + userId + "' not found in this server."
    ensures r.Success? ==> r.value.member == FindMember(guild, userId).value && r.value.reason == reason
    ensures r.Success? ==> r.value.until <= now + MAX_TIMEOUT_MINUTES * MINUTE
    ensures r.Success? && durationMinutes <= MAX_TIMEOUT_MINUTES ==> r.value.until == now + durationMinutes * MINUTE
    ensures r.Success? && durationMinutes < 0 ==> r.value.until < now
  {
    match FindMember(guild, userId)
    case Failure(e) => Failure(e)
    case Success(m) => Success(TimeoutOrder(m, now + TimeoutMinutes(durationMinutes) * MINUTE, reason))
  }

  // ---------------------------------------------------------------------------
  // purge_messages

  /** A purge of the newest `limit` messages and the number it deleted. */
  datatype Purge = Purge(channel: Channel, limit: int, deleted: nat)

  /**
   * `purge_messages`: find the channel; a channel that is not a text
   * channel gets an error object and is not purged; otherwise the newest
   * messages, at most `MAX_PURGE_MESSAGES` of them, are deleted.
   */
  function PurgeMessages(guild: Guild, channelName: string, count: int): (r: Reply<Purge>)
    ensures r.Raised? <==> FindChannel(guild, channelName).Failure?
    ensures r.Raised? ==> r.error == "Channel '" + channelName + "' not found."
    ensures r.ErrorReply? <==> FindChannel(guild, channelName).Success?
                               && !IsTextChannel(FindChannel(guild, channelName).value.kind)
    ensures r.ErrorReply? ==> r.message == NotTextChannel(channelName)
    ensures r.Returned? ==> r.value.channel == FindChannel(guild, channelName).value
                            && IsTextChannel(r.value.channel.kind)
    ensures r.Returned? ==> r.value.limit <= MAX_PURGE_MESSAGES
                            && (count <= MAX_PURGE_MESSAGES ==> r.value.limit == count)
    ensures r.Returned? ==> r.value.deleted <= MAX_PURGE_MESSAGES && r.value.deleted <= |r.value.channel.history|
    ensures r.Returned? && count > 0 ==> r.value.deleted == Min(Min(count, MAX_PURGE_MESSAGES), |r.value.channel.history|)
    ensures r.Returned? && count <= 0 ==> r.value.deleted == 0
  {
    match FindChannel(guild, channelName)
    case Failure(e) => Raised(e)
    case Success(ch) =>
      if !IsTextChannel(ch.kind) then ErrorReply(NotTextChannel(channelName))
      else
        var limit := Min(count, MAX_PURGE_MESSAGES);
        Returned(Purge(ch, limit, |Info.Newest(ch.history, limit)|))
  }

  // ---------------------------------------------------------------------------
  // warn_user

  /** What `warn_user` does outside the model, in the order it does it. */
  datatype WarnStep =
    | StoreWarning(userId: string, reason: string, moderator: string)
    | SendWarning(memberId: int, text: string)

  /** The tool's report: the stored warning's id and whether the direct message arrived. */
  datatype WarnReport = WarnReport(status: string, member: Member, reason: string, warningId: int, dmSent: bool)

  datatype WarnRun = WarnRun(steps: seq<WarnStep>, outcome: Result<WarnReport>)

  /** The direct message a warned member is sent. */
  function WarningText(guildName: string, reason: string): string {
    "⚠️ **Warning from " + guildName + ":** " + reason
  }

  /**
   * `warn_user`: find the member, store the warning (`stored` is the
   * database's answer: the new id, or the error it raised), then try the
   * direct message (`delivered` says whether Discord accepted it).
   */
  function WarnUser(guild: Guild, userId: string, reason: string, moderator: string,
                    stored: Result<int>, delivered: bool): (r: WarnRun)
    ensures FindMember(guild, userId).Failure? ==>
              r.steps == [] && r.outcome == Failure("User '" + userId + "' not found in this server.")
    ensures FindMember(guild, userId).Success? ==>
              |r.steps| >= 1 && r.steps[0] == StoreWarning(userId, reason, moderator)
    ensures forall k :: 0 <= k < |r.steps| && r.steps[k].SendWarning? ==>
              k > 0 && r.steps[k - 1].StoreWarning? && stored.Success?
    ensures r.outcome.Success? <==> FindMember(guild, userId).Success? && stored.Success?
    ensures stored.Failure? && FindMember(guild, userId).Success? ==> r.outcome == Failure(stored.error)
    ensures r.outcome.Success? ==>
              r.steps == [StoreWarning(userId, reason, moderator),
                          SendWarning(r.outcome.value.member.id, WarningText(guild.name, reason))]
    ensures r.outcome.Success? ==>
              r.outcome.value.status == "warned" && r.outcome.value.dmSent == delivered
              && r.outcome.value.warningId == stored.value && r.outcome.value.member == FindMember(guild, userId).value
  {
    match FindMember(guild, userId)
    case Failure(e) => WarnRun([], Failure(e))
    case Success(m) =>
      var store := StoreWarning(userId, reason, moderator);
      match stored
      case Failure(e) => WarnRun([store], Failure(e))
      case Success(id) =>
        WarnRun([store, SendWarning(m.id, WarningText(guild.name, reason))],
                Success(WarnReport("warned", m, reason, id, delivered)))
  }

  /** A failed direct message changes nothing but the `dm_sent` flag. */
  lemma WarnDespiteFailedMessage(guild: Guild, userId: string, reason: string, moderator: string, stored: Result<int>)
    ensures WarnUser(guild, userId, reason, moderator, stored, false).steps
            == WarnUser(guild, userId, reason, moderator, stored, true).steps
    ensures WarnUser(guild, userId, reason, moderator, stored, true).outcome.Success? ==>
              WarnUser(guild, userId, reason, moderator, stored, false).outcome
              == Success(WarnUser(guild, userId, reason, moderator, stored, true).outcome.value.(dmSent := false))
  {
  }
}

=== FILE: RateLimiter.dfy ===
/**
 * Per-tool cooldowns. The limiter remembers, per tool name, when that tool
 * was last let through, and makes the next call of the same name wait until
 * the name's cooldown has passed since then. Time is an integer clock in
 * milliseconds supplied by the caller; the lock that serialises callers is
 * not modelled, so acquisitions are taken one after another.
 */
module RateLimiting {
  import opened Config

  /** Tools that get the longer cooldown. Defined apart from the confirmation list. */
  const MODERATION_TOOLS: set<string> := {
    "ban_user", "unban_user", "kick_user", "timeout_user", "remove_timeout",
    "purge_messages", "delete_channel", "delete_category", "delete_role",
    "set_server_name", "delete_invite", "delete_emoji"
  }

  /** `_get_cooldown` */
  function Cooldown(toolName: string): (c: nat)
    ensures toolName in MODERATION_TOOLS ==> c == TOOL_COOLDOWN_MODERATION
    ensures toolName !in MODERATION_TOOLS ==> c == TOOL_COOLDOWN_DEFAULT
  {
    if toolName in MODERATION_TOOLS then TOOL_COOLDOWN_MODERATION else TOOL_COOLDOWN_DEFAULT
  }

  /**
   * The sleep needed when `elapsed` time has passed and `cooldown` must:
   * none when the cooldown is over, otherwise exactly the rest of it.
   */
  function RemainingWait(elapsed: int, cooldown: nat): (w: nat)
    ensures elapsed + w >= cooldown
    ensures w == 0 <==> elapsed >= cooldown
    ensures w > 0 ==> elapsed + w == cooldown
  {
    if elapsed < cooldown then cooldown - elapsed else 0
  }

  /** The recorded time of a name; a name never seen counts as called at time 0. */
  function LastCallIn(last: map<string, int>, toolName: string): int
  {
    if toolName in last then last[toolName] else 0
  }

  /** How long `acquire(toolName)` sleeps when called at `now`. */
  function WaitFor(last: map<string, int>, toolName: string, now: int): nat
  {
    RemainingWait(now - LastCallIn(last, toolName), Cooldown(toolName))
  }

  /** The time `acquire` records for the name: the clock after its sleep. */
  function Released(last: map<string, int>, toolName: string, now: int): (t: int)
    ensures t >= LastCallIn(last, toolName) + Cooldown(toolName)
    ensures t >= now
    ensures t == now || t == LastCallIn(last, toolName) + Cooldown(toolName)
  {
    now + WaitFor(last, toolName, now)
  }

  class RateLimiter {
    /** `_last_call`: tool name to the time of its last acquisition. */
    var lastCall: map<string, int>

    constructor ()
      ensures lastCall == map[]
    {
      lastCall := map[];
    }

    /**
     * `acquire`: sleep for the rest of the name's cooldown, if any, then
     * record the clock. Only the entry of `toolName` changes.
     */
    method Acquire(toolName: string, now: int) returns (wait: nat)
      modifies this
      ensures wait == WaitFor(old(lastCall), toolName, now)
      ensures lastCall == old(lastCall)[toolName := now + wait]
      ensures lastCall[toolName] == Released(old(lastCall), toolName, now)
      ensures lastCall[toolName] >= LastCallIn(old(lastCall), toolName) + Cooldown(toolName)
      ensures forall n :: n != toolName ==> LastCallIn(lastCall, n) == LastCallIn(old(lastCall), n)
    {
      var cooldown := Cooldown(toolName);
      var elapsed := now - LastCallIn(lastCall, toolName);
      wait := 0;
      if elapsed < cooldown {
        wait := cooldown - elapsed;
      }
      lastCall := lastCall[toolName := now + wait];
    }

    /** `reset`: forget every name, so each next `acquire` is a first call. */
    method Reset()
      modifies this
      ensures lastCall == map[]
      ensures forall n, now :: WaitFor(lastCall, n, now) == RemainingWait(now, Cooldown(n))
    {
      lastCall := map[];
    }
  }

  /** One call of `acquire`: which tool, and the clock when it is called. */
  datatype Request = Request(toolName: string, now: int)

  /** The times at which a series of acquisitions are let through, in order. */
  function Replay(last: map<string, int>, reqs: seq<Request>): (times: seq<int>)
    ensures |times| == |reqs|
    decreases |reqs|
  {
    if reqs == [] then []
    else
      var t := Released(last, reqs[0].toolName, reqs[0].now);
      [t] + Replay(last[reqs[0].toolName := t], reqs[1..])
  }

  /** Every acquisition of a name is let through a cooldown after the name's recorded time. */
  lemma {:induction false} ReplayAfterRecorded(last: map<string, int>, reqs: seq<Request>, j: nat)
    requires j < |reqs|
    ensures Replay(last, reqs)[j] >= LastCallIn(last, reqs[j].toolName) + Cooldown(reqs[j].toolName)
    decreases j
  {
    var t := Released(last, reqs[0].toolName, reqs[0].now);
    if j > 0 {
      var last' := last[reqs[0].toolName := t];
      ReplayAfterRecorded(last', reqs[1..], j - 1);
      assert LastCallIn(last', reqs[j].toolName) >= LastCallIn(last, reqs[j].toolName);
    }
  }

  /**
   * Two acquisitions of the same name, whatever else happens between them,
   * are let through at least that name's cooldown apart.
   */
  lemma {:induction false} ReplaySpacing(last: map<string, int>, reqs: seq<Request>, i: nat, j: nat)
    requires i < j < |reqs| && reqs[i].toolName == reqs[j].toolName
    ensures Replay(last, reqs)[j] >= Replay(last, reqs)[i] + Cooldown(reqs[i].toolName)
    decreases i
  {
    var t := Released(last, reqs[0].toolName, reqs[0].now);
    var last' := last[reqs[0].toolName := t];
    if i == 0 {
      ReplayAfterRecorded(last', reqs[1..], j - 1);
    } else {
      ReplaySpacing(last', reqs[1..], i - 1, j - 1);
    }
  }
}

=== FILE: Schemas.dfy ===
/** The part of the tool catalogue the loop consults: which tools need confirmation. */
module Schemas {

  /** Tools that need an administrator's approval before they run. */
  const DESTRUCTIVE_TOOLS: set<string> := {
    "ban_user", "unban_user", "kick_user", "timeout_user", "remove_timeout",
    "purge_messages", "delete_channel", "delete_category", "delete_role",
    "set_server_name", "delete_invite", "delete_emoji"
  }
}

=== FILE: Text.dfy ===
/**
 * The few string operations of Python's `str` that the bot relies on:
 * `lower`, `strip`, `lstrip`, `replace` of one character, `in`, `rfind`,
 * `split` on one character, `join`, and decimal rendering of integers.
 * Case folding and whitespace are ASCII only.
 */
module Text {
  import Wrappers

  predicate IsUpper(c: char) { 'A' <= c <= 'Z' }

  /** Python's whitespace set for `strip`, restricted to ASCII. */
  predicate IsSpace(c: char) {
    c == ' ' || c == '\t' || c == '\n' || c == '\r' || c == '\U{000B}' || c == '\U{000C}'
    || ('\U{001C}' <= c <= '\U{001F}')
  }

  function LowerChar(c: char): (r: char)
    ensures IsUpper(c) ==> r as int == c as int + 32
    ensures !IsUpper(c) ==> r == c
  {
    if IsUpper(c) then (c as int + 32) as char else c
  }

  /** `s.lower()` */
  function Lower(s: string): (r: string)
    ensures |r| == |s|
    ensures forall i :: 0 <= i < |s| ==> r[i] == LowerChar(s[i])
  {
    seq(|s|, i requires 0 <= i < |s| => LowerChar(s[i]))
  }

  /** Removes the leading characters equal to `c`: `s.lstrip(c)`. */
  function DropLeading(s: string, c: char): (r: string)
    ensures |r| <= |s| && r == s[|s| - |r|..]
    ensures r == [] || r[0] != c
    ensures forall i :: 0 <= i < |s| - |r| ==> s[i] == c
  {
    if s != [] && s[0] == c then DropLeading(s[1..], c) else s
  }

  /** Removes leading whitespace: `s.lstrip()`. */
  function TrimStart(s: string): (r: string)
    ensures |r| <= |s| && r == s[|s| - |r|..]
    ensures r == [] || !IsSpace(r[0])
    ensures forall i :: 0 <= i < |s| - |r| ==> IsSpace(s[i])
  {
    if s != [] && IsSpace(s[0]) then TrimStart(s[1..]) else s
  }

  /** Removes trailing whitespace: `s.rstrip()`. */
  function TrimEnd(s: string): (r: string)
    ensures |r| <= |s| && r == s[..|r|]
    ensures r == [] || !IsSpace(r[|r| - 1])
    ensures forall i :: |r| <= i < |s| ==> IsSpace(s[i])
  {
    if s != [] && IsSpace(s[|s| - 1]) then TrimEnd(s[..|s| - 1]) else s
  }

  /** `sub` occurs in `s` starting at index `i`. */
  predicate OccursAt(s: string, sub: string, i: int) {
    0 <= i <= |s| - |sub| && s[i..i + |sub|] == sub
  }

  /** `s` is `r` at index `k` with only whitespace around it. */
  predicate Padded(s: string, r: string, k: int) {
    && OccursAt(s, r, k)
    && (forall i :: 0 <= i < k ==> IsSpace(s[i]))
    && (forall i :: k + |r| <= i < |s| ==> IsSpace(s[i]))
  }

  /** `s.strip()`: `s` without the whitespace at either end, and nothing else removed. */
  function Strip(s: string): (r: string)
    ensures exists k :: Padded(s, r, k)
    ensures r == [] || (!IsSpace(r[0]) && !IsSpace(r[|r| - 1]))
  {
    var t := TrimStart(s);
    var r := TrimEnd(t);
    PaddedAfterTrims(s, t, r);
    r
  }

  /** A suffix `t` of `s` after leading whitespace, cut to a prefix `r` before trailing
      whitespace, leaves `r` padded inside `s`. */
  lemma PaddedAfterTrims(s: string, t: string, r: string)
    requires |t| <= |s| && t == s[|s| - |t|..]
    requires forall i :: 0 <= i < |s| - |t| ==> IsSpace(s[i])
    requires |r| <= |t| && r == t[..|r|]
    requires forall i :: |r| <= i < |t| ==> IsSpace(t[i])
    ensures Padded(s, r, |s| - |t|)
  {
    var k := |s| - |t|;
    forall i | k + |r| <= i < |s|
      ensures IsSpace(s[i])
    {
      assert s[i] == t[i - k];
    }
    assert s[k..k + |r|] == t[..|r|];
  }

  /** `s.replace(c, "")` */
  function RemoveChar(s: string, c: char): (r: string)
    ensures c !in r
    ensures |r| <= |s|
  {
    if s == [] then [] else (if s[0] == c then [] else [s[0]]) + RemoveChar(s[1..], c)
  }

  /** Removing `c` keeps every other character and only those. */
  lemma {:induction false} RemoveCharMembers(s: string, c: char, x: char)
    ensures x in RemoveChar(s, c) <==> x in s && x != c
    decreases |s|
  {
    if s != [] {
      RemoveCharMembers(s[1..], c, x);
      assert s == [s[0]] + s[1..];
    }
  }

  /** Python's `sub in s`. */
  function Contains(s: string, sub: string): (b: bool)
    ensures b <==> exists i :: OccursAt(s, sub, i)
  {
    if sub <= s then
      assert OccursAt(s, sub, 0);
      true
    else if s == [] then
      false
    else
      var b := Contains(s[1..], sub);
      if b then
        var i :| OccursAt(s[1..], sub, i);
        assert OccursAt(s, sub, i + 1) by {
          assert s[i + 1..i + 1 + |sub|] == s[1..][i..i + |sub|];
        }
        b
      else
        assert !OccursAt(s, sub, 0);
        forall i | 1 <= i <= |s| - |sub|
          ensures !OccursAt(s, sub, i)
        {
          var t := s[1..];
          var u, v := s[i..i + |sub|], t[i - 1..i - 1 + |sub|];
          assert forall k :: 0 <= k < |sub| ==> u[k] == v[k];
          assert u == v;
          assert !OccursAt(t, sub, i - 1);
        }
        b
  }

  /** `s.rfind(c, 0, end)`: the last index below `end` holding `c`, if any. */
  function LastIndexBefore(s: string, c: char, end: nat): (r: Index)
    ensures r.Found? ==> r.index < end && r.index < |s| && s[r.index] == c
    ensures r.Found? ==> forall j :: r.index < j < end && j < |s| ==> s[j] != c
    ensures r.NotFound? ==> forall j :: 0 <= j < end && j < |s| ==> s[j] != c
    decreases end
  {
    if end == 0 then NotFound
    else if end - 1 < |s| && s[end - 1] == c then Found(end - 1)
    else LastIndexBefore(s, c, end - 1)
  }

  /** Result of a search for an index; `rfind`'s -1 is `NotFound`. */
  datatype Index = NotFound | Found(index: nat)

  /** Concatenation regroups freely. */
  lemma ConcatAssoc<T>(a: seq<T>, b: seq<T>, c: seq<T>)
    ensures a + b + c == a + (b + c)
  {
  }

  /** A concatenation starts with its first part. */
  lemma PrefixOfConcat<T>(a: seq<T>, b: seq<T>, c: seq<T>)
    ensures (a + b + c)[..|a|] == a
  {
    ConcatAssoc(a, b, c);
    assert (a + (b + c))[..|a|] == a;
  }

  /** `sep.join(parts)` */
  function Join(parts: seq<string>, sep: string): string
  {
    if parts == [] then ""
    else if |parts| == 1 then parts[0]
    else parts[0] + sep + Join(parts[1..], sep)
  }

  function IndexOf(s: string, c: char): (r: Index)
    ensures r.Found? ==> r.index < |s| && s[r.index] == c && c !in s[..r.index]
    ensures r.NotFound? ==> c !in s
  {
    if s == [] then NotFound
    else if s[0] == c then Found(0)
    else match IndexOf(s[1..], c)
      case NotFound => NotFound
      case Found(k) =>
        assert s[..k + 1] == [s[0]] + s[1..][..k];
        Found(k + 1)
  }

  /** `s.split(c)`: never empty; the pieces hold no `c`. */
  function SplitOn(s: string, c: char): (pieces: seq<string>)
    ensures |pieces| >= 1
    ensures forall p :: p in pieces ==> c !in p
    decreases |s|
  {
    match IndexOf(s, c)
    case NotFound => [s]
    case Found(k) => [s[..k]] + SplitOn(s[k + 1..], c)
  }

  /** Splitting on `c` and joining back with `c` gives the string back. */
  lemma {:induction false} JoinSplitOn(s: string, c: char)
    ensures Join(SplitOn(s, c), [c]) == s
    decreases |s|
  {
    match IndexOf(s, c)
    case NotFound =>
    case Found(k) =>
      var rest := SplitOn(s[k + 1..], c);
      JoinSplitOn(s[k + 1..], c);
      assert SplitOn(s, c) == [s[..k]] + rest;
      assert Join(SplitOn(s, c), [c]) == s[..k] + [c] + Join(rest, [c]);
      assert s == s[..k] + [c] + s[k + 1..];
  }

  function DigitChar(d: nat): (c: char)
    requires d < 10
    ensures '0' <= c <= '9'
  {
    ('0' as int + d) as char
  }

  /** `str(n)` for a natural number. */
  function NatToString(n: nat): (r: string)
    ensures |r| >= 1
    ensures forall i :: 0 <= i < |r| ==> '0' <= r[i] <= '9'
    decreases n
  {
    if n < 10 then [DigitChar(n)] else NatToString(n / 10) + [DigitChar(n % 10)]
  }

  /** `str(i)` for an integer. */
  function IntToString(i: int): (r: string)
    ensures |r| >= 1
    ensures (r[0] == '-') <==> i < 0
  {
    if i < 0 then "-" + NatToString(-i) else NatToString(i)
  }

  predicate IsDigit(c: char) { '0' <= c <= '9' }

  predicate AllDigits(s: string) { forall i :: 0 <= i < |s| ==> IsDigit(s[i]) }

  /** The value of a string of decimal digits, most significant first. */
  function DigitsValue(ds: string): nat
    requires AllDigits(ds)
    decreases |ds|
  {
    if ds == [] then 0 else DigitsValue(ds[..|ds| - 1]) * 10 + (ds[|ds| - 1] as int - '0' as int)
  }

  /**
   * `int(s)` on a string: surrounding whitespace, an optional sign, then one
   * or more decimal digits; anything else is `None` (Python's ValueError).
   */
  function ParseInt(s: string): Wrappers.Option<int>
  {
    ParseSigned(Strip(s))
  }

  /** An optional sign followed by one or more decimal digits. */
  function ParseSigned(t: string): Wrappers.Option<int>
  {
    if t == [] then Wrappers.None
    else
      var negative := t[0] == '-';
      var digits := if t[0] == '-' || t[0] == '+' then t[1..] else t;
      if digits != [] && AllDigits(digits) then
        var v: int := DigitsValue(digits);
        Wrappers.Some(if negative then -v else v)
      else Wrappers.None
  }

  lemma {:induction false} DigitsValueOfNatToString(n: nat)
    ensures AllDigits(NatToString(n)) && DigitsValue(NatToString(n)) == n
    decreases n
  {
    var r := NatToString(n);
    if n >= 10 {
      DigitsValueOfNatToString(n / 10);
      assert r[..|r| - 1] == NatToString(n / 10);
    }
  }

  /** A string without whitespace is its own `strip()`. */
  lemma StripNoSpace(r: string)
    requires forall k :: 0 <= k < |r| ==> !IsSpace(r[k])
    ensures Strip(r) == r
  {
    assert TrimStart(r) == r;
  }

  /** Rendering an integer with `str` and reading it back with `int` is the identity. */
  lemma ParseIntToString(i: int)
    ensures ParseInt(IntToString(i)) == Wrappers.Some(i)
  {
    var r := IntToString(i);
    SignedToString(i);
    forall k | 0 <= k < |r| ensures !IsSpace(r[k]) {
    }
    StripNoSpace(r);
  }

  /** `str(i)` holds only digits and a leading minus sign, and reads back as `i`. */
  lemma {:induction false} SignedToString(i: int)
    ensures ParseSigned(IntToString(i)) == Wrappers.Some(i)
    ensures forall k :: 0 <= k < |IntToString(i)| ==> IntToString(i)[k] == '-' || IsDigit(IntToString(i)[k])
  {
    var r := IntToString(i);
    var n: nat := if i < 0 then -i else i;
    var ds := NatToString(n);
    DigitsValueOfNatToString(n);
    if i < 0 {
      assert r == "-" + ds;
      assert r[1..] == ds;
      forall k | 0 <= k < |r| ensures r[k] == '-' || IsDigit(r[k]) {
        if k > 0 { assert r[k] == ds[k - 1]; }
      }
    } else {
      assert r == ds;
    }
  }
}

=== FILE: Wrappers.dfy ===
/** Option and Result, used for absent values and raised errors. */
module Wrappers {

  datatype Option<+T> = None | Some(value: T)

  /** `Failure(message)` stands for a raised ValueError carrying `message`. */
  datatype Result<+T> = Success(value: T) | Failure(error: string)
}
